=== FILE: README.md ===
# anlex-guard security controller in Dafny

This project models the core of anlex-guard, a Raspberry Pi home-security box:

- the security state machine, with its four modes DISARMED, ARMED, PRE_ALARM and ALARM
- the remote-command handler for Adafruit IO control feeds
- the LED, buzzer and servo wrappers
- the motion, temperature/humidity and badge-reader wrappers
- the configuration loader with its environment overrides and validation
- the decision logic of the Adafruit IO service
- the image retention rules of the local storage service

Everything is pure. Each entry point of the controller is a function from the current `State` (and the clock, where the source reads it) to a `Step`. A step holds the new state, the tasks put on the task queue and the events appended to the event log. Hardware drivers, the MQTT client, HTTP, the camera, e-mail and the file system are not modelled. What they report enters as a parameter.

Modules, one per file:

| file | module | models |
|---|---|---|
| common.dfy | `Common` | `Option`, `Result`, Python slice bounds |
| text.dfy | `Text` | `str.strip`, `str.lower`, `str.split`, `str(int)`, `int(str)`, `float(str)` |
| actuators.dfy | `Actuators` | hardware/actuators.py |
| sensors.dfy | `Sensors` | hardware/sensors.py |
| config.dfy | `Config` | app/config.py |
| adafruit.dfy | `Adafruit` | services/adafruit_service.py |
| storage.dfy | `Storage` | services/storage_service.py |
| machine.dfy | `Machine` | app/state_machine.py, except the control handler |
| dispatcher.dfy | `Dispatcher` | `_handle_adafruit_control` and the MQTT message path into it |
| properties.dfy | `Properties` | invariants and scenarios spanning several entry points |

Conventions:

- **Time** is an integer number of milliseconds. The `logic` settings (`pre_alarm_delay_seconds` and the rest) are given in the same unit. Python's `int(elapsed)` on seconds becomes `WholeSeconds`, which truncates toward zero.
- **Task queue.** Each queued tuple is a `Task`: `("publish", (feed, value))`, `("capture_photo", reason)`, `("beep", 0.2)` and `("send_email_alert", None)`. Beep durations are in milliseconds.
- **Events** keep type, details and mode. The timestamp is dropped.
- **Degree sign.** The SERVO_ANGLE detail text keeps the source's double-encoded degree sign, "Â°".

## Model

| member | source | states |
|---|---|---|
| Common.SliceIndex | app/state_machine.py:671 | the position a Python slice bound denotes: non-negative bounds are capped at the length; negative bounds count from the end and stop at 0 |
| Text.Strip | app/state_machine.py:268 | the result is the slice of the input that starts right after the leading white space; its ends are not white space |
| Text.StripRemovesSpace | app/state_machine.py:268 | everything `strip` removes, before and after the kept slice, is white space |
| Text.StripIdempotent | app/state_machine.py:268 | stripping an already stripped value changes nothing |
| Text.Lower | app/state_machine.py:268 | lower-casing keeps the length and maps each character on its own |
| Text.LowerIdempotent | app/state_machine.py:268 | lower-casing twice is lower-casing once |
| Text.Split | app/config.py:71 | `split(',')` yields at least one piece; no piece holds a comma; joining the pieces with commas gives the text back |
| Text.SplitJoin | app/config.py:71 | splitting comma-joined, comma-free pieces gives the pieces back |
| Text.IntToStringRoundTrip | app/config.py:71 | `int(str(n)) == n` for every integer, so allow-list numbers survive rendering |
| Text.IntToStringInjective | app/state_machine.py:382 | two integers render to the same text exactly when they are equal, which is what makes the text comparison of badge ids sound |
| Text.NatToStringFloat | app/state_machine.py:313 | `float(str(n))` is the finite number n |
| Text.Trunc | app/state_machine.py:313 | `int()` of a float truncates toward zero: the result is within 1 of x, on the side of zero |
| Actuators.LedOn | hardware/actuators.py:30-38 | a non-forced write is dropped while background control is suspended; otherwise the LED is lit; the suspend flag never changes |
| Actuators.LedOff | hardware/actuators.py:40-48 | the same rule for switching the LED off |
| Actuators.BlinkWrites | hardware/actuators.py:64-72 | a blink of `count` makes one initial off and then count on/off pairs: 2·count+1 writes that start and end with off |
| Actuators.Blink | hardware/actuators.py:59-76 | every write during the blink runs with background control suspended; the previous suspend flag comes back afterwards, even when a write raises; a completed run leaves the LED dark; a fault at write k leaves exactly k writes done |
| Actuators.OnOffRounds | app/state_machine.py:208-214 | the arming feedback's non-forced rounds leave the LED dark, unless a blink has suspended background control, in which case nothing changes |
| Actuators.StartSiren | hardware/actuators.py:128-134 | afterwards the siren runs; starting a running siren changes nothing |
| Actuators.Stop | hardware/actuators.py:136-143 | afterwards the siren is off; stopping a running siren silences the output; stopping an idle buzzer changes nothing |
| Actuators.BeepTwice | hardware/actuators.py:117-126 | two beeps of the given duration sound, and the output ends off |
| Actuators.StartSirenIdempotent | hardware/actuators.py:128-134 | starting the siren twice is starting it once |
| Actuators.StopAfterStart | hardware/actuators.py:128-143 | stopping twice is stopping once; start then stop leaves a silent, stopped buzzer |
| Actuators.Lock | hardware/actuators.py:198-208 | the servo ends at the locked angle; the motor is driven exactly when it was not already there; the configured angles never change |
| Actuators.Unlock | hardware/actuators.py:210-220 | the same for the unlocked angle |
| Actuators.LockIdempotent | hardware/actuators.py:198-220 | a second lock, or a second unlock, does not drive the motor |
| Actuators.LockUnlockRoundTrip | hardware/actuators.py:198-220 | from the unlocked position, lock then unlock returns the servo to the same state |
| Sensors.MotionDetected | hardware/sensors.py:39-44 | motion is reported exactly when the raw sensor fires and the debounce time has passed since the last report; only a report moves the debounce window |
| Sensors.DetectionsSeparated | hardware/sensors.py:39-44 | over any series of polls, every two reported detections are at least the debounce time apart, and so is the first from the previous report |
| Sensors.ReadDht | hardware/sensors.py:67-92 | a reading comes back exactly when the driver gives both values; a missing value or any fault gives `(None, None)`; only a non-runtime fault drops the lazily created driver |
| Sensors.ReadRfid | hardware/sensors.py:110-118 | a tag id comes back exactly when the reader returns a truthy id (present and non-zero); a read fault gives None |
| Config.NonBlank | app/config.py:71 | what survives the blank filter is non-empty, never longer than the input, and each survivor is some input token, stripped |
| Config.NonBlankKeepsAll | app/config.py:71 | every token that is not blank after stripping survives the filter, stripped |
| Config.NonBlankOne | app/config.py:71 | a single token survives exactly when it is not blank, and then stripped |
| Config.NonBlankCons | app/config.py:71 | the filter on one token followed by more is that token's own outcome followed by the filter on the rest |
| Config.NonBlankConcat | app/config.py:71 | the filter works token by token, so it keeps the order of the tokens: filtering a concatenation is concatenating the filtered parts |
| Config.Collect | app/config.py:71 | a list of per-token conversions succeeds exactly when every token converted, keeping the values in order; otherwise the error names the first token whose conversion failed |
| Config.ParseAll | app/config.py:70-72 | the list converts exactly when every token is an integer literal, each value being its token's `int()`; otherwise the error names the first token `int()` rejects |
| Config.BadgeListRoundTrip | app/config.py:68-72 | writing a non-empty list of integers as AUTHORIZED_RFID_IDS and reading it back gives the same list |
| Config.PaddedBadgeList | app/config.py:68-72 | the padded text " 1 , ,2" reads as the badges 1 and 2: tokens are trimmed, the blank one is dropped and the order is kept |
| Config.NonBlankRendered | app/config.py:71 | rendered integers all pass the blank filter unchanged |
| Config.ParseRendered | app/config.py:71 | `int()` of each rendered integer gives the integer back |
| Config.Put | app/config.py:54-65 | a write lands only when its variable is set, and it raises KeyError when the section is absent |
| Config.OverrideAdafruit | app/config.py:53-56 | the overrides succeed exactly when the `adafruit_io` section exists or neither ADAFRUIT_IO_USERNAME nor ADAFRUIT_IO_KEY is set, and otherwise raise for that section; a set variable overwrites its field, an unset one leaves it alone, every other field and every other part of the configuration stays as it was; with neither set nothing changes |
| Config.OverrideEmail | app/config.py:59-65 | the overrides succeed exactly when the `email` section exists, BREVO_API_KEY is set, or neither EMAIL_FROM nor EMAIL_TO is set, and otherwise raise for that section; BREVO_API_KEY creates and lists the section when it is missing; each set variable overwrites its field, other fields and the rest of the configuration stay as they were; with none set nothing changes |
| Config.ApplyEnvOverrides | app/config.py:50-73 | the overrides succeed exactly when the credential and e-mail writes find their sections and a set AUTHORIZED_RFID_IDS parses; the error is the first failure in source order; the credentials and e-mail are those the two section overrides give; the sections gain "email" exactly when BREVO_API_KEY is set and "authorized_rfids" exactly when AUTHORIZED_RFID_IDS is set; the allow-list is replaced only then, by its integers in order |
| Config.OverrideAllowList | app/config.py:67-73 | a non-empty AUTHORIZED_RFID_IDS replaces the allow-list by its integers and lists the entry, and raises the parse error when a token is not an integer; an unset one changes nothing |
| Config.OverridesKeepRequired | app/config.py:50-80 | the overrides add at most the `email` and `authorized_rfids` sections, so a required section is present after them exactly when it was before |
| Config.OverridesKeepCoherent | app/config.py:59-72 | every section the overrides create is also listed among the configuration's keys |
| Config.OverridesSettle | app/config.py:50-73 | after the overrides, the configuration carries the value of every set variable in its field |
| Config.SettledUnchanged | app/config.py:50-73 | a configuration that already carries every set variable is a fixed point of the overrides |
| Config.OverridesIdempotent | app/config.py:50-73 | applying the overrides to their own result changes nothing more |
| Config.Numeric | app/config.py:70-72 | each parsed integer becomes a numeric allow-list entry, in order |
| Config.FirstMissing | app/config.py:77-80 | reports a required section exactly when one is absent, and the one it reports is the first absent one in the order pins, camera, logic, servo_angle |
| Config.Validate | app/config.py:75-83 | validation raises exactly when a required section is missing, naming the first missing one in the order pins, camera, logic, servo_angle; otherwise the "no authorized RFID keys" warning fires exactly when the allow-list is absent or empty |
| Config.AuthorizedRfids | app/config.py:127-129 | an absent allow-list reads as empty |
| Config.Load | app/config.py:17-34 | loading succeeds exactly when the overrides do and the file already has every required section, and yields the overridden configuration; an override error is raised as it is, before any validation; the overrides never add or remove a required section, though they may add `email` and `authorized_rfids`; a validation error names the first required section the file lacks |
| Config.LoadWithoutEnvironment | app/config.py:17-34 | with no environment variable set, a file with the required sections loads unchanged |
| Config.LoadOnlyBadges | app/config.py:67-80 | with only AUTHORIZED_RFID_IDS set, a file with the required sections loads with the parsed allow-list and the entry listed, and nothing else changes |
| Config.LoadWithBadges | app/config.py:67-80 | AUTHORIZED_RFID_IDS=" 1 , ,2" loads as the allow-list [1, 2] |
| Config.EmptyAllowListOnlyWarns | app/config.py:82-83 | an empty allow-list only warns and does not stop loading |
| Adafruit.FeedKey | services/adafruit_service.py:143 | `feeds.get(name)` is absent exactly when no feed has that name; a present key is that feed's key |
| Adafruit.KeyOwner | services/adafruit_service.py:90-94 | the reverse lookup finds nothing exactly when no feed has that key; what it finds is the first feed, in iteration order, configured with that key |
| Adafruit.Publish | services/adafruit_service.py:134-180 | an unknown feed fails and tries no transport; MQTT is tried exactly when the feed is known and the client is connected; REST is tried exactly when MQTT did not succeed; the publish succeeds exactly when one transport delivered; the topic is `username/feeds/key` |
| Adafruit.PublishFailsOnlyIfBothFail | services/adafruit_service.py:153-180 | for a known feed, a publish fails exactly when MQTT did not deliver and REST did not answer 200 or 201 |
| Adafruit.OnMessage | services/adafruit_service.py:81-114 | as written: a topic with fewer than three segments, a feed that is not a control feed, a missing callback or a JSON non-object payload delivers nothing; a JSON object delivers its "value" field, or the raw text when it has none; non-JSON text is delivered raw |
| Adafruit.OnMessageIntended | services/adafruit_service.py:100-105 | as intended: a message is delivered exactly when its third topic segment is the key of a control feed and a callback is set; anything other than a JSON object is delivered as raw text |
| Adafruit.NonObjectPayloadDropped | services/adafruit_service.py:101-114 | on a control feed's own topic, a JSON non-object payload is dropped by the code as written but delivered raw by the intended handler; on every other payload kind the two agree |
| Adafruit.TopicSplit | services/adafruit_service.py:70 | a topic built from a slash-free user name and key splits back into user name, "feeds" and key |
| Adafruit.ControlTopicRoundTrip | services/adafruit_service.py:70-111 | a plain-text message on the topic subscribed for a control feed is delivered to that feed |
| Adafruit.Subscriptions | services/adafruit_service.py:67-72 | the topics subscribed are exactly those of the listed feeds that have a key |
| Adafruit.OnConnect | services/adafruit_service.py:60-74 | rc 0 marks the client connected and subscribes to exactly the control feeds that have a key; any other rc changes nothing and subscribes to nothing |
| Adafruit.OnConnectDelivers | services/adafruit_service.py:60-111 | when user name and keys hold no '/' and each control feed owns its key, a plain-text message on any topic subscribed at connection reaches the callback under the control feed the topic was subscribed for |
| Adafruit.GetHistoricalData | services/adafruit_service.py:219-260 | an unknown feed returns [] without a request; a known feed requests `min(limit, 1000)` points; data comes back only from a 200 answer, and a 200 answer for a known feed yields exactly its body |
| Adafruit.HistoryClampIdempotent | services/adafruit_service.py:241 | the limit sent is the largest value bounded by both the caller's limit and 1000, which is `min(limit, 1000)`; asking again with it makes the same request and gets the same data |
| Adafruit.HistoryLimitCapped | services/adafruit_service.py:241 | asking for 1000 points or more is the same query as asking for exactly 1000 |
| Adafruit.UploadPhoto | services/adafruit_service.py:182-217 | a photo is published exactly when the file is readable and at most 100000 bytes, to the topic `username/feeds/<key>` where the key is the photos feed's key, or "photos" when no photos feed is configured |
| Adafruit.PhotoTopicIsPublishTopic | services/adafruit_service.py:205 | with a configured photos feed, a photo goes to the same topic a publish to the "photos" feed uses |
| Storage.Jpgs | services/storage_service.py:37 | the images are exactly the directory entries whose names end in ".jpg" |
| Storage.JpgsConcat | services/storage_service.py:37 | the image filter works entry by entry, so the images keep their scan order: filtering a concatenation is concatenating the filtered parts |
| Storage.Insert | services/storage_service.py:36-40 | inserting adds exactly the one entry: the result is the old entries plus the new one, as a multiset |
| Storage.InsertNewestFirst | services/storage_service.py:36-40 | inserting into a newest-first list keeps it newest first |
| Storage.SortNewest | services/storage_service.py:36-40 | `sorted(key=mtime, reverse=True)` is newest first and a permutation of its input |
| Storage.SortNewestStable | services/storage_service.py:36-40 | the sort is stable: entries with the same modification time keep their scan order |
| Storage.ListImages | services/storage_service.py:25-53 | a failed scan lists nothing; otherwise the list holds only images of the directory, newest first, and is the start of the sorted images; for a limit ≥ 0 its length is the smaller of the limit and the image count, and a negative limit -k drops the k oldest images, as Python's `[:limit]` does |
| Storage.DeleteOldImages | services/storage_service.py:55-75 | nothing is deleted when the scan fails or there are at most `max_count` images; only images are deleted, newest first; when every unlink succeeds, exactly `images[max_count:]` is deleted |
| Storage.Unlinked | services/storage_service.py:69-71 | the unlink loop removes a run of the sorted list starting at Python's `[max_count:]` bound; without a failing unlink the run is the whole `[max_count:]`; an unlink failing at step k leaves exactly k removed |
| Storage.DeleteOldImagesUnlinks | services/storage_service.py:62-71 | with more than `max_count` images, the deletion is exactly the unlink run over the sorted images |
| Storage.UnlinkedFrom | services/storage_service.py:69-71 | for a count inside the list, what the unlink loop removes is a run of the sorted list starting at that count |
| Storage.DeletesAllButNewest | services/storage_service.py:69-71 | when every unlink succeeds, exactly the `max_count` newest images survive, and the kept and deleted images together are all the images |
| Storage.ListedAndDeletedPartition | services/storage_service.py:25-75 | `list_images(max_count)` followed by what `delete_old_images(max_count)` deletes is exactly the sorted image list |
| Storage.RetentionKeepsNewest | services/storage_service.py:55-75 | every image kept is at least as new as every image deleted, even when an unlink fails part-way |
| Machine.Init | app/state_machine.py:43-63 | the controller starts disarmed, with the slow blink, stealth off, an empty log and the configured servo angles |
| Machine.LogEvent | app/state_machine.py:641-666 | an event records the current mode; the log becomes the newest 1000 entries of the old log and the event, so it grows by one up to 1000 entries; exactly one "event_log" publish carrying the event is queued; nothing else changes |
| Machine.Reverse | app/state_machine.py:671 | position i of the result holds position n-1-i of the input |
| Machine.GetEventLogAsWritten | app/state_machine.py:668-671 | as written: for a positive limit, the newest entries newest first, at most limit of them; a limit of 0 returns the whole log; a negative limit -k returns every entry but the k oldest |
| Machine.GetEventLog | app/state_machine.py:668-671 | as intended: the newest min(limit, size) entries, newest first, and none for a limit of 0 or less |
| Machine.Arm | app/state_machine.py:172-206 | arming succeeds exactly when the system is disarmed; a refused arm changes nothing and queues nothing; a successful arm locks the box, runs the LED rounds, becomes armed with the pattern for the stealth setting, logs ARM with its source, and queues the event publish and then the "armed" mode publish; nothing else changes, and the log keeps the newest 1000 entries of the old log and the new event |
| Machine.ArmStep | app/state_machine.py:187-204 | the arming itself: lock, LED rounds, armed mode and pattern, ARM logged, the event and "armed" publishes queued; nothing else changes |
| Machine.Disarm | app/state_machine.py:216-254 | disarming always succeeds from any mode: the siren stops, the box unlocks, the mode becomes disarmed with the slow blink, the three timers are zeroed, DISARM is logged with the source and the previous mode, and the event, "disarmed" and alarm-0 publishes are queued in that order; nothing else changes, and the log keeps the newest 1000 entries |
| Machine.SetStealth | app/state_machine.py:161-170 | the flag is recorded; only an armed system changes its pattern (dark when stealthy, solid otherwise); nothing else changes |
| Machine.HandleMotion | app/state_machine.py:340-371 | the motion time is always recorded; a disarmed system does nothing else; any other mode queues a motion publish first; armed goes to pre-alarm with the solid pattern, a photo and a logged event, and nothing else changes; in the pre-alarm only the motion time changes and only the motion publish is queued; in the alarm the tasks are the motion publish followed by a photo exactly when the photo interval has passed; the log keeps the newest 1000 entries |
| Machine.EnterPreAlarm | app/state_machine.py:352-365 | motion while armed starts the pre-alarm at that time with the solid pattern, and queues the motion publish, the photo and the event publish; nothing else changes |
| Machine.HandleRfid | app/state_machine.py:373-395 | an empty allow-list ignores the scan; an unlisted tag logs RFID_UNAUTHORIZED, queues its publish and changes nothing else; a listed tag is exactly the arm of a disarmed system or the disarm of any other, with source "RFID:<tag>"; the log keeps the newest 1000 entries |
| Machine.WholeSeconds | app/state_machine.py:415 | Python `int()` of elapsed seconds: whole seconds, truncated toward zero |
| Machine.WarningBeep | app/state_machine.py:413-416 | a warning beep is queued exactly when stealth is off and the beep is due |
| Machine.ResetAlarm | app/state_machine.py:443-458 | the alarm returns to armed with the armed pattern and the siren stopped; ALARM_RESET is logged with the reason; the event and alarm-0 publishes are queued; nothing else changes, and the log keeps the newest 1000 entries |
| Machine.PreAlarmTick | app/state_machine.py:409-435 | the warning beep leads the tasks exactly when due and not stealthy; past the delay (strictly), the alarm starts: siren running, fast blink, alarm start recorded, ALARM_TRIGGERED logged, and the e-mail, event and alarm-1 tasks queued after the beep, with nothing else changed; before the delay the state is untouched |
| Machine.RaiseAlarm | app/state_machine.py:419-435 | the expiry of the pre-alarm enters the alarm with the siren running, the fast blink and the alarm start recorded; it logs ALARM_TRIGGERED in alarm mode and queues the e-mail alert, the event publish and the alarm-1 publish in that order; nothing else changes |
| Machine.AlarmTick | app/state_machine.py:437-458 | past the alarm duration the alarm resets with "Duration timeout"; otherwise past the motion timeout it resets with "Motion timeout"; otherwise nothing happens |
| Machine.Tick | app/state_machine.py:403-458 | only the pre-alarm and the alarm act on the clock; disarmed and armed ticks do nothing |
| Machine.CapturePhoto | app/state_machine.py:601-614 | a failed capture changes nothing; a successful one records the photo time, logs PHOTO with reason and file name, queues its event publish, and changes nothing else |
| Machine.ProcessNext | app/state_machine.py:564-590 | the oldest task is handled first and the rest of the queue keeps its order, so tasks queued while handling go to the back; an empty queue handles nothing; a publish task hands its feed and value to the publisher without touching the state; a beep task sounds two beeps of its duration and changes only the buzzer; an e-mail task changes nothing in the state; a capture task is exactly the photo capture: a failed capture changes nothing, a successful one records the photo time, logs PHOTO and queues its publish behind the rest |
| Machine.EnvironmentTasks | app/state_machine.py:545-554 | a full reading queues the temperature publish and then the humidity publish; a failed read queues nothing |
| Machine.PatternWrites | app/state_machine.py:474-496 | OFF writes exactly off, SOLID writes exactly on, and exactly the two blink patterns write on then off |
| Machine.ApplyWrites | app/state_machine.py:474-496 | the last non-forced write decides the LED, unless background control is suspended, in which case nothing changes |
| Machine.LedLoopPass | app/state_machine.py:468-503 | after one pass of the LED loop the LED is lit exactly for the SOLID pattern, unless a blink has suspended background control |
| Dispatcher.NormalizeIdempotent | app/state_machine.py:268 | trimming and lower-casing a value twice is doing it once |
| Dispatcher.ParseAngle | app/state_machine.py:312-322 | an angle is accepted exactly when `float(value)` is a finite number whose truncation lies in 0..180, and the angle is that truncation |
| Dispatcher.ParseLed | app/state_machine.py:270-283 | a value means on exactly when it is "1", "on" or "true", off exactly when it is "0", "off" or "false", the slow blink exactly for "blink" and the fast blink exactly for "blink-fast"; anything else is ignored |
| Dispatcher.ParseBuzzer | app/state_machine.py:285-298 | a value starts the siren exactly when it is "1", "on", "siren" or "true", stops it exactly when it is "0", "off", "stop" or "false", and beeps once or twice exactly for "beep" and "beep-twice"; anything else is ignored |
| Dispatcher.ParseServo | app/state_machine.py:300-322 | "lock", "locked" and "1" lock; "unlock", "unlocked" and "0" unlock; any other value is an angle when it parses as one, else it is ignored |
| Dispatcher.ParseStealth | app/state_machine.py:324-333 | "1", "on", "true" and "enabled" enable stealth; "0", "off", "false" and "disabled" disable it; anything else is ignored |
| Dispatcher.Parse | app/state_machine.py:258-333 | a value is trimmed and lower-cased and then read with its feed's own words: each of the four control feeds gives exactly its own parser's reading; a non-control feed is ignored; each command belongs to its feed; stealth is enabled or disabled exactly by its words on the stealth feed |
| Dispatcher.ParseNormalized | app/state_machine.py:268 | surrounding white space and letter case never change the command |
| Dispatcher.NumeralServoValue | app/state_machine.py:300-322 | a whole number 0..180 sent to the servo feed moves the servo to that angle, except that "1" locks and "0" unlocks |
| Dispatcher.NumeralAngle | app/state_machine.py:312-322 | a decimal numeral up to 180 reads as that angle |
| Dispatcher.ApplyLed | app/state_machine.py:270-283 | an LED word changes only the LED and sounds nothing; on and off act as non-forced writes; the blink words leave the LED dark and the suspend flag as it was |
| Dispatcher.ApplyBuzzer | app/state_machine.py:285-298 | a buzzer word changes only the buzzer; the siren words start or stop it as the buzzer's own start and stop do; beep sounds 200 ms once and beep-twice 100 ms twice, each leaving the output off and the siren as it was |
| Dispatcher.ApplyServo | app/state_machine.py:300-322 | a servo word changes only the servo and the log, and never the configured angles; lock and unlock act as the servo's own lock and unlock and log SERVO_LOCK or SERVO_UNLOCK "Remote control via Adafruit IO"; an angle moves the servo there and logs SERVO_ANGLE; the event's publish is queued |
| Dispatcher.ApplyStealth | app/state_machine.py:324-333 | a stealth word sets the flag, gives the pattern the stealth setter gives, logs STEALTH_MODE "Enabled" or "Disabled via Adafruit IO", queues its publish, and changes nothing else |
| Dispatcher.Apply | app/state_machine.py:270-333 | no remote command changes the mode or breaks the log bound; only stealth commands change the pattern or the stealth flag; an ignored value changes nothing; each feed's command has exactly the effect its device's handler states (`ApplyLed`, `ApplyBuzzer`, `ApplyServo`, `ApplyStealth`) |
| Dispatcher.HandleControl | app/state_machine.py:258-268 | a control value never changes the mode, and a value for a feed that is not a control feed changes nothing |
| Dispatcher.Receive | services/adafruit_service.py:81-111 | an MQTT message never changes the mode, and one the message handler does not deliver changes nothing |
| Dispatcher.ReceiveAsWritten | services/adafruit_service.py:81-114 | through the message handler as written, an MQTT message never changes the mode, and a JSON non-object payload or an undelivered message changes nothing |
| Dispatcher.ReceivePathsAgree | services/adafruit_service.py:101-105 | on every payload other than a JSON non-object, the handler as written and the corrected one lead to the same effect |
| Dispatcher.BareAngleMovesServo | services/adafruit_service.py:101-105 | with the corrected handler, a bare angle such as "90" on the servo feed's topic moves the servo to that angle |
| Properties.InitConsistent | app/state_machine.py:45-63 | the initial state shows the pattern of its mode and respects the log bound |
| Properties.ArmDisarmPreserve | app/state_machine.py:172-254 | arming and disarming keep each mode's pattern and the log bound |
| Properties.MotionPreserves | app/state_machine.py:340-371 | motion keeps each mode's pattern and the log bound |
| Properties.RfidPreserves | app/state_machine.py:373-395 | a badge scan keeps each mode's pattern and the log bound |
| Properties.StealthPreserves | app/state_machine.py:161-170 | the stealth setter keeps each mode's pattern and the log bound |
| Properties.TickPreserves | app/state_machine.py:403-458 | the main-loop tick keeps each mode's pattern and the log bound |
| Properties.TasksAndCommandsPreserve | app/state_machine.py:258-614 | handling a queued task or a remote command keeps each mode's pattern and the log bound |
| Properties.EventPublishesConcat | app/state_machine.py:666 | the event-log publishes of two queued task lists together are those of each list in turn |
| Properties.OtherTasks | app/state_machine.py:666 | only "event_log" publishes carry events |
| Properties.ArmPublishesEvents | app/state_machine.py:200-204 | arming queues exactly one "event_log" publish per logged event, carrying that event |
| Properties.DisarmPublishesEvents | app/state_machine.py:247-252 | disarming queues exactly one "event_log" publish per logged event, carrying that event |
| Properties.MotionPublishesEvents | app/state_machine.py:340-371 | motion queues exactly one "event_log" publish per logged event, carrying that event |
| Properties.RfidPublishesEvents | app/state_machine.py:373-395 | a badge scan queues exactly one "event_log" publish per logged event, carrying that event |
| Properties.ResetPublishesEvents | app/state_machine.py:443-458 | an alarm reset queues exactly one "event_log" publish per logged event, carrying that event |
| Properties.RaisePublishesEvents | app/state_machine.py:419-435 | the expiry of the pre-alarm queues exactly one "event_log" publish per logged event, carrying that event |
| Properties.PreAlarmPublishesEvents | app/state_machine.py:409-435 | the pre-alarm tick queues exactly one "event_log" publish per logged event, carrying that event |
| Properties.TickPublishesEvents | app/state_machine.py:403-458 | the tick queues exactly one "event_log" publish per logged event, carrying that event |
| Properties.EventsFollowEdges | app/state_machine.py:172-395 | arming, disarming, motion and badge scans move the mode along the graph: disarmed→armed, anything→disarmed, armed→pre-alarm, or no change |
| Properties.TickAndCommandsFollowEdges | app/state_machine.py:258-458 | the tick moves pre-alarm→alarm or alarm→armed or changes nothing, and remote commands never change the mode |
| Properties.AlarmOnlyAfterDelay | app/state_machine.py:409-423 | the alarm is entered only from the pre-alarm, and exactly when the pre-alarm delay has passed; motion never enters it |
| Properties.IntrusionCycle | app/state_machine.py:172-458 | arm, motion, a tick past the pre-alarm delay and a tick past the alarm duration go armed → pre-alarm → alarm → armed; the siren starts and stops; the log ends with the four events, the last being ALARM_RESET "Duration timeout" |
| Properties.RfidToggleRoundTrip | app/state_machine.py:373-395 | two scans of a listed badge from disarmed arm and then disarm, ending unlocked with the slow blink and both steps logged |
| Properties.UnauthorizedScansKeepMode | app/state_machine.py:382-387 | any number of unlisted badge scans leave the mode as it was and the log within its bound |
| Properties.ScanAll | app/state_machine.py:373-395 | any series of badge scans keeps the log within its bound |
| Properties.NumericAllowList | app/state_machine.py:382 | with an allow-list of integers, a tag is authorized exactly when it is one of them |
| Properties.BeepEveryFiveSeconds | app/state_machine.py:415 | for non-negative elapsed time, the warning beep is due exactly in the first 100 ms of every five-second period |
| Properties.EventLogZeroLimit | app/state_machine.py:668-671 | a limit of 0 returns the whole log as written, and a negative limit -k every entry but the k oldest, newest first, where none are intended; whenever that leaves something, the two versions differ; for positive limits they agree |
| Properties.LoggedEventReadBack | app/state_machine.py:641-671 | after logging an event, the newest entry read back is that event with the mode at logging time |
| Properties.LoggedEventPublished | app/state_machine.py:575-577 | a logged event, taken off the queue, is published to the "event_log" feed's topic as its JSON record, and is delivered exactly when MQTT accepts it or the REST fallback answers 200 or 201 |
| Properties.BadgeReadDrivesHandler | hardware/sensors.py:110-118 | a fault or a falsy tag reaches no handler; a read tag toggles a disarmed system to armed and any other mode to disarmed when it is on a numeric allow-list, and is logged as unauthorized with the mode kept when it is not |
| Properties.DhtReadingPublished | app/state_machine.py:546-553 | from any driver outcome, one pass of the environmental loop queues publishes exactly when the driver gives both values; they carry exactly those values, temperature first, and publish no event |

## Left out

- Threads, the RLock, the loop sleeps and the `_running` flag are left out. Each loop body is modelled as one pass (`Tick`, `ProcessNext`, `LedLoopPass`, `EnvironmentTasks`). The arming blink runs in its own thread in the source, but the model applies its rounds at once.
- The `handle_rfid` race is left out. The source reads the mode and then calls arm or disarm as two separate critical sections; the model treats the scan as one step.
- The siren's sine-wave modulation and PWM frequency are left out. The buzzer is a running flag plus an output flag.
- Time is left out as a parameter, in milliseconds. Float seconds and their rounding are not modelled.
- Event timestamps and the JSON serialisation of events are left out. The `str(event)` fallback is not modelled either.
- Hardware and service calls are left out:
  - the e-mail alert text and sending
  - camera capture (a capture is an `Option` input)
  - the Neon/database services
  - `get_status`, `start` and `stop`
  - `cleanup`
  - MQTT `connect`, `disconnect` and `_on_disconnect`
  - the base64 encoding and payload of `upload_photo`
  - UTF-8 decoding failures of MQTT payloads
- Image metadata is left out. `list_images` returns the entries themselves rather than dictionaries of name, time and size.
- `Config.get`, `set`, `save_logic_config` and the section accessors other than `authorized_rfids` are left out. Neither reading nor writing the JSON file is modelled.
- Text.LowerChar: maps only the characters whose lower case is ASCII (A–Z and the Kelvin sign). Other non-ASCII letters are left unchanged, which is enough for the ASCII command words.
- Text.ParseInt: accepts only ASCII digits, while Python's `int()` also accepts other Unicode decimal digits ("٩٠" is 90 in Python). A badge list written with such digits is rejected by the model.
- Text.ParseFloat: accepts only ASCII digits, sign, point and exponent, while Python's `float()` also accepts other Unicode decimal digits, so "٩٠" on the servo feed is an angle of 90 in the source and is ignored by the model.
- Dispatcher.ParseAngle: inherits that restriction: a servo angle written in non-ASCII digits is ignored rather than applied.
- Text.ParseFloat: also computes an exact rational, so it does not model rounding to a double or overflow to infinity for huge literals (`int(float("1e400"))` raises OverflowError in Python). Such a value lies outside 0..180 in the model, and the source ignores it either way.
- Sensors.ReadDht: does not model a fault while the driver is first created; such a fault behaves like a fault of a later read.
- Driver faults inside a transition are left out. `arm_system` locks the servo (app/state_machine.py:190) before it changes the mode, so a servo fault there leaves the system disarmed but possibly half-moved. The pre-alarm expiry sets `_mode = ALARM` (line 421) before `start_siren()` (line 426); a buzzer fault there is caught by the loop (line 462) and leaves the alarm mode without a siren, the e-mail task or the event. The model treats each transition as completing.
- Default arguments are left out: `get_event_log(limit=100)`, `list_images(limit=100)`, `delete_old_images(max_count=1000)` and `get_historical_data(limit=1000)` always take the value as a parameter, so the defaults are one call site each.
- JSON sections that are `null` or not objects are left out. A section is either absent or a map of strings, and a non-string field value is not modelled.
- Storage.FileEntry: a directory entry is whatever `glob("*.jpg")` yields, so a directory named `x.jpg` counts as an image; its failing unlink is the `unlinkFailsAt` input.

## Findings

| source | as written | input that shows it | evidently intended | confidence | as-written member | corrected member |
|---|---|---|---|---|---|---|
| app/state_machine.py:671 | `self._event_log[-limit:]` for a limit ≤ 0: with 0 it is `[-0:]`, the whole list; with -k it is `[k:]`, every entry but the k oldest | `get_event_log(0)` or `get_event_log(-5)`; the `/api/logs` route (api/routes.py:101-103) passes a user-supplied limit | no entries for a limit ≤ 0 | not executed; high | Machine.GetEventLogAsWritten | Machine.GetEventLog |
| services/adafruit_service.py:101-105 | `json.loads(payload).get('value', payload)`; a payload that parses to a number, string or list has no `.get`, the AttributeError is caught at line 113 and the command is dropped | a bare `90` or `1` published to the servo_control feed's topic | non-object payloads fall back to the plain string, as the comment on line 100 says | not executed; medium (depends on the broker relaying the bare value) | Adafruit.OnMessage | Adafruit.OnMessageIntended |

`Properties.EventLogZeroLimit` exhibits the first finding. `Adafruit.NonObjectPayloadDropped` exhibits the second, and `Dispatcher.BareAngleMovesServo` proves the corrected path. `Dispatcher.Receive` uses the corrected handler.

=== FILE: actuators.dfy ===
/**
 * The actuator wrappers of hardware/actuators.py reduced to the flags they
 * keep: the LED's background-suspend flag and output level, the buzzer's
 * siren flag and output, and the servo's last commanded angle. Sleeps and the
 * GPIO driver calls are not modelled; a driver fault is an input.
 */
module Actuators {
  import opened Common

  // ---------------------------------------------------------------- LED

  /** The LED wrapper: whether background control is suspended, and the output level. */
  datatype Led = Led(suspended: bool, lit: bool)

  /** Whether a non-forced write reaches the pin. */
  predicate Applies(led: Led, force: bool) {
    !led.suspended || force
  }

  /** `LED.on(force)`: a no-op while background control is suspended, unless forced. */
  function LedOn(led: Led, force: bool): (r: Led)
    ensures r.suspended == led.suspended
    ensures r.lit <==> led.lit || Applies(led, force)
    ensures led.suspended && !force ==> r == led
  {
    if led.suspended && !force then led else led.(lit := true)
  }

  /** `LED.off(force)`: a no-op while background control is suspended, unless forced. */
  function LedOff(led: Led, force: bool): (r: Led)
    ensures r.suspended == led.suspended
    ensures r.lit <==> led.lit && !Applies(led, force)
    ensures led.suspended && !force ==> r == led
  {
    if led.suspended && !force then led else led.(lit := false)
  }

  /** The forced writes `blink(count)` makes: off first, then one on/off pair per blink. */
  function BlinkWrites(count: nat): (w: seq<bool>)
    ensures |w| == 1 + 2 * count
    ensures !w[0] && !w[|w| - 1]
    ensures forall k :: 0 <= k < count ==> w[1 + 2 * k] && !w[2 + 2 * k]
  {
    if count == 0 then [false] else BlinkWrites(count - 1) + [true, false]
  }

  /** The LED after each of a series of forced writes. */
  function WriteAll(led: Led, writes: seq<bool>): (r: seq<Led>)
    ensures |r| == |writes|
    ensures forall k :: 0 <= k < |r| ==> r[k] == led.(lit := writes[k])
  {
    seq(|writes|, k requires 0 <= k < |writes| => led.(lit := writes[k]))
  }

  /**
   * One run of `blink`: the LED after the run, the LED after each write that
   * took place, and whether a driver fault cut the run short.
   */
  datatype BlinkRun = BlinkRun(led: Led, during: seq<Led>, raised: bool)

  /**
   * `LED.blink(count)`: background control is suspended for the sequence and
   * the previous suspend flag is restored afterwards, also when the write
   * numbered `failAt` raises.
   */
  function Blink(led: Led, count: nat, failAt: Option<nat>): (r: BlinkRun)
    ensures r.led.suspended == led.suspended
    ensures forall k :: 0 <= k < |r.during| ==> r.during[k].suspended
    ensures r.raised <==> failAt.Some? && failAt.value < 1 + 2 * count
    ensures !r.raised ==> |r.during| == 1 + 2 * count && !r.led.lit
    ensures r.raised ==> |r.during| == failAt.value
    ensures |r.during| > 0 ==> r.led.lit == r.during[|r.during| - 1].lit
    ensures |r.during| == 0 ==> r.led == led
  {
    var all := BlinkWrites(count);
    var done := if failAt.Some? && failAt.value < |all| then all[..failAt.value] else all;
    var during := WriteAll(led.(suspended := true), done);
    var last := if |during| == 0 then led else during[|during| - 1].(suspended := led.suspended);
    BlinkRun(last, during, |done| < |all|)
  }

  /** `count` rounds of non-forced `on()` then `off()`, as in the arming feedback. */
  function OnOffRounds(led: Led, count: nat): (r: Led)
    ensures r.suspended == led.suspended
    ensures led.suspended ==> r == led
    ensures !led.suspended && count > 0 ==> !r.lit
    ensures count == 0 ==> r == led
  {
    if count == 0 then led else LedOff(LedOn(OnOffRounds(led, count - 1), false), false)
  }

  // ---------------------------------------------------------------- buzzer

  /** The buzzer wrapper: whether the siren runs, and whether the output is driven. */
  datatype Buzzer = Buzzer(sirenRunning: bool, output: bool)

  /** A buzzer together with the beeps, by duration in milliseconds, it sounded. */
  datatype Sounded = Sounded(buzzer: Buzzer, beeps: seq<nat>)

  /** `start_siren`: starts the siren loop only when it is not already running. */
  function StartSiren(b: Buzzer): (r: Buzzer)
    ensures r.sirenRunning
    ensures b.sirenRunning ==> r == b
    ensures !b.sirenRunning ==> r.output
  {
    if b.sirenRunning then b else Buzzer(true, true)
  }

  /** `stop`: acts only on a running siren, leaving it stopped and the output off. */
  function Stop(b: Buzzer): (r: Buzzer)
    ensures !r.sirenRunning
    ensures b.sirenRunning ==> !r.output
    ensures !b.sirenRunning ==> r == b
  {
    if b.sirenRunning then Buzzer(false, false) else b
  }

  /** `beep(ms)`: one tone of `ms`, after which the output is switched off. */
  function Beep(b: Buzzer, ms: nat): (r: Sounded)
    ensures r.beeps == [ms]
    ensures !r.buzzer.output && r.buzzer.sirenRunning == b.sirenRunning
  {
    Sounded(b.(output := false), [ms])
  }

  /** `beep_twice(ms)`: two `beep(ms)` calls with a pause between them. */
  function BeepTwice(b: Buzzer, ms: nat): (r: Sounded)
    ensures r.beeps == [ms, ms]
    ensures !r.buzzer.output && r.buzzer.sirenRunning == b.sirenRunning
  {
    var first := Beep(b, ms);
    var second := Beep(first.buzzer, ms);
    Sounded(second.buzzer, first.beeps + second.beeps)
  }

  /** Starting the siren twice is starting it once. */
  lemma StartSirenIdempotent(b: Buzzer)
    ensures StartSiren(StartSiren(b)) == StartSiren(b)
  {
  }

  /** Stopping twice is stopping once, and a started siren stops silent. */
  lemma StopAfterStart(b: Buzzer)
    ensures Stop(Stop(b)) == Stop(b)
    ensures Stop(StartSiren(b)) == Buzzer(false, false)
  {
  }

  // ---------------------------------------------------------------- servo

  /** The servo wrapper: the last commanded angle (none before the first move). */
  datatype Servo = Servo(current: Option<int>, lockedAngle: int, unlockedAngle: int)

  /** A servo after a command, and whether the motor was actually driven. */
  datatype ServoMove = ServoMove(servo: Servo, driven: bool)

  /** `lock`: moves to the locked angle unless the servo is already there. */
  function Lock(s: Servo): (r: ServoMove)
    ensures r.servo.current == Some(s.lockedAngle)
    ensures r.servo.lockedAngle == s.lockedAngle && r.servo.unlockedAngle == s.unlockedAngle
    ensures r.driven <==> s.current != Some(s.lockedAngle)
  {
    if s.current == Some(s.lockedAngle) then ServoMove(s, false)
    else ServoMove(s.(current := Some(s.lockedAngle)), true)
  }

  /** `unlock`: moves to the unlocked angle unless the servo is already there. */
  function Unlock(s: Servo): (r: ServoMove)
    ensures r.servo.current == Some(s.unlockedAngle)
    ensures r.servo.lockedAngle == s.lockedAngle && r.servo.unlockedAngle == s.unlockedAngle
    ensures r.driven <==> s.current != Some(s.unlockedAngle)
  {
    if s.current == Some(s.unlockedAngle) then ServoMove(s, false)
    else ServoMove(s.(current := Some(s.unlockedAngle)), true)
  }

  /** A direct angle command: the motor is driven to `angle`. */
  function SetAngle(s: Servo, angle: int): (r: ServoMove)
    ensures r.servo.current == Some(angle) && r.driven
    ensures r.servo.lockedAngle == s.lockedAngle && r.servo.unlockedAngle == s.unlockedAngle
  {
    ServoMove(s.(current := Some(angle)), true)
  }

  /** A second `lock` does not drive the motor; nor does a second `unlock`. */
  lemma LockIdempotent(s: Servo)
    ensures Lock(Lock(s).servo) == ServoMove(Lock(s).servo, false)
    ensures Unlock(Unlock(s).servo) == ServoMove(Unlock(s).servo, false)
  {
  }

  /** From the unlocked position, locking and unlocking again is the identity. */
  lemma LockUnlockRoundTrip(s: Servo)
    requires s.current == Some(s.unlockedAngle)
    ensures Unlock(Lock(s).servo).servo == s
  {
  }
}

=== FILE: adafruit.dfy ===
/**
 * The decision logic of services/adafruit_service.py: feed resolution,
 * topic construction and parsing, the MQTT-then-REST publish fallback, the
 * subscription set chosen on connect, the history limit clamp and the photo
 * size guard. Each transport's outcome is an input.
 */
module Adafruit {
  import opened Common
  import opened Text

  /** The configured feeds as (name, key) pairs, in the order of the config's mapping. */
  type Feeds = seq<(string, string)>

  /** `feeds.get(name)`: the key configured for `name`. */
  function FeedKey(feeds: Feeds, name: string): (r: Option<string>)
    ensures r.None? <==> forall i :: 0 <= i < |feeds| ==> feeds[i].0 != name
    ensures r.Some? ==> (name, r.value) in feeds
  {
    if |feeds| == 0 then None
    else if feeds[0].0 == name then Some(feeds[0].1)
    else FeedKey(feeds[1..], name)
  }

  /** The first feed name configured with `key`: the reverse lookup of `_on_message`. */
  function KeyOwner(feeds: Feeds, key: string): (r: Option<string>)
    ensures r.None? <==> forall i :: 0 <= i < |feeds| ==> feeds[i].1 != key
    ensures r.Some? ==> exists i :: 0 <= i < |feeds| && feeds[i] == (r.value, key) &&
                                  forall j :: 0 <= j < i ==> feeds[j].1 != key
  {
    if |feeds| == 0 then None
    else if feeds[0].1 == key then Some(feeds[0].0)
    else
      var r := KeyOwner(feeds[1..], key);
      if r.Some? then
        var i :| 0 <= i < |feeds| - 1 && feeds[1..][i] == (r.value, key) &&
                 forall j :: 0 <= j < i ==> feeds[1..][j].1 != key;
        assert feeds[i + 1] == (r.value, key);
        assert forall j :: 1 <= j < i + 1 ==> feeds[j] == feeds[1..][j - 1];
        r
      else r
  }

  /** A configured key that is present and non-empty, i.e. truthy in Python. */
  predicate HasKey(feeds: Feeds, name: string) {
    FeedKey(feeds, name).Some? && FeedKey(feeds, name).value != ""
  }

  /** The feeds whose messages are handed to the control callback, in subscription order. */
  const ControlFeeds: seq<string> := ["led_control", "buzzer_control", "servo_control", "stealth_mode"]

  /** The MQTT topic of a feed key. */
  function Topic(username: string, key: string): string {
    username + "/feeds/" + key
  }

  // ---------------------------------------------------------------- publish

  /**
   * What the transports do when tried: whether the MQTT client is connected,
   * whether its publish returned success without raising, and the HTTP
   * status of the REST post (`None` when the request raised).
   */
  datatype Transports = Transports(connected: bool, mqttAccepted: bool, restStatus: Option<int>)

  /** A publish's result and which transports it tried, with the topic and value sent. */
  datatype PublishOutcome<V> = PublishOutcome(
    success: bool, triedMqtt: bool, triedRest: bool, topic: string, value: V)

  /** A REST status that `publish` counts as delivered. */
  predicate RestDelivered(status: Option<int>) {
    status == Some(200) || status == Some(201)
  }

  /**
   * `publish(name, value)`: an unknown feed fails without any transport;
   * otherwise MQTT is tried only when connected, REST only when MQTT did not
   * succeed, and the publish succeeds iff one of them did.
   */
  function Publish<V>(feeds: Feeds, username: string, name: string, value: V, t: Transports)
    : (r: PublishOutcome<V>)
    ensures !HasKey(feeds, name) ==> !r.success && !r.triedMqtt && !r.triedRest
    ensures HasKey(feeds, name) ==> r.topic == Topic(username, FeedKey(feeds, name).value)
    ensures r.value == value
    ensures r.triedMqtt <==> HasKey(feeds, name) && t.connected
    ensures r.triedRest <==> HasKey(feeds, name) && !(t.connected && t.mqttAccepted)
    ensures r.success <==> (r.triedMqtt && t.mqttAccepted) || (r.triedRest && RestDelivered(t.restStatus))
  {
    if !HasKey(feeds, name) then PublishOutcome(false, false, false, "", value)
    else
      var topic := Topic(username, FeedKey(feeds, name).value);
      var viaMqtt := t.connected && t.mqttAccepted;
      if viaMqtt then PublishOutcome(true, true, false, topic, value)
      else PublishOutcome(RestDelivered(t.restStatus), t.connected, true, topic, value)
  }

  /** With a known feed, publishing fails only when both transports fail. */
  lemma PublishFailsOnlyIfBothFail<V>(feeds: Feeds, username: string, name: string, value: V, t: Transports)
    requires HasKey(feeds, name)
    ensures !Publish(feeds, username, name, value, t).success <==>
              !(t.connected && t.mqttAccepted) && !RestDelivered(t.restStatus)
  {
  }

  // ---------------------------------------------------------------- inbound messages

  /** A JSON value as `str()` renders it; `Other` carries the rendering of any other kind. */
  datatype JsonValue = JStr(s: string) | JInt(n: int) | JBool(b: bool) | JNull | Other(text: string)

  /** What `json.loads(payload)` does: raise, give an object, or give a non-object. */
  datatype JsonOutcome = NotJson | JsonObject(fields: map<string, JsonValue>) | JsonNonObject

  /** The value handed to the control callback: a JSON field, or the raw payload text. */
  datatype Received = Field(json: JsonValue) | Raw(text: string)

  /** A control command as delivered to the callback. */
  datatype Control = Control(feed: string, value: Received)

  /** `str(value)`, the first thing the control handler does with a received value. */
  function PyStr(v: Received): string {
    match v
    case Raw(t) => t
    case Field(JStr(s)) => s
    case Field(JInt(n)) => IntToString(n)
    case Field(JBool(b)) => if b then "True" else "False"
    case Field(JNull) => "None"
    case Field(Other(t)) => t
  }

  /**
   * `_on_message`: the third '/'-separated topic segment is a feed key, mapped
   * back to the first feed name with that key; only control feeds with a
   * callback set deliver. A JSON object contributes its "value" field (or the
   * raw text when it has none); non-JSON text is delivered raw; any other
   * JSON value fails at `.get` and the error is swallowed.
   */
  function OnMessage(feeds: Feeds, topic: string, payload: string, json: JsonOutcome, hasCallback: bool)
    : (r: Option<Control>)
    ensures |Split(topic, '/')| < 3 ==> r.None?
    ensures !hasCallback || json.JsonNonObject? ==> r.None?
    ensures r.Some? ==> r.value.feed in ControlFeeds
    ensures r.Some? ==> KeyOwner(feeds, Split(topic, '/')[2]) == Some(r.value.feed)
    ensures r.Some? && json.NotJson? ==> r.value.value == Raw(payload)
    ensures r.Some? && json.JsonObject? ==>
              r.value.value == (if "value" in json.fields then Field(json.fields["value"]) else Raw(payload))
  {
    var parts := Split(topic, '/');
    if |parts| < 3 then None
    else
      match KeyOwner(feeds, parts[2])
      case None => None
      case Some(name) =>
        if name == "" || name !in ControlFeeds then None
        else
          match json
          case JsonNonObject => None
          case NotJson => if hasCallback then Some(Control(name, Raw(payload))) else None
          case JsonObject(fields) =>
            var value := if "value" in fields then Field(fields["value"]) else Raw(payload);
            if hasCallback then Some(Control(name, value)) else None
  }

  /**
   * `_on_message` as evidently intended by its "fall back to plain string"
   * comment: any payload that is not a JSON object is delivered as its raw
   * text, so bare numbers such as "1" or "90" reach the callback too.
   */
  function OnMessageIntended(feeds: Feeds, topic: string, payload: string, json: JsonOutcome, hasCallback: bool)
    : (r: Option<Control>)
    ensures r.Some? <==> hasCallback && |Split(topic, '/')| >= 3
                         && KeyOwner(feeds, Split(topic, '/')[2]).Some?
                         && KeyOwner(feeds, Split(topic, '/')[2]).value in ControlFeeds
    ensures r.Some? ==> KeyOwner(feeds, Split(topic, '/')[2]) == Some(r.value.feed)
    ensures r.Some? && !json.JsonObject? ==> r.value.value == Raw(payload)
    ensures r.Some? && json.JsonObject? ==>
              r.value.value == (if "value" in json.fields then Field(json.fields["value"]) else Raw(payload))
  {
    var parts := Split(topic, '/');
    if |parts| < 3 || !hasCallback then None
    else
      match KeyOwner(feeds, parts[2])
      case None => None
      case Some(name) =>
        if name !in ControlFeeds then None
        else
          match json
          case JsonObject(fields) =>
            Some(Control(name, if "value" in fields then Field(fields["value"]) else Raw(payload)))
          case _ => Some(Control(name, Raw(payload)))
  }

  /**
   * The two agree except on a payload that parses as JSON but not as an
   * object, which the code as written drops and the intended handler delivers.
   */
  lemma NonObjectPayloadDropped(feeds: Feeds, username: string, name: string, payload: string)
    requires name in ControlFeeds && HasKey(feeds, name)
    requires KeyOwner(feeds, FeedKey(feeds, name).value) == Some(name)
    requires '/' !in username && '/' !in FeedKey(feeds, name).value
    ensures OnMessage(feeds, Topic(username, FeedKey(feeds, name).value), payload, JsonNonObject, true) == None
    ensures OnMessageIntended(feeds, Topic(username, FeedKey(feeds, name).value), payload, JsonNonObject, true)
            == Some(Control(name, Raw(payload)))
    ensures forall json: JsonOutcome, topic: string, callback: bool :: !json.JsonNonObject? ==>
              OnMessage(feeds, topic, payload, json, callback) == OnMessageIntended(feeds, topic, payload, json, callback)
  {
    TopicSplit(username, FeedKey(feeds, name).value);
  }

  /** Splitting a topic built from a slash-free user name and key gives its three parts. */
  lemma TopicSplit(username: string, key: string)
    requires '/' !in username && '/' !in key
    ensures Split(Topic(username, key), '/') == [username, "feeds", key]
  {
    var parts := [username, "feeds", key];
    assert Join(parts, '/') == Topic(username, key) by {
      assert Join(parts[2..], '/') == key;
      assert Join(parts[1..], '/') == "feeds" + ['/'] + key;
    }
    assert '/' !in "feeds";
    SplitJoin(parts, '/');
  }

  /**
   * A non-JSON message on the topic a control feed publishes to is delivered
   * to that feed, when the feed owns its key and a callback is set.
   */
  lemma ControlTopicRoundTrip(feeds: Feeds, username: string, name: string, payload: string)
    requires name in ControlFeeds && HasKey(feeds, name)
    requires KeyOwner(feeds, FeedKey(feeds, name).value) == Some(name)
    requires '/' !in username && '/' !in FeedKey(feeds, name).value
    ensures OnMessage(feeds, Topic(username, FeedKey(feeds, name).value), payload, NotJson, true)
            == Some(Control(name, Raw(payload)))
  {
    TopicSplit(username, FeedKey(feeds, name).value);
  }

  // ---------------------------------------------------------------- connect

  /** The topics of the control feeds among `names` that have a key, in order. */
  function Subscriptions(feeds: Feeds, username: string, names: seq<string>): (r: seq<string>)
    ensures |r| <= |names|
    ensures forall t :: t in r ==> exists n :: n in names && HasKey(feeds, n) && t == Topic(username, FeedKey(feeds, n).value)
    ensures forall n :: n in names && HasKey(feeds, n) ==> Topic(username, FeedKey(feeds, n).value) in r
  {
    if |names| == 0 then []
    else
      var rest := Subscriptions(feeds, username, names[1..]);
      if HasKey(feeds, names[0]) then [Topic(username, FeedKey(feeds, names[0]).value)] + rest else rest
  }

  /** The connection flag after a connect callback and the topics it subscribes to. */
  datatype Connected = Connected(connected: bool, subscribed: seq<string>)

  /**
   * `_on_connect`: on success (rc 0) the client is marked connected and
   * subscribes exactly to the control feeds that have a key; on failure
   * nothing changes.
   */
  function OnConnect(connected: bool, rc: int, feeds: Feeds, username: string): (r: Connected)
    ensures rc != 0 ==> r == Connected(connected, [])
    ensures rc == 0 ==> r.connected
    ensures rc == 0 ==> forall n :: n in ControlFeeds && HasKey(feeds, n) ==> Topic(username, FeedKey(feeds, n).value) in r.subscribed
    ensures forall t :: t in r.subscribed ==>
              exists n :: n in ControlFeeds && HasKey(feeds, n) && t == Topic(username, FeedKey(feeds, n).value)
  {
    if rc == 0 then Connected(true, Subscriptions(feeds, username, ControlFeeds)) else Connected(connected, [])
  }

  /**
   * After a successful connect, a plain-text message on any subscribed topic
   * reaches the control callback under the feed that topic was subscribed for,
   * provided user name and keys hold no '/' and each control feed owns its key.
   */
  lemma OnConnectDelivers(connected: bool, feeds: Feeds, username: string, payload: string)
    requires '/' !in username
    requires forall n :: n in ControlFeeds && HasKey(feeds, n) ==>
               '/' !in FeedKey(feeds, n).value && KeyOwner(feeds, FeedKey(feeds, n).value) == Some(n)
    ensures forall t :: t in OnConnect(connected, 0, feeds, username).subscribed ==>
              exists n :: n in ControlFeeds && HasKey(feeds, n) && t == Topic(username, FeedKey(feeds, n).value) &&
                          OnMessage(feeds, t, payload, NotJson, true) == Some(Control(n, Raw(payload)))
  {
    forall t | t in OnConnect(connected, 0, feeds, username).subscribed
      ensures exists n :: n in ControlFeeds && HasKey(feeds, n) && t == Topic(username, FeedKey(feeds, n).value) &&
                          OnMessage(feeds, t, payload, NotJson, true) == Some(Control(n, Raw(payload)))
    {
      var n :| n in ControlFeeds && HasKey(feeds, n) && t == Topic(username, FeedKey(feeds, n).value);
      ControlTopicRoundTrip(feeds, username, n, payload);
    }
  }

  // ---------------------------------------------------------------- history and photos

  /** The largest history page the service asks for. */
  const MaxHistory := 1000

  /** A history query: the limit sent (`None` when no request is made) and the data returned. */
  datatype History<D> = History(requested: Option<int>, data: seq<D>)

  /**
   * `get_historical_data`: an unknown feed gives [] without a request;
   * otherwise the limit is clamped to 1000 and only a 200 answer yields data.
   * `response` is the HTTP status and body, `None` when the request raised.
   */
  function GetHistoricalData<D>(feeds: Feeds, name: string, limit: int, response: Option<(int, seq<D>)>)
    : (r: History<D>)
    ensures !HasKey(feeds, name) ==> r == History(None, [])
    ensures HasKey(feeds, name) ==> r.requested.Some? && r.requested.value <= MaxHistory
    ensures HasKey(feeds, name) ==> (r.requested.value == limit <==> limit <= MaxHistory)
    ensures HasKey(feeds, name) ==> r.requested == Some(if limit < MaxHistory then limit else MaxHistory)
    ensures r.data != [] ==> response.Some? && response.value.0 == 200 && r.data == response.value.1
    ensures HasKey(feeds, name) && response.Some? && response.value.0 == 200 ==> r.data == response.value.1
  {
    if !HasKey(feeds, name) then History(None, [])
    else
      var requested := if limit < MaxHistory then limit else MaxHistory;
      match response
      case Some((200, data)) => History(Some(requested), data)
      case _ => History(Some(requested), [])
  }

  /**
   * The limit sent is `min(limit, 1000)`, characterised as the largest value
   * bounded by both; it is already clamped, so asking again with it makes
   * the same request and gets the same data.
   */
  lemma HistoryClampIdempotent<D>(feeds: Feeds, name: string, limit: int, response: Option<(int, seq<D>)>)
    requires HasKey(feeds, name)
    ensures var r := GetHistoricalData(feeds, name, limit, response);
            && r.requested.value <= limit && r.requested.value <= MaxHistory
            && (r.requested.value == limit || r.requested.value == MaxHistory)
            && GetHistoricalData(feeds, name, r.requested.value, response) == r
  {
  }

  /** Asking for 1000 points or more makes the same request as asking for exactly 1000. */
  lemma HistoryLimitCapped<D>(feeds: Feeds, name: string, limit: int, response: Option<(int, seq<D>)>)
    requires limit >= MaxHistory
    ensures GetHistoricalData(feeds, name, limit, response) == GetHistoricalData(feeds, name, MaxHistory, response)
    ensures HasKey(feeds, name) ==> GetHistoricalData(feeds, name, limit, response).requested == Some(MaxHistory)
  {
  }

  /** The largest image, in bytes, `upload_photo` publishes. */
  const MaxPhotoBytes := 100000

  /**
   * `upload_photo`: the topic an image of `size` bytes is published to, or
   * `None` when the file could not be read or is too large. The photo feed
   * defaults to "photos" when unconfigured.
   */
  function UploadPhoto(feeds: Feeds, username: string, size: nat, readable: bool): (r: Option<string>)
    ensures r.Some? <==> readable && size <= MaxPhotoBytes
    ensures r.Some? ==> r.value == Topic(username, FeedKey(feeds, "photos").GetOr("photos"))
  {
    if !readable || size > MaxPhotoBytes then None
    else Some(Topic(username, FeedKey(feeds, "photos").GetOr("photos")))
  }

  /** A photo goes to the topic a publish to the configured "photos" feed uses. */
  lemma PhotoTopicIsPublishTopic<V>(feeds: Feeds, username: string, size: nat, value: V, t: Transports)
    requires HasKey(feeds, "photos") && size <= MaxPhotoBytes
    ensures UploadPhoto(feeds, username, size, true) == Some(Publish(feeds, username, "photos", value, t).topic)
  {
  }
}

=== FILE: common.dfy ===
/** Small failure-carrying datatypes shared by every module of the model. */
module Common {

  /** A value that may be absent: Python's `None` versus a present value. */
  datatype Option<+T> = None | Some(value: T) {

    /** The present value, or `default` when absent (Python's `x or default` shape). */
    function GetOr(default: T): T {
      match this
      case Some(v) => v
      case None => default
    }
  }

  /** The outcome of an operation that may raise: the value, or the error it raises. */
  datatype Result<+T, +E> = Ok(value: T) | Err(error: E)

  /** The index a Python slice bound `k` denotes in a sequence of length `n`. */
  function SliceIndex(k: int, n: nat): (r: nat)
    ensures r <= n
    ensures 0 <= k <= n ==> r == k
    ensures k > n ==> r == n
    ensures -(n as int) <= k < 0 ==> r == n + k
    ensures k < -(n as int) ==> r == 0
  {
    if k >= 0 then (if k <= n then k else n) else if n + k >= 0 then n + k else 0
  }

  /** Python's `s[:k]`, negative `k` counting from the end. */
  function PyTake<T>(s: seq<T>, k: int): seq<T> {
    s[..SliceIndex(k, |s|)]
  }

  /** Python's `s[k:]`, negative `k` counting from the end. */
  function PyDrop<T>(s: seq<T>, k: int): seq<T> {
    s[SliceIndex(k, |s|)..]
  }
}

=== FILE: config.dfy ===
/**
 * The environment overrides and the validation of app/config.py. The JSON
 * file is already parsed: a `Settings` record holds the parts of it these
 * steps read and write. The environment is a map from variable names to
 * values; a variable counts as set when it is present and non-empty.
 */
module Config {
  import opened Common
  import opened Text

  /** An allow-list entry: an int (from the environment or JSON) or a JSON string. */
  datatype BadgeId = NumericId(n: int) | TextId(s: string)

  /** `str(entry)`, the form in which badge scans are compared with the allow-list. */
  function Render(id: BadgeId): string {
    match id
    case NumericId(n) => IntToString(n)
    case TextId(s) => s
  }

  /**
   * The parsed configuration: the top-level sections present, the
   * `adafruit_io` and `email` sections (`None` when absent) and the
   * `authorized_rfids` entry (`None` when absent or null).
   */
  datatype Settings = Settings(
    sections: set<string>,
    adafruitIo: Option<map<string, string>>,
    email: Option<map<string, string>>,
    authorizedRfids: Option<seq<BadgeId>>)

  /** Why loading the configuration raises. */
  datatype ConfigError =
    | MissingSection(name: string)     // KeyError on an absent section, or the ValueError of validation
    | InvalidBadgeId(token: string)    // ValueError from int() on an allow-list token

  /** `if os.getenv(name):` */
  predicate EnvSet(env: map<string, string>, name: string) {
    name in env && env[name] != ""
  }

  // ---------------------------------------------------------------- AUTHORIZED_RFID_IDS

  /** The tokens that survive `if x.strip()`, stripped. */
  function NonBlank(tokens: seq<string>): (r: seq<string>)
    ensures |r| <= |tokens|
    ensures forall i :: 0 <= i < |r| ==> r[i] != ""
    ensures forall t :: t in r ==> exists j :: 0 <= j < |tokens| && t == Strip(tokens[j])
  {
    if |tokens| == 0 then []
    else if Strip(tokens[0]) == "" then NonBlank(tokens[1..])
    else [Strip(tokens[0])] + NonBlank(tokens[1..])
  }

  /** Every token that is not blank survives the filter, stripped. */
  lemma {:induction false} NonBlankKeepsAll(tokens: seq<string>)
    ensures forall j :: 0 <= j < |tokens| && Strip(tokens[j]) != "" ==> Strip(tokens[j]) in NonBlank(tokens)
  {
    if |tokens| > 0 {
      NonBlankKeepsAll(tokens[1..]);
      assert forall j :: 1 <= j < |tokens| ==> tokens[j] == tokens[1..][j - 1];
    }
  }

  /** A single token survives the blank filter exactly when it is not blank, and then stripped. */
  lemma NonBlankOne(t: string)
    ensures NonBlank([t]) == if Strip(t) == "" then [] else [Strip(t)]
  {
    assert [t][1..] == [];
  }

  /** The blank filter on a token followed by more tokens. */
  lemma NonBlankCons(t: string, rest: seq<string>)
    ensures NonBlank([t] + rest) == (if Strip(t) == "" then [] else [Strip(t)]) + NonBlank(rest)
  {
    NonBlankConcat([t], rest);
    NonBlankOne(t);
  }

  /** The blank filter works token by token, so it keeps the order of the tokens. */
  lemma {:induction false} NonBlankConcat(a: seq<string>, b: seq<string>)
    ensures NonBlank(a + b) == NonBlank(a) + NonBlank(b)
  {
    if |a| == 0 {
      assert a + b == b;
    } else {
      assert (a + b)[0] == a[0];
      assert (a + b)[1..] == a[1..] + b;
      NonBlankConcat(a[1..], b);
    }
  }

  /** `int()` of each token, `None` where it raises. */
  function ParseEach(tokens: seq<string>): (r: seq<Option<int>>)
    ensures |r| == |tokens|
    ensures forall i :: 0 <= i < |r| ==> r[i] == ParseInt(tokens[i])
  {
    seq(|tokens|, i requires 0 <= i < |tokens| => ParseInt(tokens[i]))
  }

  /**
   * The values of a list comprehension over per-token results: the first
   * failing token raises, otherwise all values come out in token order.
   */
  function Collect(tokens: seq<string>, parsed: seq<Option<int>>): (r: Result<seq<int>, ConfigError>)
    requires |parsed| == |tokens|
    ensures r.Ok? <==> forall i :: 0 <= i < |parsed| ==> parsed[i].Some?
    ensures r.Ok? ==> |r.value| == |parsed| && forall i :: 0 <= i < |parsed| ==> parsed[i] == Some(r.value[i])
    ensures r.Err? ==> exists i :: 0 <= i < |parsed| && parsed[i].None? && r.error == InvalidBadgeId(tokens[i])
                                 && forall j :: 0 <= j < i ==> parsed[j].Some?
  {
    if |parsed| == 0 then Ok([])
    else if parsed[0].None? then Err(InvalidBadgeId(tokens[0]))
    else
      var rest := Collect(tokens[1..], parsed[1..]);
      if rest.Err? then
        var i :| 0 <= i < |parsed| - 1 && parsed[1..][i].None? && rest.error == InvalidBadgeId(tokens[1..][i])
                 && forall j :: 0 <= j < i ==> parsed[1..][j].Some?;
        assert parsed[i + 1].None? && tokens[i + 1] == tokens[1..][i];
        assert forall j :: 1 <= j < i + 1 ==> parsed[j] == parsed[1..][j - 1];
        Err(rest.error)
      else
        var r := [parsed[0].value] + rest.value;
        assert forall i :: 1 <= i < |parsed| ==> parsed[i] == parsed[1..][i - 1] && r[i] == rest.value[i - 1];
        Ok(r)
  }

  /**
   * `int()` applied to each token in order; the first token it rejects
   * raises, otherwise the values come out in the order of the tokens.
   */
  function ParseAll(tokens: seq<string>): (r: Result<seq<int>, ConfigError>)
    ensures r.Ok? <==> forall i :: 0 <= i < |tokens| ==> ParseInt(tokens[i]).Some?
    ensures r.Ok? ==> |r.value| == |tokens|
    ensures r.Ok? ==> forall i :: 0 <= i < |tokens| ==> ParseInt(tokens[i]) == Some(r.value[i])
    ensures r.Err? ==> exists i :: 0 <= i < |tokens| && r.error == InvalidBadgeId(tokens[i]) && ParseInt(tokens[i]).None?
                                 && forall j :: 0 <= j < i ==> ParseInt(tokens[j]).Some?
  {
    Collect(tokens, ParseEach(tokens))
  }

  /**
   * AUTHORIZED_RFID_IDS read as `[int(x.strip()) for x in text.split(',') if x.strip()]`:
   * the comma-separated tokens, stripped, blanks dropped, converted in order.
   */
  function ParseBadgeList(text: string): Result<seq<int>, ConfigError> {
    ParseAll(NonBlank(Split(text, ',')))
  }

  function RenderAll(ids: seq<int>): (r: seq<string>)
    ensures |r| == |ids|
    ensures forall i :: 0 <= i < |r| ==> r[i] == IntToString(ids[i])
  {
    seq(|ids|, i requires 0 <= i < |ids| => IntToString(ids[i]))
  }

  /** The rendering of an integer holds no comma and is its own, non-empty, strip. */
  lemma IntToStringPlain(n: int)
    ensures ',' !in IntToString(n)
    ensures IntToString(n) != "" && Strip(IntToString(n)) == IntToString(n)
  {
    var s := IntToString(n);
    var digits := NatToString(if n < 0 then -n else n);
    assert forall i :: 0 <= i < |digits| ==> IsDigit(digits[i]);
    if n < 0 {
      assert s == "-" + digits;
      assert forall i :: 1 <= i < |s| ==> s[i] == digits[i - 1];
    }
    StripKeeps(s);
  }

  /** Rendered integers are all non-blank and already stripped. */
  lemma {:induction false} NonBlankRendered(ids: seq<int>)
    ensures NonBlank(RenderAll(ids)) == RenderAll(ids)
  {
    if |ids| > 0 {
      var tokens := RenderAll(ids);
      IntToStringPlain(ids[0]);
      assert tokens[1..] == RenderAll(ids[1..]);
      NonBlankRendered(ids[1..]);
    }
  }

  /** Rendered integers read back through `int()` give the integers. */
  lemma ParseRendered(ids: seq<int>)
    ensures ParseAll(RenderAll(ids)) == Ok(ids)
  {
    var tokens := RenderAll(ids);
    forall i | 0 <= i < |tokens|
      ensures ParseInt(tokens[i]) == Some(ids[i])
    {
      IntToStringRoundTrip(ids[i]);
    }
    var r := ParseAll(tokens);
    assert r.Ok?;
    assert forall i :: 0 <= i < |ids| ==> Some(r.value[i]) == Some(ids[i]);
    assert r.value == ids;
  }

  /** Writing a non-empty allow-list as comma-separated integers and parsing it gives it back. */
  lemma BadgeListRoundTrip(ids: seq<int>)
    requires |ids| > 0
    ensures ParseBadgeList(Join(RenderAll(ids), ',')) == Ok(ids)
  {
    var tokens := RenderAll(ids);
    forall i | 0 <= i < |tokens|
      ensures ',' !in tokens[i]
    {
      IntToStringPlain(ids[i]);
    }
    SplitJoin(tokens, ',');
    NonBlankRendered(ids);
    ParseRendered(ids);
  }

  /** The padded list `" 1 , ,2"` reads as the badges 1 and 2: tokens trimmed, blanks dropped, order kept. */
  lemma PaddedBadgeList(text: string)
    requires text == " 1 , ,2"
    ensures ParseBadgeList(text) == Ok([1, 2])
  {
    PaddedTokens(text);
    RenderedOneTwo();
    ParseRendered([1, 2]);
  }

  lemma PaddedTokens(text: string)
    requires text == " 1 , ,2"
    ensures NonBlank(Split(text, ',')) == ["1", "2"]
  {
    var a, b, c := " 1 ", " ", "2";
    PaddedSplit(text, a, b, c);
    PaddedStrips(a, b, c);
    NonBlankMiddleBlank(a, b, c);
  }

  lemma RenderedOneTwo()
    ensures RenderAll([1, 2]) == ["1", "2"]
  {
    assert IntToString(1) == "1" && IntToString(2) == "2";
  }

  lemma PaddedSplit(text: string, a: string, b: string, c: string)
    requires text == " 1 , ,2" && a == " 1 " && b == " " && c == "2"
    ensures Split(text, ',') == [a, b, c]
  {
    var pieces := [" 1 ", " ", "2"];
    assert Join(pieces, ',') == " 1 , ,2";
    SplitJoin(pieces, ',');
  }

  /** Three tokens with a blank one in the middle keep the outer two, stripped. */
  lemma NonBlankMiddleBlank(a: string, b: string, c: string)
    requires Strip(a) != "" && Strip(b) == "" && Strip(c) != ""
    ensures NonBlank([a, b, c]) == [Strip(a), Strip(c)]
  {
    NonBlankCons(c, []);
    NonBlankCons(b, [c]);
    NonBlankCons(a, [b, c]);
    assert [c] + [] == [c] && [b] + [c] == [b, c] && [a] + [b, c] == [a, b, c];
  }

  lemma PaddedStrips(a: string, b: string, c: string)
    requires a == " 1 " && b == " " && c == "2"
    ensures Strip(a) == "1" && Strip(b) == "" && Strip(c) == "2"
  {
    assert StripLeft(a) == a[1..];
    assert StripRight(a[1..]) == "1";
    assert StripLeft(b) == "";
    StripKeeps(c);
  }

  // ---------------------------------------------------------------- overrides

  /** The sections `_validate` insists on, in the order it checks them. */
  const Required: seq<string> := ["pins", "camera", "logic", "servo_angle"]

  /** The value of a variable, or empty when unset. */
  function EnvGet(env: map<string, string>, name: string): string {
    if name in env then env[name] else ""
  }

  /**
   * `section[key] = value` when `write` holds; writing into an absent section
   * raises KeyError.
   */
  function Put(section: Option<map<string, string>>, name: string, write: bool, key: string, value: string)
    : (r: Result<Option<map<string, string>>, ConfigError>)
    ensures r.Err? <==> write && section.None?
    ensures r.Err? ==> r.error == MissingSection(name)
    ensures r.Ok? && !write ==> r.value == section
    ensures r.Ok? && write ==> r.value == Some(section.value[key := value])
  {
    if !write then Ok(section)
    else if section.None? then Err(MissingSection(name))
    else Ok(Some(section.value[key := value]))
  }

  /** `field` has the same entry, or the same absence, in both maps. */
  predicate Untouched(before: map<string, string>, after: map<string, string>, field: string) {
    (field in after <==> field in before) && (field in before ==> after[field] == before[field])
  }

  /** `field` holds the value of variable `name` when it is set, and is untouched otherwise. */
  predicate Overridden(before: map<string, string>, after: map<string, string>, env: map<string, string>,
                       name: string, field: string) {
    if EnvSet(env, name) then field in after && after[field] == env[name]
    else Untouched(before, after, field)
  }

  /** The Adafruit IO credential overrides: each field is overwritten only when its variable is set. */
  function OverrideAdafruit(cfg: Settings, env: map<string, string>): (r: Result<Settings, ConfigError>)
    ensures r.Ok? <==> cfg.adafruitIo.Some? || (!EnvSet(env, "ADAFRUIT_IO_USERNAME") && !EnvSet(env, "ADAFRUIT_IO_KEY"))
    ensures r.Err? ==> r.error == MissingSection("adafruit_io")
    ensures r.Ok? ==> r.value == cfg.(adafruitIo := r.value.adafruitIo)
    ensures r.Ok? ==> (r.value.adafruitIo.Some? <==> cfg.adafruitIo.Some?)
    ensures r.Ok? && cfg.adafruitIo.Some? ==>
              var before, after := cfg.adafruitIo.value, r.value.adafruitIo.value;
              Overridden(before, after, env, "ADAFRUIT_IO_USERNAME", "username") &&
              Overridden(before, after, env, "ADAFRUIT_IO_KEY", "key") &&
              forall k :: k != "username" && k != "key" ==> Untouched(before, after, k)
    ensures r.Ok? && !EnvSet(env, "ADAFRUIT_IO_USERNAME") && !EnvSet(env, "ADAFRUIT_IO_KEY") ==> r.value == cfg
  {
    var user := "ADAFRUIT_IO_USERNAME";
    var key := "ADAFRUIT_IO_KEY";
    match Put(cfg.adafruitIo, "adafruit_io", EnvSet(env, user), "username", EnvGet(env, user))
    case Err(e) => Err(e)
    case Ok(s1) =>
      match Put(s1, "adafruit_io", EnvSet(env, key), "key", EnvGet(env, key))
      case Err(e) => Err(e)
      case Ok(s2) => Ok(cfg.(adafruitIo := s2))
  }

  /**
   * The e-mail overrides: BREVO_API_KEY creates the section when absent;
   * EMAIL_FROM and EMAIL_TO need it to exist.
   */
  function OverrideEmail(cfg: Settings, env: map<string, string>): (r: Result<Settings, ConfigError>)
    ensures r.Ok? <==>
              cfg.email.Some? || EnvSet(env, "BREVO_API_KEY") || (!EnvSet(env, "EMAIL_FROM") && !EnvSet(env, "EMAIL_TO"))
    ensures r.Err? ==> r.error == MissingSection("email")
    ensures r.Ok? ==> r.value == cfg.(email := r.value.email, sections := r.value.sections)
    ensures r.Ok? ==> r.value.sections == if EnvSet(env, "BREVO_API_KEY") then cfg.sections + {"email"} else cfg.sections
    ensures r.Ok? ==> (r.value.email.Some? <==> cfg.email.Some? || EnvSet(env, "BREVO_API_KEY"))
    ensures r.Ok? && r.value.email.Some? ==>
              var before, after := cfg.email.GetOr(map[]), r.value.email.value;
              Overridden(before, after, env, "BREVO_API_KEY", "brevo_api_key") &&
              Overridden(before, after, env, "EMAIL_FROM", "from_email") &&
              Overridden(before, after, env, "EMAIL_TO", "to_email") &&
              forall k :: k != "brevo_api_key" && k != "from_email" && k != "to_email" ==> Untouched(before, after, k)
    ensures r.Ok? && !EnvSet(env, "BREVO_API_KEY") && !EnvSet(env, "EMAIL_FROM") && !EnvSet(env, "EMAIL_TO") ==>
              r.value == cfg
  {
    var brevo := "BREVO_API_KEY";
    var s1 := if EnvSet(env, brevo) then Some(cfg.email.GetOr(map[])["brevo_api_key" := env[brevo]]) else cfg.email;
    var sections := if EnvSet(env, brevo) then cfg.sections + {"email"} else cfg.sections;
    match Put(s1, "email", EnvSet(env, "EMAIL_FROM"), "from_email", EnvGet(env, "EMAIL_FROM"))
    case Err(e) => Err(e)
    case Ok(s2) =>
      match Put(s2, "email", EnvSet(env, "EMAIL_TO"), "to_email", EnvGet(env, "EMAIL_TO"))
      case Err(e) => Err(e)
      case Ok(s3) => Ok(cfg.(email := s3, sections := sections))
  }

  /** The e-mail overrides read only the e-mail section and the section list. */
  lemma OverrideEmailLocal(a: Settings, b: Settings, env: map<string, string>)
    requires a.email == b.email && a.sections == b.sections
    ensures OverrideEmail(a, env).Ok? == OverrideEmail(b, env).Ok?
    ensures OverrideEmail(a, env).Ok? ==> OverrideEmail(a, env).value.email == OverrideEmail(b, env).value.email
  {
  }

  /**
   * `_apply_env_overrides`: credentials first, then e-mail, then the badge
   * allow-list, which is replaced only when AUTHORIZED_RFID_IDS is non-empty.
   */
  function ApplyEnvOverrides(cfg: Settings, env: map<string, string>): (r: Result<Settings, ConfigError>)
    ensures r.Ok? <==>
              (cfg.adafruitIo.Some? || (!EnvSet(env, "ADAFRUIT_IO_USERNAME") && !EnvSet(env, "ADAFRUIT_IO_KEY"))) &&
              (cfg.email.Some? || EnvSet(env, "BREVO_API_KEY") || (!EnvSet(env, "EMAIL_FROM") && !EnvSet(env, "EMAIL_TO"))) &&
              (EnvSet(env, "AUTHORIZED_RFID_IDS") ==> ParseBadgeList(env["AUTHORIZED_RFID_IDS"]).Ok?)
    ensures r.Err? ==>
              r.error == if OverrideAdafruit(cfg, env).Err? then MissingSection("adafruit_io")
                         else if OverrideEmail(cfg, env).Err? then MissingSection("email")
                         else ParseBadgeList(env["AUTHORIZED_RFID_IDS"]).error
    ensures r.Ok? ==> r.value.adafruitIo == OverrideAdafruit(cfg, env).value.adafruitIo
    ensures r.Ok? ==> r.value.email == OverrideEmail(cfg, env).value.email
    ensures r.Ok? ==>
              r.value.sections == cfg.sections + (if EnvSet(env, "BREVO_API_KEY") then {"email"} else {})
                                               + (if EnvSet(env, "AUTHORIZED_RFID_IDS") then {"authorized_rfids"} else {})
    ensures r.Ok? && !EnvSet(env, "AUTHORIZED_RFID_IDS") ==> r.value.authorizedRfids == cfg.authorizedRfids
    ensures r.Ok? && EnvSet(env, "AUTHORIZED_RFID_IDS") ==>
              r.value.authorizedRfids == Some(Numeric(ParseBadgeList(env["AUTHORIZED_RFID_IDS"]).value))
  {
    match OverrideAdafruit(cfg, env)
    case Err(e) => Err(e)
    case Ok(c1) =>
      OverrideEmailLocal(c1, cfg, env);
      match OverrideEmail(c1, env)
      case Err(e) => Err(e)
      case Ok(c2) => OverrideAllowList(c2, env)
  }

  /** The allow-list override: AUTHORIZED_RFID_IDS, when non-empty, replaces the list with its integers. */
  function OverrideAllowList(cfg: Settings, env: map<string, string>): (r: Result<Settings, ConfigError>)
    ensures r.Ok? <==> (EnvSet(env, "AUTHORIZED_RFID_IDS") ==> ParseBadgeList(env["AUTHORIZED_RFID_IDS"]).Ok?)
    ensures r.Err? ==> r.error == ParseBadgeList(env["AUTHORIZED_RFID_IDS"]).error
    ensures r.Ok? && !EnvSet(env, "AUTHORIZED_RFID_IDS") ==> r.value == cfg
    ensures r.Ok? && EnvSet(env, "AUTHORIZED_RFID_IDS") ==>
              r.value == cfg.(authorizedRfids := Some(Numeric(ParseBadgeList(env["AUTHORIZED_RFID_IDS"]).value)),
                              sections := cfg.sections + {"authorized_rfids"})
  {
    if !EnvSet(env, "AUTHORIZED_RFID_IDS") then Ok(cfg)
    else
      match ParseBadgeList(env["AUTHORIZED_RFID_IDS"])
      case Err(e) => Err(e)
      case Ok(ids) => Ok(cfg.(authorizedRfids := Some(Numeric(ids)), sections := cfg.sections + {"authorized_rfids"}))
  }

  function Numeric(ids: seq<int>): (r: seq<BadgeId>)
    ensures |r| == |ids|
    ensures forall i :: 0 <= i < |r| ==> r[i] == NumericId(ids[i])
  {
    seq(|ids|, i requires 0 <= i < |ids| => NumericId(ids[i]))
  }

  // ---------------------------------------------------------------- validation

  /** The first of `keys` absent from `present`. */
  function FirstMissing(keys: seq<string>, present: set<string>): (r: Option<string>)
    ensures r.None? <==> forall i :: 0 <= i < |keys| ==> keys[i] in present
    ensures r.Some? ==> r.value in keys && r.value !in present
    ensures r.Some? ==> exists i :: 0 <= i < |keys| && keys[i] == r.value && forall j :: 0 <= j < i ==> keys[j] in present
  {
    if |keys| == 0 then None
    else if keys[0] !in present then Some(keys[0])
    else
      var r := FirstMissing(keys[1..], present);
      if r.Some? then
        var i :| 0 <= i < |keys| - 1 && keys[1..][i] == r.value && forall j :: 0 <= j < i ==> keys[1..][j] in present;
        assert keys[i + 1] == r.value;
        assert forall j :: 1 <= j < i + 1 ==> keys[j] == keys[1..][j - 1];
        r
      else r
  }

  /**
   * `_validate`: raises iff a required section is missing; otherwise the
   * result tells whether the "no authorized RFID keys" warning is logged.
   */
  function Validate(cfg: Settings): (r: Result<bool, ConfigError>)
    ensures r.Err? <==> exists i :: 0 <= i < |Required| && Required[i] !in cfg.sections
    ensures r.Err? ==> r.error.MissingSection? && r.error.name in Required && r.error.name !in cfg.sections
    ensures r.Err? ==> exists i :: 0 <= i < |Required| && Required[i] == r.error.name &&
                                  forall j :: 0 <= j < i ==> Required[j] in cfg.sections
    ensures r.Ok? ==> (r.value <==> cfg.authorizedRfids.None? || cfg.authorizedRfids.value == [])
  {
    match FirstMissing(Required, cfg.sections)
    case Some(k) => Err(MissingSection(k))
    case None => Ok(cfg.authorizedRfids.None? || cfg.authorizedRfids.value == [])
  }

  /** The `authorized_rfids` accessor: the list, or empty when absent. */
  function AuthorizedRfids(cfg: Settings): (r: seq<BadgeId>)
    ensures cfg.authorizedRfids.None? ==> r == []
    ensures cfg.authorizedRfids.Some? ==> r == cfg.authorizedRfids.value
  {
    cfg.authorizedRfids.GetOr([])
  }

  /** The overrides add at most the e-mail section and the allow-list, so they never change the required sections. */
  lemma OverridesKeepRequired(cfg: Settings, env: map<string, string>)
    requires ApplyEnvOverrides(cfg, env).Ok?
    ensures forall i :: 0 <= i < |Required| ==>
              (Required[i] in ApplyEnvOverrides(cfg, env).value.sections <==> Required[i] in cfg.sections)
  {
    OverridesAddAtMost(cfg, env);
    AddingKeepsRequired(cfg.sections, ApplyEnvOverrides(cfg, env).value.sections);
  }

  lemma AddingKeepsRequired(before: set<string>, after: set<string>)
    requires before <= after <= before + {"email", "authorized_rfids"}
    ensures forall i :: 0 <= i < |Required| ==> (Required[i] in after <==> Required[i] in before)
  {
    RequiredNotAdded();
  }

  lemma OverridesAddAtMost(cfg: Settings, env: map<string, string>)
    requires ApplyEnvOverrides(cfg, env).Ok?
    ensures cfg.sections <= ApplyEnvOverrides(cfg, env).value.sections
    ensures ApplyEnvOverrides(cfg, env).value.sections <= cfg.sections + {"email", "authorized_rfids"}
  {
  }

  lemma RequiredNotAdded()
    ensures forall i :: 0 <= i < |Required| ==> Required[i] != "email" && Required[i] != "authorized_rfids"
  {
    forall i | 0 <= i < |Required|
      ensures Required[i] != "email" && Required[i] != "authorized_rfids"
    {
      assert Required[i][0] in {'p', 'c', 'l', 's'};
    }
  }

  /**
   * Loading: overrides, then validation. It succeeds exactly when the
   * overrides do and the file already has every required section, and then
   * yields the overridden configuration.
   */
  function Load(cfg: Settings, env: map<string, string>): (r: Result<Settings, ConfigError>)
    ensures r.Ok? <==>
              ApplyEnvOverrides(cfg, env).Ok? && forall i :: 0 <= i < |Required| ==> Required[i] in cfg.sections
    ensures r.Ok? ==> r.value == ApplyEnvOverrides(cfg, env).value
    ensures r.Ok? ==> forall i :: 0 <= i < |Required| ==> Required[i] in r.value.sections
    ensures r.Err? && ApplyEnvOverrides(cfg, env).Ok? ==>
              r.error.MissingSection? && r.error.name in Required && r.error.name !in cfg.sections
    ensures r.Err? && ApplyEnvOverrides(cfg, env).Ok? ==>
              exists i :: 0 <= i < |Required| && Required[i] == r.error.name &&
                          forall j :: 0 <= j < i ==> Required[j] in cfg.sections
    ensures ApplyEnvOverrides(cfg, env).Err? ==> r == Err(ApplyEnvOverrides(cfg, env).error)
  {
    match ApplyEnvOverrides(cfg, env)
    case Err(e) => Err(e)
    case Ok(c) =>
      OverridesKeepRequired(cfg, env);
      match Validate(c)
      case Err(e) => Err(e)
      case Ok(_) => Ok(c)
  }

  /** Every part the record holds is listed among the sections. */
  predicate Coherent(cfg: Settings) {
    (cfg.adafruitIo.Some? ==> "adafruit_io" in cfg.sections) &&
    (cfg.email.Some? ==> "email" in cfg.sections) &&
    (cfg.authorizedRfids.Some? ==> "authorized_rfids" in cfg.sections)
  }

  /** The overrides list every section they create. */
  lemma OverridesKeepCoherent(cfg: Settings, env: map<string, string>)
    requires Coherent(cfg) && ApplyEnvOverrides(cfg, env).Ok?
    ensures Coherent(ApplyEnvOverrides(cfg, env).value)
  {
  }

  /** The credentials section already holds every set credential variable. */
  predicate AdafruitSettled(cfg: Settings, env: map<string, string>) {
    (EnvSet(env, "ADAFRUIT_IO_USERNAME") ==>
       cfg.adafruitIo.Some? && "username" in cfg.adafruitIo.value &&
       cfg.adafruitIo.value["username"] == env["ADAFRUIT_IO_USERNAME"]) &&
    (EnvSet(env, "ADAFRUIT_IO_KEY") ==>
       cfg.adafruitIo.Some? && "key" in cfg.adafruitIo.value && cfg.adafruitIo.value["key"] == env["ADAFRUIT_IO_KEY"])
  }

  /** The e-mail section already holds every set e-mail variable, and is listed when BREVO_API_KEY is set. */
  predicate EmailSettled(cfg: Settings, env: map<string, string>) {
    (EnvSet(env, "BREVO_API_KEY") ==>
       "email" in cfg.sections && cfg.email.Some? && "brevo_api_key" in cfg.email.value &&
       cfg.email.value["brevo_api_key"] == env["BREVO_API_KEY"]) &&
    (EnvSet(env, "EMAIL_FROM") ==>
       cfg.email.Some? && "from_email" in cfg.email.value && cfg.email.value["from_email"] == env["EMAIL_FROM"]) &&
    (EnvSet(env, "EMAIL_TO") ==>
       cfg.email.Some? && "to_email" in cfg.email.value && cfg.email.value["to_email"] == env["EMAIL_TO"])
  }

  /** The allow-list already is the one AUTHORIZED_RFID_IDS names, when it is set. */
  predicate AllowListSettled(cfg: Settings, env: map<string, string>) {
    EnvSet(env, "AUTHORIZED_RFID_IDS") ==>
      ParseBadgeList(env["AUTHORIZED_RFID_IDS"]).Ok? && "authorized_rfids" in cfg.sections &&
      cfg.authorizedRfids == Some(Numeric(ParseBadgeList(env["AUTHORIZED_RFID_IDS"]).value))
  }

  /** Writing an entry a map already holds leaves it as it is. */
  lemma UpdateHeld(m: map<string, string>, key: string, value: string)
    requires key in m && m[key] == value
    ensures m[key := value] == m
  {
  }

  /** The overrides leave behind a configuration that carries every set variable. */
  lemma OverridesSettle(cfg: Settings, env: map<string, string>)
    requires ApplyEnvOverrides(cfg, env).Ok?
    ensures var c := ApplyEnvOverrides(cfg, env).value;
            AdafruitSettled(c, env) && EmailSettled(c, env) && AllowListSettled(c, env)
  {
  }

  /** A configuration that already carries every set variable is a fixed point of the overrides. */
  lemma SettledUnchanged(cfg: Settings, env: map<string, string>)
    requires AdafruitSettled(cfg, env) && EmailSettled(cfg, env) && AllowListSettled(cfg, env)
    ensures ApplyEnvOverrides(cfg, env) == Ok(cfg)
  {
    AdafruitUnchanged(cfg, env);
    EmailUnchanged(cfg, env);
    AllowListUnchanged(cfg, env);
  }

  lemma AllowListUnchanged(cfg: Settings, env: map<string, string>)
    requires AllowListSettled(cfg, env)
    ensures OverrideAllowList(cfg, env) == Ok(cfg)
  {
    if EnvSet(env, "AUTHORIZED_RFID_IDS") {
      ListedAgain(cfg, Some(Numeric(ParseBadgeList(env["AUTHORIZED_RFID_IDS"]).value)));
    }
  }

  /** Setting the allow-list a configuration already lists to its own value changes nothing. */
  lemma ListedAgain(cfg: Settings, list: Option<seq<BadgeId>>)
    requires list == cfg.authorizedRfids && "authorized_rfids" in cfg.sections
    ensures cfg.(authorizedRfids := list, sections := cfg.sections + {"authorized_rfids"}) == cfg
  {
    assert cfg.sections + {"authorized_rfids"} == cfg.sections;
  }

  lemma AdafruitUnchanged(cfg: Settings, env: map<string, string>)
    requires AdafruitSettled(cfg, env)
    ensures OverrideAdafruit(cfg, env) == Ok(cfg)
  {
    if cfg.adafruitIo.Some? {
      var m := cfg.adafruitIo.value;
      if EnvSet(env, "ADAFRUIT_IO_USERNAME") { UpdateHeld(m, "username", env["ADAFRUIT_IO_USERNAME"]); }
      if EnvSet(env, "ADAFRUIT_IO_KEY") { UpdateHeld(m, "key", env["ADAFRUIT_IO_KEY"]); }
    }
  }

  lemma EmailUnchanged(cfg: Settings, env: map<string, string>)
    requires EmailSettled(cfg, env)
    ensures OverrideEmail(cfg, env) == Ok(cfg)
  {
    if cfg.email.Some? {
      var m := cfg.email.value;
      if EnvSet(env, "BREVO_API_KEY") {
        UpdateHeld(m, "brevo_api_key", env["BREVO_API_KEY"]);
        assert cfg.sections + {"email"} == cfg.sections;
      }
      if EnvSet(env, "EMAIL_FROM") { UpdateHeld(m, "from_email", env["EMAIL_FROM"]); }
      if EnvSet(env, "EMAIL_TO") { UpdateHeld(m, "to_email", env["EMAIL_TO"]); }
    }
  }

  /** Applying the overrides to their own result changes nothing more. */
  lemma OverridesIdempotent(cfg: Settings, env: map<string, string>)
    requires ApplyEnvOverrides(cfg, env).Ok?
    ensures ApplyEnvOverrides(ApplyEnvOverrides(cfg, env).value, env) == ApplyEnvOverrides(cfg, env)
  {
    OverridesSettle(cfg, env);
    SettledUnchanged(ApplyEnvOverrides(cfg, env).value, env);
  }

  /** With no environment variable set, loading a file that has the required sections returns it unchanged. */
  lemma LoadWithoutEnvironment(cfg: Settings)
    requires forall i :: 0 <= i < |Required| ==> Required[i] in cfg.sections
    ensures Load(cfg, map[]) == Ok(cfg)
  {
  }

  /** AUTHORIZED_RFID_IDS=" 1 , ,2" loads as the allow-list [1, 2] and lists the entry. */
  lemma LoadWithBadges(cfg: Settings, env: map<string, string>)
    requires forall i :: 0 <= i < |Required| ==> Required[i] in cfg.sections
    requires env == map["AUTHORIZED_RFID_IDS" := " 1 , ,2"]
    ensures Load(cfg, env) ==
              Ok(cfg.(authorizedRfids := Some(Numeric([1, 2])), sections := cfg.sections + {"authorized_rfids"}))
  {
    PaddedBadgeEnv(env);
    LoadOnlyBadges(cfg, env, [1, 2]);
  }

  lemma PaddedBadgeEnv(env: map<string, string>)
    requires env == map["AUTHORIZED_RFID_IDS" := " 1 , ,2"]
    ensures !EnvSet(env, "ADAFRUIT_IO_USERNAME") && !EnvSet(env, "ADAFRUIT_IO_KEY")
    ensures !EnvSet(env, "BREVO_API_KEY") && !EnvSet(env, "EMAIL_FROM") && !EnvSet(env, "EMAIL_TO")
    ensures EnvSet(env, "AUTHORIZED_RFID_IDS") && ParseBadgeList(env["AUTHORIZED_RFID_IDS"]) == Ok([1, 2])
  {
    OnlyAllowListSet(env);
    PaddedBadgeList(env["AUTHORIZED_RFID_IDS"]);
  }

  /** With only AUTHORIZED_RFID_IDS set, parsing to `ids`, a file with the required sections loads with that allow-list. */
  lemma LoadOnlyBadges(cfg: Settings, env: map<string, string>, ids: seq<int>)
    requires forall i :: 0 <= i < |Required| ==> Required[i] in cfg.sections
    requires !EnvSet(env, "ADAFRUIT_IO_USERNAME") && !EnvSet(env, "ADAFRUIT_IO_KEY")
    requires !EnvSet(env, "BREVO_API_KEY") && !EnvSet(env, "EMAIL_FROM") && !EnvSet(env, "EMAIL_TO")
    requires EnvSet(env, "AUTHORIZED_RFID_IDS") && ParseBadgeList(env["AUTHORIZED_RFID_IDS"]) == Ok(ids)
    ensures Load(cfg, env) ==
              Ok(cfg.(authorizedRfids := Some(Numeric(ids)), sections := cfg.sections + {"authorized_rfids"}))
  {
    OnlyBadgesSet(cfg, env, ids);
  }

  /** With only AUTHORIZED_RFID_IDS set, and parsing to `ids`, the overrides install just the allow-list. */
  lemma OnlyBadgesSet(cfg: Settings, env: map<string, string>, ids: seq<int>)
    requires !EnvSet(env, "ADAFRUIT_IO_USERNAME") && !EnvSet(env, "ADAFRUIT_IO_KEY")
    requires !EnvSet(env, "BREVO_API_KEY") && !EnvSet(env, "EMAIL_FROM") && !EnvSet(env, "EMAIL_TO")
    requires EnvSet(env, "AUTHORIZED_RFID_IDS") && ParseBadgeList(env["AUTHORIZED_RFID_IDS"]) == Ok(ids)
    ensures ApplyEnvOverrides(cfg, env) ==
              Ok(cfg.(authorizedRfids := Some(Numeric(ids)), sections := cfg.sections + {"authorized_rfids"}))
  {
    AdafruitUnchanged(cfg, env);
    EmailUnchanged(cfg, env);
    OnlyAllowList(cfg, env);
    AllowListOf(cfg, env, ids);
  }

  /** When the credential and e-mail overrides change nothing, the allow-list override is all that happens. */
  lemma OnlyAllowList(cfg: Settings, env: map<string, string>)
    requires OverrideAdafruit(cfg, env) == Ok(cfg) && OverrideEmail(cfg, env) == Ok(cfg)
    ensures ApplyEnvOverrides(cfg, env) == OverrideAllowList(cfg, env)
  {
  }

  /** A set AUTHORIZED_RFID_IDS that parses to `ids` installs them as the allow-list. */
  lemma AllowListOf(cfg: Settings, env: map<string, string>, ids: seq<int>)
    requires EnvSet(env, "AUTHORIZED_RFID_IDS") && ParseBadgeList(env["AUTHORIZED_RFID_IDS"]) == Ok(ids)
    ensures OverrideAllowList(cfg, env) ==
              Ok(cfg.(authorizedRfids := Some(Numeric(ids)), sections := cfg.sections + {"authorized_rfids"}))
  {
  }

  lemma OnlyAllowListSet(env: map<string, string>)
    requires env == map["AUTHORIZED_RFID_IDS" := " 1 , ,2"]
    ensures !EnvSet(env, "ADAFRUIT_IO_USERNAME") && !EnvSet(env, "ADAFRUIT_IO_KEY")
    ensures !EnvSet(env, "BREVO_API_KEY") && !EnvSet(env, "EMAIL_FROM") && !EnvSet(env, "EMAIL_TO")
    ensures EnvSet(env, "AUTHORIZED_RFID_IDS")
  {
    assert "ADAFRUIT_IO_USERNAME"[1] != "AUTHORIZED_RFID_IDS"[1];
    assert "ADAFRUIT_IO_KEY"[1] != "AUTHORIZED_RFID_IDS"[1];
  }

  /** An empty allow-list only warns: with the sections present, loading succeeds. */
  lemma EmptyAllowListOnlyWarns(cfg: Settings)
    requires forall i :: 0 <= i < |Required| ==> Required[i] in cfg.sections
    requires cfg.authorizedRfids.None? || cfg.authorizedRfids.value == []
    ensures Validate(cfg) == Ok(true)
  {
  }
}

=== FILE: dispatcher.dfy ===
/**
 * The remote-command handler of app/state_machine.py (`_handle_adafruit_control`)
 * as a parser from a control feed and its value to a command, followed by
 * the command's effect on the controller's state.
 */
module Dispatcher {
  import opened Common
  import opened Text
  import opened Actuators
  import opened Machine
  import Adafruit

  datatype LedCommand = LedOnCmd | LedOffCmd | BlinkSlow | BlinkFast
  datatype BuzzerCommand = SirenCmd | StopCmd | BeepCmd | BeepTwiceCmd
  datatype ServoCommand = LockCmd | UnlockCmd | AngleCmd(angle: int)

  /** A recognised remote command, or `Discard` for anything the handler ignores. */
  datatype Command =
    | LedCmd(led: LedCommand)
    | BuzzerCmd(buzzer: BuzzerCommand)
    | ServoCmd(servo: ServoCommand)
    | StealthCmd(enabled: bool)
    | Discard

  /** `str(value).strip().lower()`. */
  function Normalize(value: string): string {
    Lower(Strip(value))
  }

  /** Normalizing an already normalized value changes nothing. */
  lemma NormalizeIdempotent(value: string)
    ensures Normalize(Normalize(value)) == Normalize(value)
  {
    var t := Strip(value);
    var l := Lower(t);
    if |t| > 0 {
      LowerCharSpace(t[0]);
      LowerCharSpace(t[|t| - 1]);
    }
    StripKeeps(l);
    LowerIdempotent(t);
  }

  /**
   * `int(float(value))` accepted as a servo angle: a finite decimal number,
   * truncated toward zero, within 0..180. Text that is not a number, an
   * infinity or NaN, and an angle out of range give `None`.
   */
  function ParseAngle(value: string): (r: Option<int>)
    ensures r.Some? ==> 0 <= r.value <= 180
    ensures r.Some? <==> ParseFloat(value).Some? && ParseFloat(value).value.Finite?
                         && 0 <= Trunc(ParseFloat(value).value.value) <= 180
    ensures r.Some? ==> r.value == Trunc(ParseFloat(value).value.value)
  {
    match ParseFloat(value)
    case Some(Finite(x)) => if 0 <= Trunc(x) <= 180 then Some(Trunc(x)) else None
    case _ => None
  }

  const LedOnWords: seq<string> := ["1", "on", "true"]
  const LedOffWords: seq<string> := ["0", "off", "false"]
  const SirenWords: seq<string> := ["1", "on", "siren", "true"]
  const StopWords: seq<string> := ["0", "off", "stop", "false"]
  const LockWords: seq<string> := ["lock", "locked", "1"]
  const UnlockWords: seq<string> := ["unlock", "unlocked", "0"]
  const StealthOnWords: seq<string> := ["1", "on", "true", "enabled"]
  const StealthOffWords: seq<string> := ["0", "off", "false", "disabled"]

  /** The LED feed's words. */
  function ParseLed(v: string): (r: Command)
    ensures r.LedCmd? || r == Discard
    ensures r == LedCmd(LedOnCmd) <==> v in LedOnWords
    ensures r == LedCmd(LedOffCmd) <==> v in LedOffWords
    ensures r == LedCmd(BlinkSlow) <==> v == "blink"
    ensures r == LedCmd(BlinkFast) <==> v == "blink-fast"
  {
    if v in LedOnWords then LedCmd(LedOnCmd)
    else if v in LedOffWords then LedCmd(LedOffCmd)
    else if v == "blink" then LedCmd(BlinkSlow)
    else if v == "blink-fast" then LedCmd(BlinkFast)
    else Discard
  }

  /** The buzzer feed's words. */
  function ParseBuzzer(v: string): (r: Command)
    ensures r.BuzzerCmd? || r == Discard
    ensures r == BuzzerCmd(SirenCmd) <==> v in SirenWords
    ensures r == BuzzerCmd(StopCmd) <==> v in StopWords
    ensures r == BuzzerCmd(BeepCmd) <==> v == "beep"
    ensures r == BuzzerCmd(BeepTwiceCmd) <==> v == "beep-twice"
  {
    if v in SirenWords then BuzzerCmd(SirenCmd)
    else if v in StopWords then BuzzerCmd(StopCmd)
    else if v == "beep" then BuzzerCmd(BeepCmd)
    else if v == "beep-twice" then BuzzerCmd(BeepTwiceCmd)
    else Discard
  }

  /** The servo feed's words: lock and unlock first, then an angle. */
  function ParseServo(v: string): (r: Command)
    ensures r.ServoCmd? || r == Discard
    ensures r == ServoCmd(LockCmd) <==> v in LockWords
    ensures r == ServoCmd(UnlockCmd) <==> v in UnlockWords
    ensures r.ServoCmd? && r.servo.AngleCmd? ==> 0 <= r.servo.angle <= 180
    ensures v !in LockWords && v !in UnlockWords ==>
              r == (if ParseAngle(v).Some? then ServoCmd(AngleCmd(ParseAngle(v).value)) else Discard)
  {
    if v in LockWords then ServoCmd(LockCmd)
    else if v in UnlockWords then ServoCmd(UnlockCmd)
    else
      match ParseAngle(v)
      case Some(a) => ServoCmd(AngleCmd(a))
      case None => Discard
  }

  /** The stealth feed's words. */
  function ParseStealth(v: string): (r: Command)
    ensures r.StealthCmd? || r == Discard
    ensures r == StealthCmd(true) <==> v in StealthOnWords
    ensures r == StealthCmd(false) <==> v in StealthOffWords
  {
    if v in StealthOnWords then StealthCmd(true)
    else if v in StealthOffWords then StealthCmd(false)
    else Discard
  }

  /**
   * The command a control feed's value stands for: the value is trimmed and
   * lower-cased, then read with the feed's own words; any other feed is
   * ignored.
   */
  function Parse(feed: string, value: string): (r: Command)
    ensures feed !in Adafruit.ControlFeeds ==> r == Discard
    ensures feed == "led_control" ==> r == ParseLed(Normalize(value))
    ensures feed == "buzzer_control" ==> r == ParseBuzzer(Normalize(value))
    ensures feed == "servo_control" ==> r == ParseServo(Normalize(value))
    ensures feed == "stealth_mode" ==> r == ParseStealth(Normalize(value))
    ensures r.LedCmd? ==> feed == "led_control"
    ensures r.BuzzerCmd? ==> feed == "buzzer_control"
    ensures r.ServoCmd? ==> feed == "servo_control"
    ensures r.StealthCmd? ==> feed == "stealth_mode"
    ensures r.ServoCmd? && r.servo.AngleCmd? ==> 0 <= r.servo.angle <= 180
    ensures r == StealthCmd(true) <==> feed == "stealth_mode" && Normalize(value) in StealthOnWords
    ensures r == StealthCmd(false) <==> feed == "stealth_mode" && Normalize(value) in StealthOffWords
  {
    ControlFeedsDistinct();
    var v := Normalize(value);
    if feed == "led_control" then ParseLed(v)
    else if feed == "buzzer_control" then ParseBuzzer(v)
    else if feed == "servo_control" then ParseServo(v)
    else if feed == "stealth_mode" then ParseStealth(v)
    else Discard
  }

  /** The four control feed names are the control feeds, and they are pairwise distinct. */
  lemma ControlFeedsDistinct()
    ensures Adafruit.ControlFeeds == ["led_control", "buzzer_control", "servo_control", "stealth_mode"]
    ensures "led_control" != "buzzer_control" && "led_control" != "servo_control" && "led_control" != "stealth_mode"
    ensures "buzzer_control" != "servo_control" && "buzzer_control" != "stealth_mode"
    ensures "servo_control" != "stealth_mode"
  {
    assert "servo_control"[1] != "stealth_mode"[1];
  }

  /** Surrounding white space and letter case do not change a command. */
  lemma ParseNormalized(feed: string, value: string)
    ensures Parse(feed, Normalize(value)) == Parse(feed, value)
  {
    NormalizeIdempotent(value);
  }

  /** A decimal numeral is none of the servo feed's words other than "1" and "0". */
  lemma NumeralNotServoWord(n: nat)
    ensures NatToString(n) in LockWords <==> n == 1
    ensures NatToString(n) in UnlockWords <==> n == 0
  {
    var t := NatToString(n);
    IntToStringInjective(n, 1);
    IntToStringInjective(n, 0);
    assert IsDigit(t[0]);
    assert t != "lock" && t != "locked" && t != "unlock" && t != "unlocked";
  }

  /**
   * A servo value written as a whole number 0..180 is that angle, except
   * that "1" locks and "0" unlocks.
   */
  lemma NumeralServoValue(n: nat)
    requires n <= 180
    ensures Parse("servo_control", NatToString(n)) ==
              if n == 1 then ServoCmd(LockCmd) else if n == 0 then ServoCmd(UnlockCmd) else ServoCmd(AngleCmd(n))
  {
    var t := NatToString(n);
    NumeralNormalized(n);
    assert Parse("servo_control", t) == ParseServo(t);
    NumeralNotServoWord(n);
    if n > 1 {
      NumeralAngle(n);
    }
  }

  /** A decimal numeral is already trimmed and lower case. */
  lemma NumeralNormalized(n: nat)
    ensures Normalize(NatToString(n)) == NatToString(n)
  {
    var t := NatToString(n);
    DigitsStripped(t);
    DigitsLower(t);
  }

  /** A decimal numeral up to 180 reads as that angle. */
  lemma NumeralAngle(n: nat)
    requires n <= 180
    ensures ParseAngle(NatToString(n)) == Some(n)
  {
    NatToStringFloat(n);
    assert Trunc(n as real) == n;
  }

  /** The detail text of a SERVO_ANGLE event; the source's degree sign is stored double-encoded. */
  function AngleDetails(angle: int): string {
    "Set to " + IntToString(angle) + "Â° via Adafruit IO"
  }

  /** A command's effect: the step, and the beep durations sounded, in milliseconds. */
  datatype Dispatched = Dispatched(step: Step, beeps: seq<nat>)

  /** The effect of an LED word: only the LED changes, and nothing sounds. */
  function ApplyLed(s: State, c: LedCommand): (r: Dispatched)
    ensures r.step == Step(s.(led := r.step.state.led), [], []) && r.beeps == []
    ensures c.LedOnCmd? ==> r.step.state.led == LedOn(s.led, false)
    ensures c.LedOffCmd? ==> r.step.state.led == LedOff(s.led, false)
    ensures c.BlinkSlow? || c.BlinkFast? ==> !r.step.state.led.lit && r.step.state.led.suspended == s.led.suspended
  {
    var led := match c
      case LedOnCmd => LedOn(s.led, false)
      case LedOffCmd => LedOff(s.led, false)
      case BlinkSlow => Blink(s.led, 3, None).led
      case BlinkFast => Blink(s.led, 5, None).led;
    Dispatched(Step(s.(led := led), [], []), [])
  }

  /** The effect of a buzzer word: only the buzzer changes; beeps sound 200 ms once or 100 ms twice. */
  function ApplyBuzzer(s: State, c: BuzzerCommand): (r: Dispatched)
    ensures r.step == Step(s.(buzzer := r.step.state.buzzer), [], [])
    ensures c.SirenCmd? ==> r.step.state.buzzer.sirenRunning && r.beeps == []
    ensures c.StopCmd? ==> !r.step.state.buzzer.sirenRunning && r.beeps == []
    ensures c.BeepCmd? ==> r.beeps == [200]
    ensures c.BeepTwiceCmd? ==> r.beeps == [100, 100]
    ensures c.SirenCmd? ==> r.step.state.buzzer == StartSiren(s.buzzer)
    ensures c.StopCmd? ==> r.step.state.buzzer == Stop(s.buzzer)
    ensures c.BeepCmd? ==> r.step.state.buzzer == Actuators.Beep(s.buzzer, 200).buzzer
    ensures c.BeepTwiceCmd? ==> r.step.state.buzzer == BeepTwice(s.buzzer, 100).buzzer
    ensures c.BeepCmd? || c.BeepTwiceCmd? ==>
              !r.step.state.buzzer.output && r.step.state.buzzer.sirenRunning == s.buzzer.sirenRunning
  {
    match c
    case SirenCmd => Dispatched(Step(s.(buzzer := StartSiren(s.buzzer)), [], []), [])
    case StopCmd => Dispatched(Step(s.(buzzer := Stop(s.buzzer)), [], []), [])
    case BeepCmd =>
      var sounded := Actuators.Beep(s.buzzer, 200);
      Dispatched(Step(s.(buzzer := sounded.buzzer), [], []), sounded.beeps)
    case BeepTwiceCmd =>
      var sounded := BeepTwice(s.buzzer, 100);
      Dispatched(Step(s.(buzzer := sounded.buzzer), [], []), sounded.beeps)
  }

  /** The effect of a servo word: the servo moves and one servo event is logged. */
  function ApplyServo(s: State, c: ServoCommand): (r: Dispatched)
    requires |s.log| <= MaxLogSize
    ensures r.step.state.mode == s.mode && r.step.state.pattern == s.pattern && r.step.state.stealth == s.stealth
    ensures |r.step.state.log| <= MaxLogSize && |r.step.events| == 1 && r.beeps == []
    ensures c.LockCmd? ==>
              r.step.state.servo.current == Some(s.servo.lockedAngle) && r.step.events[0].kind == ServoLockEvent
    ensures c.UnlockCmd? ==>
              r.step.state.servo.current == Some(s.servo.unlockedAngle) && r.step.events[0].kind == ServoUnlockEvent
    ensures c.AngleCmd? ==>
              r.step.state.servo.current == Some(c.angle)
              && r.step.events == [Event(ServoAngleEvent, AngleDetails(c.angle), s.mode)]
    ensures r.step.state == s.(servo := r.step.state.servo, log := r.step.state.log)
    ensures r.step.tasks == [PublishTask("event_log", EventJson(r.step.events[0]))]
    ensures r.step.state.log == Newest(s.log + r.step.events)
    ensures r.step.state.servo.lockedAngle == s.servo.lockedAngle
    ensures r.step.state.servo.unlockedAngle == s.servo.unlockedAngle
    ensures c.LockCmd? ==>
              r.step.state.servo == Lock(s.servo).servo
              && r.step.events == [Event(ServoLockEvent, "Remote control via Adafruit IO", s.mode)]
    ensures c.UnlockCmd? ==>
              r.step.state.servo == Unlock(s.servo).servo
              && r.step.events == [Event(ServoUnlockEvent, "Remote control via Adafruit IO", s.mode)]
    ensures c.AngleCmd? ==> r.step.state.servo == SetAngle(s.servo, c.angle).servo
  {
    match c
    case LockCmd => Dispatched(LogEvent(s.(servo := Lock(s.servo).servo), ServoLockEvent, "Remote control via Adafruit IO"), [])
    case UnlockCmd => Dispatched(LogEvent(s.(servo := Unlock(s.servo).servo), ServoUnlockEvent, "Remote control via Adafruit IO"), [])
    case AngleCmd(a) => Dispatched(LogEvent(s.(servo := SetAngle(s.servo, a).servo), ServoAngleEvent, AngleDetails(a)), [])
  }

  /** The effect of a stealth word: the setter runs and STEALTH_MODE is logged. */
  function ApplyStealth(s: State, enabled: bool): (r: Dispatched)
    requires |s.log| <= MaxLogSize
    ensures r.step.state.mode == s.mode && |r.step.state.log| <= MaxLogSize && r.beeps == []
    ensures r.step.state.stealth == enabled && r.step.state.pattern == SetStealth(s, enabled).pattern
    ensures r.step.events == [Event(StealthEvent, if enabled then "Enabled via Adafruit IO" else "Disabled via Adafruit IO", s.mode)]
    ensures r.step.state == s.(stealth := enabled, pattern := r.step.state.pattern, log := r.step.state.log)
    ensures r.step.tasks == [PublishTask("event_log", EventJson(r.step.events[0]))]
    ensures r.step.state.log == Newest(s.log + r.step.events)
  {
    Dispatched(LogEvent(SetStealth(s, enabled), StealthEvent, if enabled then "Enabled via Adafruit IO" else "Disabled via Adafruit IO"), [])
  }

  /**
   * The effect of a command. LED words act like the loop's non-forced writes;
   * the blink words run a forced blink sequence of 3 (slow) or 5 (fast)
   * flashes; buzzer words drive the siren or sound 200 ms once or 100 ms
   * twice; servo words move the servo and log SERVO_LOCK, SERVO_UNLOCK or
   * SERVO_ANGLE; stealth words set the flag through the setter and log
   * STEALTH_MODE. No command changes the mode.
   */
  function Apply(s: State, cmd: Command): (r: Dispatched)
    requires |s.log| <= MaxLogSize
    ensures r.step.state.mode == s.mode
    ensures |r.step.state.log| <= MaxLogSize
    ensures !cmd.StealthCmd? ==> r.step.state.pattern == s.pattern && r.step.state.stealth == s.stealth
    ensures cmd == Discard ==> r == Dispatched(Step(s, [], []), [])
    ensures cmd.LedCmd? ==> r == ApplyLed(s, cmd.led)
    ensures cmd.BuzzerCmd? ==> r == ApplyBuzzer(s, cmd.buzzer)
    ensures cmd.ServoCmd? ==> r == ApplyServo(s, cmd.servo)
    ensures cmd.StealthCmd? ==> r == ApplyStealth(s, cmd.enabled)
  {
    match cmd
    case Discard => Dispatched(Step(s, [], []), [])
    case LedCmd(c) => ApplyLed(s, c)
    case BuzzerCmd(c) => ApplyBuzzer(s, c)
    case ServoCmd(c) => ApplyServo(s, c)
    case StealthCmd(b) => ApplyStealth(s, b)
  }

  /** `_handle_adafruit_control(feed, value)`: the value rendered with `str`, parsed, then applied. */
  function HandleControl(s: State, control: Adafruit.Control): (r: Dispatched)
    requires |s.log| <= MaxLogSize
    ensures r.step.state.mode == s.mode
    ensures control.feed !in Adafruit.ControlFeeds ==> r == Dispatched(Step(s, [], []), [])
  {
    Apply(s, Parse(control.feed, Adafruit.PyStr(control.value)))
  }

  /**
   * An MQTT message end to end: the message handler (in its corrected form)
   * selects a control command, which is then applied; other messages change
   * nothing.
   */
  function Receive(s: State, feeds: Adafruit.Feeds, topic: string, payload: string, json: Adafruit.JsonOutcome)
    : (r: Dispatched)
    requires |s.log| <= MaxLogSize
    ensures r.step.state.mode == s.mode
    ensures Adafruit.OnMessageIntended(feeds, topic, payload, json, true).None? ==> r == Dispatched(Step(s, [], []), [])
  {
    match Adafruit.OnMessageIntended(feeds, topic, payload, json, true)
    case None => Dispatched(Step(s, [], []), [])
    case Some(control) => HandleControl(s, control)
  }

  /**
   * An MQTT message end to end through the message handler as written: a
   * payload that parses as JSON but not as an object is dropped.
   */
  function ReceiveAsWritten(s: State, feeds: Adafruit.Feeds, topic: string, payload: string, json: Adafruit.JsonOutcome)
    : (r: Dispatched)
    requires |s.log| <= MaxLogSize
    ensures r.step.state.mode == s.mode
    ensures json.JsonNonObject? ==> r == Dispatched(Step(s, [], []), [])
    ensures Adafruit.OnMessage(feeds, topic, payload, json, true).None? ==> r == Dispatched(Step(s, [], []), [])
  {
    match Adafruit.OnMessage(feeds, topic, payload, json, true)
    case None => Dispatched(Step(s, [], []), [])
    case Some(control) => HandleControl(s, control)
  }

  /** The two receive paths differ only on payloads that are JSON but not objects. */
  lemma ReceivePathsAgree(s: State, feeds: Adafruit.Feeds, topic: string, payload: string, json: Adafruit.JsonOutcome)
    requires |s.log| <= MaxLogSize && !json.JsonNonObject?
    ensures ReceiveAsWritten(s, feeds, topic, payload, json) == Receive(s, feeds, topic, payload, json)
  {
    var parts := Split(topic, '/');
    if |parts| >= 3 && Adafruit.KeyOwner(feeds, parts[2]).Some? {
      var name := Adafruit.KeyOwner(feeds, parts[2]).value;
      if name == "" {
        assert name !in Adafruit.ControlFeeds;
      }
    }
  }

  /**
   * A bare servo angle published to the servo feed's topic moves the servo,
   * although the number parses as JSON.
   */
  lemma BareAngleMovesServo(s: State, feeds: Adafruit.Feeds, username: string, n: nat)
    requires |s.log| <= MaxLogSize && 2 <= n <= 180
    requires Adafruit.HasKey(feeds, "servo_control")
    requires Adafruit.KeyOwner(feeds, Adafruit.FeedKey(feeds, "servo_control").value) == Some("servo_control")
    requires '/' !in username && '/' !in Adafruit.FeedKey(feeds, "servo_control").value
    ensures Receive(s, feeds, Adafruit.Topic(username, Adafruit.FeedKey(feeds, "servo_control").value),
                    NatToString(n), Adafruit.JsonNonObject).step.state.servo.current == Some(n)
  {
    Adafruit.NonObjectPayloadDropped(feeds, username, "servo_control", NatToString(n));
    NumeralServoValue(n);
  }
}

=== FILE: machine.dfy ===
/**
 * The security state machine of app/state_machine.py as pure step functions
 * over an immutable state record. Each entry point takes the state (and the
 * clock, in milliseconds, where the source reads it) and returns the new
 * state together with the tasks it put on the task queue and the events it
 * logged, in order.
 */
module Machine {
  import opened Common
  import opened Text
  import opened Actuators
  import Config

  // ---------------------------------------------------------------- data

  /** The operating modes. */
  datatype Mode = Disarmed | Armed | PreAlarm | Alarm

  /** The text a mode is reported and logged as. */
  function ModeName(m: Mode): string {
    match m
    case Disarmed => "disarmed"
    case Armed => "armed"
    case PreAlarm => "pre_alarm"
    case Alarm => "alarm"
  }

  /** The patterns the LED loop shows. */
  datatype LedPattern = Off | Solid | SlowBlink | FastBlink

  /** The event types written to the event log. */
  datatype EventKind =
    | ArmEvent | DisarmEvent | MotionEvent | RfidUnauthorized | AlarmTriggered | AlarmReset
    | PhotoEvent | ServoLockEvent | ServoUnlockEvent | ServoAngleEvent | StealthEvent

  /** The type text of an event. */
  function KindName(k: EventKind): string {
    match k
    case ArmEvent => "ARM"
    case DisarmEvent => "DISARM"
    case MotionEvent => "MOTION_DETECTED"
    case RfidUnauthorized => "RFID_UNAUTHORIZED"
    case AlarmTriggered => "ALARM_TRIGGERED"
    case AlarmReset => "ALARM_RESET"
    case PhotoEvent => "PHOTO"
    case ServoLockEvent => "SERVO_LOCK"
    case ServoUnlockEvent => "SERVO_UNLOCK"
    case ServoAngleEvent => "SERVO_ANGLE"
    case StealthEvent => "STEALTH_MODE"
  }

  /** A log entry: its type, its details and the mode at the moment it was logged. */
  datatype Event = Event(kind: EventKind, details: string, mode: Mode)

  /** A value published to a feed. */
  datatype Value = Str(s: string) | Count(n: int) | Reading(x: real) | EventJson(e: Event)

  /** The tasks of the task queue. */
  datatype Task =
    | PublishTask(feed: string, value: Value)
    | CaptureTask(reason: string)
    | BeepTask(ms: nat)
    | EmailTask

  /** The timing settings of the `logic` section, in milliseconds. */
  datatype Logic = Logic(preAlarmDelay: int, alarmDuration: int, motionTimeout: int, photoInterval: int)

  /** The controller's state: mode, stealth flag, LED pattern, timers, event log and actuators. */
  datatype State = State(
    mode: Mode,
    stealth: bool,
    pattern: LedPattern,
    lastMotion: int,
    preAlarmStart: int,
    alarmStart: int,
    lastPhoto: int,
    log: seq<Event>,
    led: Led,
    buzzer: Buzzer,
    servo: Servo)

  /** The state after a step, with the tasks queued and the events logged during it. */
  datatype Step = Step(state: State, tasks: seq<Task>, events: seq<Event>)

  /** A step of an entry point that also answers whether it acted. */
  datatype Reply = Reply(ok: bool, step: Step)

  /** The longest event log kept. */
  const MaxLogSize := 1000

  /** The state at construction: disarmed, slow blink, zero timers, empty log, idle actuators. */
  function Init(lockedAngle: int, unlockedAngle: int): (s: State)
    ensures s.mode == Disarmed && s.pattern == SlowBlink && !s.stealth && s.log == []
    ensures s.servo.lockedAngle == lockedAngle && s.servo.unlockedAngle == unlockedAngle
  {
    State(Disarmed, false, SlowBlink, 0, 0, 0, 0, [], Led(false, false), Buzzer(false, false),
          Servo(None, lockedAngle, unlockedAngle))
  }

  /** The pattern an armed system shows: dark in stealth mode, solid otherwise. */
  function ArmedPattern(stealth: bool): LedPattern {
    if stealth then Off else Solid
  }

  // ---------------------------------------------------------------- event log

  /** What the bounded log keeps of a run of entries: the newest `MaxLogSize` of them. */
  function Newest(entries: seq<Event>): seq<Event> {
    if |entries| <= MaxLogSize then entries else entries[|entries| - MaxLogSize..]
  }

  /** A step that logs nothing leaves a bounded log as it is. */
  lemma NewestOfBounded(log: seq<Event>)
    requires |log| <= MaxLogSize
    ensures Newest(log + []) == log
  {
    assert log + [] == log;
  }

  /**
   * `_log_event`: the entry is appended with the current mode, the oldest
   * entry is dropped once the log is over its bound, and one publish of the
   * entry to "event_log" is queued.
   */
  function LogEvent(s: State, kind: EventKind, details: string): (r: Step)
    requires |s.log| <= MaxLogSize
    ensures r.events == [Event(kind, details, s.mode)]
    ensures r.tasks == [PublishTask("event_log", EventJson(Event(kind, details, s.mode)))]
    ensures r.state == s.(log := r.state.log)
    ensures |r.state.log| == if |s.log| < MaxLogSize then |s.log| + 1 else MaxLogSize
    ensures r.state.log == (s.log + r.events)[|s.log| + 1 - |r.state.log|..]
    ensures r.state.log == Newest(s.log + r.events)
  {
    var e := Event(kind, details, s.mode);
    var appended := s.log + [e];
    var log := if |appended| > MaxLogSize then appended[1..] else appended;
    Step(s.(log := log), [PublishTask("event_log", EventJson(e))], [e])
  }

  /** Reverses a sequence. */
  function Reverse<T>(s: seq<T>): (r: seq<T>)
    ensures |r| == |s|
    ensures forall i :: 0 <= i < |s| ==> r[i] == s[|s| - 1 - i]
  {
    if |s| == 0 then [] else Reverse(s[1..]) + [s[0]]
  }

  /**
   * `get_event_log(limit)` as written: `reversed(log[-limit:])`. For a
   * positive limit this is the newest `limit` entries, newest first; but
   * `[-0:]` is the whole log, so a limit of 0 returns every entry, and a
   * negative limit `-k` is `log[k:]`, every entry but the `k` oldest.
   */
  function GetEventLogAsWritten(log: seq<Event>, limit: int): (r: seq<Event>)
    ensures limit > 0 ==> |r| == (if limit < |log| then limit else |log|)
    ensures limit == 0 ==> |r| == |log|
    ensures limit < 0 ==> |r| == (if -limit < |log| then |log| + limit else 0)
    ensures |r| <= |log|
    ensures forall i :: 0 <= i < |r| ==> r[i] == log[|log| - 1 - i]
  {
    Reverse(PyDrop(log, -limit))
  }

  /**
   * `get_event_log(limit)` as intended: the newest `limit` entries, newest
   * first, and none for a limit of zero or less.
   */
  function GetEventLog(log: seq<Event>, limit: int): (r: seq<Event>)
    ensures |r| == if limit <= 0 then 0 else if limit < |log| then limit else |log|
    ensures forall i :: 0 <= i < |r| ==> r[i] == log[|log| - 1 - i]
  {
    if limit <= 0 then [] else Reverse(PyDrop(log, -limit))
  }

  // ---------------------------------------------------------------- arming

  /**
   * `arm_system(source)`: only a disarmed system arms. It locks the box, runs
   * three on/off rounds of the LED, becomes armed with the armed pattern,
   * logs ARM and queues the "armed" mode publish; otherwise nothing changes.
   */
  function Arm(s: State, source: string): (r: Reply)
    requires |s.log| <= MaxLogSize
    ensures r.ok <==> s.mode == Disarmed
    ensures !r.ok ==> r.step == Step(s, [], [])
    ensures r.ok ==> r.step.state.mode == Armed && r.step.state.pattern == ArmedPattern(s.stealth)
    ensures r.ok ==> r.step.state.servo == Lock(s.servo).servo && r.step.state.buzzer == s.buzzer
    ensures r.ok ==> r.step.events == [Event(ArmEvent, "Source: " + source, Armed)]
    ensures r.ok ==> r.step.tasks == [PublishTask("event_log", EventJson(r.step.events[0])), PublishTask("mode", Str("armed"))]
    ensures r.ok ==> r.step.state.stealth == s.stealth && r.step.state.lastPhoto == s.lastPhoto
    ensures r.ok ==> r.step.state.lastMotion == s.lastMotion && r.step.state.preAlarmStart == s.preAlarmStart
    ensures r.ok ==> r.step.state == s.(servo := Lock(s.servo).servo, led := OnOffRounds(s.led, 3), mode := Armed,
                                        pattern := ArmedPattern(s.stealth), log := r.step.state.log)
    ensures r.step.state.log == Newest(s.log + r.step.events)
  {
    if s.mode != Disarmed then Reply(false, Step(s, [], []))
    else Reply(true, ArmStep(s, source))
  }

  /** The arming itself: lock, LED rounds, armed mode and pattern, ARM logged, "armed" published. */
  function ArmStep(s: State, source: string): (r: Step)
    requires |s.log| <= MaxLogSize
    ensures r.state == s.(servo := Lock(s.servo).servo, led := OnOffRounds(s.led, 3), mode := Armed,
                          pattern := ArmedPattern(s.stealth), log := r.state.log)
    ensures r.events == [Event(ArmEvent, "Source: " + source, Armed)]
    ensures r.tasks == [PublishTask("event_log", EventJson(r.events[0])), PublishTask("mode", Str("armed"))]
    ensures r.state.log == Newest(s.log + r.events)
  {
    var armed := s.(servo := Lock(s.servo).servo, led := OnOffRounds(s.led, 3),
                    mode := Armed, pattern := ArmedPattern(s.stealth));
    var logged := LogEvent(armed, ArmEvent, "Source: " + source);
    Step(logged.state, logged.tasks + [PublishTask("mode", Str("armed"))], logged.events)
  }

  /**
   * `disarm_system(source)`: from any mode, stops the siren, unlocks the box,
   * becomes disarmed with the slow blink, zeroes the motion, pre-alarm and
   * alarm timers, logs DISARM with the previous mode and queues the
   * "disarmed" mode publish and then the alarm-off publish.
   */
  function Disarm(s: State, source: string): (r: Reply)
    requires |s.log| <= MaxLogSize
    ensures r.ok
    ensures r.step.state.mode == Disarmed && r.step.state.pattern == SlowBlink
    ensures r.step.state.lastMotion == 0 && r.step.state.preAlarmStart == 0 && r.step.state.alarmStart == 0
    ensures !r.step.state.buzzer.sirenRunning
    ensures r.step.state.servo == Unlock(s.servo).servo
    ensures r.step.state.stealth == s.stealth && r.step.state.lastPhoto == s.lastPhoto && r.step.state.led == s.led
    ensures r.step.events == [Event(DisarmEvent, "Source: " + source + ", Previous: " + ModeName(s.mode), Disarmed)]
    ensures r.step.tasks == [PublishTask("event_log", EventJson(r.step.events[0])),
                             PublishTask("mode", Str("disarmed")), PublishTask("alarm", Count(0))]
    ensures r.step.state == s.(buzzer := Stop(s.buzzer), servo := Unlock(s.servo).servo, mode := Disarmed,
                               pattern := SlowBlink, lastMotion := 0, preAlarmStart := 0, alarmStart := 0,
                               log := r.step.state.log)
    ensures r.step.state.log == Newest(s.log + r.step.events)
  {
    var disarmed := s.(buzzer := Stop(s.buzzer), servo := Unlock(s.servo).servo,
                       mode := Disarmed, pattern := SlowBlink,
                       lastMotion := 0, preAlarmStart := 0, alarmStart := 0);
    var logged := LogEvent(disarmed, DisarmEvent, "Source: " + source + ", Previous: " + ModeName(s.mode));
    Reply(true, Step(logged.state,
                     logged.tasks + [PublishTask("mode", Str("disarmed")), PublishTask("alarm", Count(0))],
                     logged.events))
  }

  /**
   * The `stealth_mode` setter: records the flag, and while armed switches the
   * pattern to match it; nothing else changes.
   */
  function SetStealth(s: State, enabled: bool): (r: State)
    ensures r.stealth == enabled
    ensures s.mode == Armed ==> r.pattern == ArmedPattern(enabled)
    ensures s.mode != Armed ==> r.pattern == s.pattern
    ensures r == s.(stealth := enabled, pattern := r.pattern)
  {
    if s.mode == Armed then s.(stealth := enabled, pattern := ArmedPattern(enabled))
    else s.(stealth := enabled)
  }

  // ---------------------------------------------------------------- motion and badges

  /**
   * `handle_motion` at time `now`: the motion time is always recorded. A
   * disarmed system does nothing else. Otherwise a motion publish is queued;
   * an armed system enters the pre-alarm, queues a photo and logs the
   * motion; an alarm queues another photo once the photo interval has passed
   * since the last one.
   */
  function HandleMotion(s: State, logic: Logic, now: int): (r: Step)
    requires |s.log| <= MaxLogSize
    ensures r.state.lastMotion == now
    ensures s.mode == Disarmed ==> r == Step(s.(lastMotion := now), [], [])
    ensures s.mode != Disarmed ==> |r.tasks| > 0 && r.tasks[0] == PublishTask("motion", Count(1))
    ensures s.mode == Armed ==>
              r.state.mode == PreAlarm && r.state.preAlarmStart == now && r.state.pattern == Solid
              && r.events == [Event(MotionEvent, "Entering pre-alarm state", PreAlarm)]
              && r.tasks == [PublishTask("motion", Count(1)), CaptureTask("Motion Trigger"),
                             PublishTask("event_log", EventJson(r.events[0]))]
    ensures s.mode == PreAlarm || s.mode == Alarm ==> r.state == s.(lastMotion := now) && r.events == []
    ensures s.mode == PreAlarm ==> r.tasks == [PublishTask("motion", Count(1))]
    ensures s.mode == Alarm ==>
              (CaptureTask("Alarm Interval") in r.tasks <==> now - s.lastPhoto >= logic.photoInterval)
    ensures s.mode == Alarm ==>
              r.tasks == [PublishTask("motion", Count(1))]
                         + (if now - s.lastPhoto >= logic.photoInterval then [CaptureTask("Alarm Interval")] else [])
    ensures r.state.buzzer == s.buzzer && r.state.servo == s.servo && r.state.stealth == s.stealth
    ensures s.mode == Armed ==>
              r.state == s.(lastMotion := now, mode := PreAlarm, preAlarmStart := now, pattern := Solid, log := r.state.log)
    ensures r.state.log == Newest(s.log + r.events)
  {
    NewestOfBounded(s.log);
    var moved := s.(lastMotion := now);
    if s.mode == Disarmed then Step(moved, [], [])
    else
      var motion := [PublishTask("motion", Count(1))];
      if s.mode == Armed then EnterPreAlarm(s, now)
      else if s.mode == Alarm && now - s.lastPhoto >= logic.photoInterval then
        Step(moved, motion + [CaptureTask("Alarm Interval")], [])
      else Step(moved, motion, [])
  }

  /**
   * Motion while armed: the pre-alarm starts with the solid pattern, and the
   * motion publish, the photo and the MOTION_DETECTED publish are queued.
   */
  function EnterPreAlarm(s: State, now: int): (r: Step)
    requires |s.log| <= MaxLogSize
    ensures r.state == s.(lastMotion := now, mode := PreAlarm, preAlarmStart := now, pattern := Solid, log := r.state.log)
    ensures r.events == [Event(MotionEvent, "Entering pre-alarm state", PreAlarm)]
    ensures r.tasks == [PublishTask("motion", Count(1)), CaptureTask("Motion Trigger"),
                        PublishTask("event_log", EventJson(r.events[0]))]
    ensures r.state.log == Newest(s.log + r.events)
  {
    var entered := s.(lastMotion := now, mode := PreAlarm, preAlarmStart := now, pattern := Solid);
    var logged := LogEvent(entered, MotionEvent, "Entering pre-alarm state");
    Step(logged.state, [PublishTask("motion", Count(1)), CaptureTask("Motion Trigger")] + logged.tasks, logged.events)
  }

  /** Whether a scanned tag matches an allow-list entry, compared as text. */
  predicate IsAuthorized(authorized: seq<Config.BadgeId>, tag: int) {
    exists i :: 0 <= i < |authorized| && Config.Render(authorized[i]) == IntToString(tag)
  }

  /**
   * `handle_rfid(tag)`: an empty allow-list does nothing; a tag not on it
   * logs RFID_UNAUTHORIZED; an authorized tag arms a disarmed system and
   * disarms any other.
   */
  function HandleRfid(s: State, authorized: seq<Config.BadgeId>, tag: int): (r: Step)
    requires |s.log| <= MaxLogSize
    ensures |authorized| == 0 ==> r == Step(s, [], [])
    ensures |authorized| > 0 && !IsAuthorized(authorized, tag) ==>
              r.state.mode == s.mode && r.events == [Event(RfidUnauthorized, "Tag ID: " + IntToString(tag), s.mode)]
    ensures |authorized| > 0 && !IsAuthorized(authorized, tag) ==>
              r.state == s.(log := r.state.log) &&
              r.tasks == [PublishTask("event_log", EventJson(r.events[0]))]
    ensures r.state.log == Newest(s.log + r.events)
    ensures |authorized| > 0 && IsAuthorized(authorized, tag) ==>
              r.state.mode == (if s.mode == Disarmed then Armed else Disarmed)
    ensures |authorized| > 0 && IsAuthorized(authorized, tag) && s.mode == Disarmed ==>
              r == Arm(s, "RFID:" + IntToString(tag)).step
    ensures |authorized| > 0 && IsAuthorized(authorized, tag) && s.mode != Disarmed ==>
              r == Disarm(s, "RFID:" + IntToString(tag)).step
  {
    if |authorized| == 0 then Step(s, [], [])
    else if !IsAuthorized(authorized, tag) then LogEvent(s, RfidUnauthorized, "Tag ID: " + IntToString(tag))
    else if s.mode == Disarmed then Arm(s, "RFID:" + IntToString(tag)).step
    else Disarm(s, "RFID:" + IntToString(tag)).step
  }

  // ---------------------------------------------------------------- the tick

  /** Python's `int(x)` on a millisecond count taken as seconds: whole seconds, truncated toward zero. */
  function WholeSeconds(ms: int): (r: int)
    ensures ms >= 0 ==> 0 <= 1000 * r <= ms < 1000 * r + 1000
    ensures ms < 0 ==> 1000 * r - 1000 < ms <= 1000 * r <= 0
  {
    if ms >= 0 then ms / 1000 else -((-ms) / 1000)
  }

  /**
   * The warning-beep test of the pre-alarm: the whole seconds elapsed are a
   * multiple of five and less than 100 ms have passed since that second.
   */
  predicate BeepDue(elapsed: int) {
    WholeSeconds(elapsed) % 5 == 0 && elapsed - 1000 * WholeSeconds(elapsed) < 100
  }

  /** The warning beep task queued in the pre-alarm, if one is due. */
  function WarningBeep(stealth: bool, elapsed: int): (r: seq<Task>)
    ensures r == [] || r == [BeepTask(200)]
    ensures r != [] <==> !stealth && BeepDue(elapsed)
  {
    if !stealth && BeepDue(elapsed) then [BeepTask(200)] else []
  }

  /**
   * The alarm's return to armed: stops the siren, shows the armed pattern,
   * logs ALARM_RESET with `reason` and queues the alarm-off publish.
   */
  function ResetAlarm(s: State, reason: string): (r: Step)
    requires |s.log| <= MaxLogSize
    ensures r.state.mode == Armed && r.state.pattern == ArmedPattern(s.stealth)
    ensures !r.state.buzzer.sirenRunning
    ensures r.events == [Event(AlarmReset, reason, Armed)]
    ensures r.tasks == [PublishTask("event_log", EventJson(r.events[0])), PublishTask("alarm", Count(0))]
    ensures r.state.alarmStart == s.alarmStart && r.state.lastMotion == s.lastMotion && r.state.stealth == s.stealth
    ensures r.state == s.(mode := Armed, buzzer := Stop(s.buzzer), pattern := ArmedPattern(s.stealth), log := r.state.log)
    ensures r.state.log == Newest(s.log + r.events)
  {
    var reset := s.(mode := Armed, buzzer := Stop(s.buzzer), pattern := ArmedPattern(s.stealth));
    var logged := LogEvent(reset, AlarmReset, reason);
    Step(logged.state, logged.tasks + [PublishTask("alarm", Count(0))], logged.events)
  }

  /**
   * The pre-alarm part of the main loop at time `now`: a warning beep may be
   * queued (not in stealth mode), and once strictly more than the pre-alarm
   * delay has elapsed the alarm starts: siren on, fast blink, e-mail alert
   * queued, ALARM_TRIGGERED logged, alarm publish queued.
   */
  function PreAlarmTick(s: State, logic: Logic, now: int): (r: Step)
    requires |s.log| <= MaxLogSize
    ensures (|r.tasks| > 0 && r.tasks[0] == BeepTask(200)) <==> !s.stealth && BeepDue(now - s.preAlarmStart)
    ensures now - s.preAlarmStart > logic.preAlarmDelay ==>
              r.state.mode == Alarm && r.state.alarmStart == now && r.state.pattern == FastBlink
              && r.state.buzzer.sirenRunning
              && r.events == [Event(AlarmTriggered, "Pre-alarm timeout expired", Alarm)]
              && r.tasks == WarningBeep(s.stealth, now - s.preAlarmStart)
                            + [EmailTask, PublishTask("event_log", EventJson(r.events[0])), PublishTask("alarm", Count(1))]
    ensures now - s.preAlarmStart <= logic.preAlarmDelay ==> r.state == s && r.events == []
    ensures r.state.lastMotion == s.lastMotion && r.state.preAlarmStart == s.preAlarmStart && r.state.stealth == s.stealth
    ensures now - s.preAlarmStart > logic.preAlarmDelay ==>
              r.state == s.(mode := Alarm, alarmStart := now, pattern := FastBlink, buzzer := StartSiren(s.buzzer),
                            log := r.state.log)
    ensures r.state.log == Newest(s.log + r.events)
  {
    var elapsed := now - s.preAlarmStart;
    var beep := WarningBeep(s.stealth, elapsed);
    if elapsed > logic.preAlarmDelay then
      var raised := RaiseAlarm(s, now);
      Step(raised.state, beep + raised.tasks, raised.events)
    else Step(s, beep, [])
  }

  /**
   * The expiry of the pre-alarm: siren on, fast blink, alarm start recorded,
   * then the e-mail alert, the ALARM_TRIGGERED publish and the alarm publish
   * queued in that order.
   */
  function RaiseAlarm(s: State, now: int): (r: Step)
    requires |s.log| <= MaxLogSize
    ensures r.state.mode == Alarm && r.state.alarmStart == now && r.state.pattern == FastBlink
    ensures r.state.buzzer.sirenRunning
    ensures r.events == [Event(AlarmTriggered, "Pre-alarm timeout expired", Alarm)]
    ensures r.tasks == [EmailTask, PublishTask("event_log", EventJson(r.events[0])), PublishTask("alarm", Count(1))]
    ensures r.state.lastMotion == s.lastMotion && r.state.preAlarmStart == s.preAlarmStart && r.state.stealth == s.stealth
    ensures r.state == s.(mode := Alarm, alarmStart := now, pattern := FastBlink, buzzer := StartSiren(s.buzzer),
                          log := r.state.log)
    ensures r.state.log == Newest(s.log + r.events)
  {
    var alarmed := s.(mode := Alarm, alarmStart := now, pattern := FastBlink, buzzer := StartSiren(s.buzzer));
    var logged := LogEvent(alarmed, AlarmTriggered, "Pre-alarm timeout expired");
    Step(logged.state, [EmailTask, logged.tasks[0], PublishTask("alarm", Count(1))], logged.events)
  }

  /**
   * The alarm part of the main loop at time `now`: exceeding the alarm
   * duration returns to armed and, failing that, so does exceeding the
   * motion timeout; otherwise nothing changes.
   */
  function AlarmTick(s: State, logic: Logic, now: int): (r: Step)
    requires |s.log| <= MaxLogSize
    ensures now - s.alarmStart > logic.alarmDuration ==> r == ResetAlarm(s, "Duration timeout")
    ensures now - s.alarmStart <= logic.alarmDuration && now - s.lastMotion > logic.motionTimeout ==>
              r == ResetAlarm(s, "Motion timeout")
    ensures now - s.alarmStart <= logic.alarmDuration && now - s.lastMotion <= logic.motionTimeout ==>
              r == Step(s, [], [])
  {
    if now - s.alarmStart > logic.alarmDuration then ResetAlarm(s, "Duration timeout")
    else if now - s.lastMotion > logic.motionTimeout then ResetAlarm(s, "Motion timeout")
    else Step(s, [], [])
  }

  /** One pass of the main logic loop: only the pre-alarm and the alarm act on the clock. */
  function Tick(s: State, logic: Logic, now: int): (r: Step)
    requires |s.log| <= MaxLogSize
    ensures s.mode == Disarmed || s.mode == Armed ==> r == Step(s, [], [])
    ensures s.mode == PreAlarm ==> r == PreAlarmTick(s, logic, now)
    ensures s.mode == Alarm ==> r == AlarmTick(s, logic, now)
  {
    match s.mode
    case PreAlarm => PreAlarmTick(s, logic, now)
    case Alarm => AlarmTick(s, logic, now)
    case _ => Step(s, [], [])
  }

  // ---------------------------------------------------------------- tasks

  /**
   * `_capture_and_upload_photo(reason)` at time `now`: `shot` is the file the
   * camera saved, `None` when it raised, in which case nothing changes.
   * Otherwise the photo time is recorded and PHOTO is logged.
   */
  function CapturePhoto(s: State, reason: string, now: int, shot: Option<string>): (r: Step)
    requires |s.log| <= MaxLogSize
    ensures shot.None? ==> r == Step(s, [], [])
    ensures shot.Some? ==> r.state.lastPhoto == now && r.state.mode == s.mode
    ensures shot.Some? ==> r.events == [Event(PhotoEvent, reason + ": " + shot.value, s.mode)]
    ensures shot.Some? ==> r.state == s.(lastPhoto := now, log := r.state.log)
    ensures shot.Some? ==> r.tasks == [PublishTask("event_log", EventJson(r.events[0]))]
    ensures r.state.log == Newest(s.log + r.events)
  {
    match shot
    case None => Step(s, [], [])
    case Some(file) => LogEvent(s.(lastPhoto := now), PhotoEvent, reason + ": " + file)
  }

  /** What handling one task did outside the state. */
  datatype Effect =
    | PublishEffect(feed: string, value: Value)   // handed to the Adafruit IO publish
    | PhotoEffect(reason: string, shot: Option<string>)
    | BeepEffect(beeps: seq<nat>)
    | EmailEffect

  /** The state after one dequeued task, the queue left behind and what the task did. */
  datatype Processed = Processed(state: State, queue: seq<Task>, effect: Effect)

  /**
   * One pass of the task processor: the oldest task is taken off the queue
   * (`None` when the queue is empty) and handled; tasks it queues go to the
   * back. A beep task sounds two beeps of its duration.
   */
  function ProcessNext(s: State, queue: seq<Task>, now: int, shot: Option<string>): (r: Option<Processed>)
    requires |s.log| <= MaxLogSize
    ensures r.None? <==> queue == []
    ensures r.Some? ==> |r.value.queue| >= |queue| - 1
    ensures r.Some? ==> r.value.queue[..|queue| - 1] == queue[1..]
    ensures r.Some? && queue[0].BeepTask? ==> r.value.effect == BeepEffect([queue[0].ms, queue[0].ms])
    ensures r.Some? && queue[0].PublishTask? ==>
              r.value.effect == PublishEffect(queue[0].feed, queue[0].value) && r.value.state == s
    ensures r.Some? && queue[0].BeepTask? ==>
              r.value.queue == queue[1..] && r.value.state == s.(buzzer := BeepTwice(s.buzzer, queue[0].ms).buzzer)
    ensures r.Some? && queue[0].EmailTask? ==> r.value == Processed(s, queue[1..], EmailEffect)
    ensures r.Some? && queue[0].CaptureTask? ==>
              var st := CapturePhoto(s, queue[0].reason, now, shot);
              r.value == Processed(st.state, queue[1..] + st.tasks, PhotoEffect(queue[0].reason, shot))
    ensures r.Some? && queue[0].CaptureTask? && shot.None? ==>
              r.value == Processed(s, queue[1..], PhotoEffect(queue[0].reason, None))
    ensures r.Some? && queue[0].CaptureTask? && shot.Some? ==>
              var e := Event(PhotoEvent, queue[0].reason + ": " + shot.value, s.mode);
              && r.value.state == s.(lastPhoto := now, log := Newest(s.log + [e]))
              && r.value.queue == queue[1..] + [PublishTask("event_log", EventJson(e))]
  {
    if queue == [] then None
    else
      var rest := queue[1..];
      match queue[0]
      case PublishTask(feed, value) => Some(Processed(s, rest, PublishEffect(feed, value)))
      case CaptureTask(reason) =>
        var step := CapturePhoto(s, reason, now, shot);
        Some(Processed(step.state, rest + step.tasks, PhotoEffect(reason, shot)))
      case BeepTask(ms) =>
        var sounded := BeepTwice(s.buzzer, ms);
        Some(Processed(s.(buzzer := sounded.buzzer), rest, BeepEffect(sounded.beeps)))
      case EmailTask => Some(Processed(s, rest, EmailEffect))
  }

  /**
   * One pass of the environmental loop: with both readings, the temperature
   * and then the humidity are queued for publishing; otherwise nothing.
   */
  function EnvironmentTasks(reading: Option<(real, real)>): (r: seq<Task>)
    ensures reading.None? ==> r == []
    ensures reading.Some? ==> r == [PublishTask("temperature", Reading(reading.value.0)),
                                    PublishTask("humidity", Reading(reading.value.1))]
  {
    match reading
    case None => []
    case Some((t, h)) => [PublishTask("temperature", Reading(t)), PublishTask("humidity", Reading(h))]
  }

  /** The LED writes (`true` for on) one pass of the LED loop makes for a pattern. */
  function PatternWrites(p: LedPattern): (w: seq<bool>)
    ensures |w| >= 1
    ensures p == Off <==> w == [false]
    ensures p == Solid <==> w == [true]
    ensures p == SlowBlink || p == FastBlink <==> w == [true, false]
  {
    match p
    case Off => [false]
    case Solid => [true]
    case SlowBlink => [true, false]
    case FastBlink => [true, false]
  }

  /** Applies non-forced writes in order. */
  function ApplyWrites(led: Led, writes: seq<bool>): (r: Led)
    ensures r.suspended == led.suspended
    ensures led.suspended ==> r == led
    ensures !led.suspended && |writes| > 0 ==> r.lit == writes[|writes| - 1]
  {
    if |writes| == 0 then led
    else
      var last := writes[|writes| - 1];
      var before := ApplyWrites(led, writes[..|writes| - 1]);
      if last then LedOn(before, false) else LedOff(before, false)
  }

  /**
   * One pass of the LED loop: the pattern's writes, which are ignored while
   * a blink sequence has suspended background control.
   */
  function LedLoopPass(led: Led, p: LedPattern): (r: Led)
    ensures led.suspended ==> r == led
    ensures !led.suspended ==> (r.lit <==> p == Solid)
  {
    ApplyWrites(led, PatternWrites(p))
  }
}

=== FILE: properties.dfy ===
/**
 * Properties of the state machine that span its entry points: the
 * mode/pattern invariant, the bounded event log, the one-publish-per-event
 * rule, the transition graph, and whole scenarios built from several steps.
 */
module Properties {
  import opened Common
  import opened Text
  import opened Actuators
  import opened Machine
  import Config
  import Dispatcher
  import Adafruit
  import Sensors

  // ---------------------------------------------------------------- the invariant

  /** The pattern each mode shows. */
  predicate PatternFits(mode: Mode, stealth: bool, pattern: LedPattern) {
    match mode
    case Disarmed => pattern == SlowBlink
    case Armed => pattern == ArmedPattern(stealth)
    case PreAlarm => pattern == Solid
    case Alarm => pattern == FastBlink
  }

  /** A well-formed state: the log is within its bound and the LED pattern fits the mode. */
  predicate Consistent(s: State) {
    |s.log| <= MaxLogSize && PatternFits(s.mode, s.stealth, s.pattern)
  }

  /** The initial state is consistent. */
  lemma InitConsistent(lockedAngle: int, unlockedAngle: int)
    ensures Consistent(Init(lockedAngle, unlockedAngle))
  {
  }

  /** Arming and disarming keep the state consistent. */
  lemma ArmDisarmPreserve(s: State, source: string)
    requires Consistent(s)
    ensures Consistent(Arm(s, source).step.state)
    ensures Consistent(Disarm(s, source).step.state)
  {
  }

  /** Motion keeps the state consistent. */
  lemma MotionPreserves(s: State, logic: Logic, now: int)
    requires Consistent(s)
    ensures Consistent(HandleMotion(s, logic, now).state)
  {
  }

  /** A badge scan keeps the state consistent. */
  lemma RfidPreserves(s: State, authorized: seq<Config.BadgeId>, tag: int)
    requires Consistent(s)
    ensures Consistent(HandleRfid(s, authorized, tag).state)
  {
    ArmDisarmPreserve(s, "RFID:" + IntToString(tag));
  }

  /** The stealth setter keeps the state consistent. */
  lemma StealthPreserves(s: State, enabled: bool)
    requires Consistent(s)
    ensures Consistent(SetStealth(s, enabled))
  {
  }

  /** The main-loop tick keeps the state consistent. */
  lemma TickPreserves(s: State, logic: Logic, now: int)
    requires Consistent(s)
    ensures Consistent(Tick(s, logic, now).state)
  {
  }

  /** Handling a task and applying a remote command keep the state consistent. */
  lemma TasksAndCommandsPreserve(s: State, queue: seq<Task>, now: int, shot: Option<string>, cmd: Dispatcher.Command)
    requires Consistent(s)
    ensures ProcessNext(s, queue, now, shot).Some? ==> Consistent(ProcessNext(s, queue, now, shot).value.state)
    ensures Consistent(Dispatcher.Apply(s, cmd).step.state)
  {
  }

  // ---------------------------------------------------------------- one publish per event

  /** The events carried by the "event_log" publishes among `tasks`, in queue order. */
  function EventPublishes(tasks: seq<Task>): seq<Event> {
    if |tasks| == 0 then [] else Published(tasks[0]) + EventPublishes(tasks[1..])
  }

  /** The event a task publishes to "event_log", if it is such a publish. */
  function Published(t: Task): seq<Event> {
    if t.PublishTask? && t.feed == "event_log" && t.value.EventJson? then [t.value.e] else []
  }

  /** The event-log publishes of a concatenation are those of its parts. */
  lemma {:induction false} EventPublishesConcat(a: seq<Task>, b: seq<Task>)
    ensures EventPublishes(a + b) == EventPublishes(a) + EventPublishes(b)
  {
    if |a| == 0 {
      assert a + b == b;
    } else {
      assert (a + b)[0] == a[0];
      assert (a + b)[1..] == a[1..] + b;
      EventPublishesConcat(a[1..], b);
      var h, x, y := Published(a[0]), EventPublishes(a[1..]), EventPublishes(b);
      assert EventPublishes(a + b) == h + (x + y);
      assert h + (x + y) == (h + x) + y;
    }
  }

  /** Tasks other than "event_log" publishes carry no events. */
  lemma OtherTasks(t: Task)
    requires !(t.PublishTask? && t.feed == "event_log")
    ensures EventPublishes([t]) == []
  {
  }

  /** The event-log publishes of a three-task sequence. */
  lemma EventPublishesThree(a: Task, b: Task, c: Task)
    ensures EventPublishes([a, b, c]) == EventPublishes([a]) + EventPublishes([b]) + EventPublishes([c])
  {
    EventPublishesConcat([a], [b, c]);
    EventPublishesConcat([b], [c]);
    assert [a, b, c] == [a] + [b, c];
    assert [b, c] == [b] + [c];
  }

  /** Arming queues exactly one "event_log" publish per logged event. */
  lemma ArmPublishesEvents(s: State, source: string)
    requires |s.log| <= MaxLogSize
    ensures EventPublishes(Arm(s, source).step.tasks) == Arm(s, source).step.events
  {
    var a := Arm(s, source).step;
    if Arm(s, source).ok {
      EventPublishesConcat([a.tasks[0]], [a.tasks[1]]);
      assert a.tasks == [a.tasks[0]] + [a.tasks[1]];
    }
  }

  /** Disarming queues exactly one "event_log" publish per logged event. */
  lemma DisarmPublishesEvents(s: State, source: string)
    requires |s.log| <= MaxLogSize
    ensures EventPublishes(Disarm(s, source).step.tasks) == Disarm(s, source).step.events
  {
    var d := Disarm(s, source).step;
    EventPublishesThree(d.tasks[0], d.tasks[1], d.tasks[2]);
    assert d.tasks == [d.tasks[0], d.tasks[1], d.tasks[2]];
  }

  /** Motion handling queues exactly one "event_log" publish per logged event. */
  lemma MotionPublishesEvents(s: State, logic: Logic, now: int)
    requires |s.log| <= MaxLogSize
    ensures EventPublishes(HandleMotion(s, logic, now).tasks) == HandleMotion(s, logic, now).events
  {
    var r := HandleMotion(s, logic, now);
    if s.mode == Armed {
      EventPublishesThree(r.tasks[0], r.tasks[1], r.tasks[2]);
      assert r.tasks == [r.tasks[0], r.tasks[1], r.tasks[2]];
    } else if s.mode == Alarm && |r.tasks| == 2 {
      EventPublishesConcat([r.tasks[0]], [r.tasks[1]]);
      assert r.tasks == [r.tasks[0]] + [r.tasks[1]];
    }
  }

  /** A badge scan queues exactly one "event_log" publish per logged event. */
  lemma RfidPublishesEvents(s: State, authorized: seq<Config.BadgeId>, tag: int)
    requires |s.log| <= MaxLogSize
    ensures EventPublishes(HandleRfid(s, authorized, tag).tasks) == HandleRfid(s, authorized, tag).events
  {
    ArmPublishesEvents(s, "RFID:" + IntToString(tag));
    DisarmPublishesEvents(s, "RFID:" + IntToString(tag));
  }

  /** The alarm reset queues exactly one "event_log" publish per logged event. */
  lemma ResetPublishesEvents(s: State, reason: string)
    requires |s.log| <= MaxLogSize
    ensures EventPublishes(ResetAlarm(s, reason).tasks) == ResetAlarm(s, reason).events
  {
    var r := ResetAlarm(s, reason);
    EventPublishesConcat([r.tasks[0]], [r.tasks[1]]);
    assert r.tasks == [r.tasks[0]] + [r.tasks[1]];
  }

  /** The expiry of the pre-alarm queues exactly one "event_log" publish per logged event. */
  lemma RaisePublishesEvents(s: State, now: int)
    requires |s.log| <= MaxLogSize
    ensures EventPublishes(RaiseAlarm(s, now).tasks) == RaiseAlarm(s, now).events
  {
    var t := RaiseAlarm(s, now).tasks;
    EventPublishesThree(t[0], t[1], t[2]);
    assert t == [t[0], t[1], t[2]];
  }

  /** The warning beep publishes no event. */
  lemma BeepPublishesNothing(stealth: bool, elapsed: int)
    ensures EventPublishes(WarningBeep(stealth, elapsed)) == []
  {
    var beep := WarningBeep(stealth, elapsed);
    if beep != [] {
      assert beep[1..] == [];
    }
  }

  /** The pre-alarm tick queues exactly one "event_log" publish per logged event. */
  lemma PreAlarmPublishesEvents(s: State, logic: Logic, now: int)
    requires |s.log| <= MaxLogSize
    ensures EventPublishes(PreAlarmTick(s, logic, now).tasks) == PreAlarmTick(s, logic, now).events
  {
    var beep := WarningBeep(s.stealth, now - s.preAlarmStart);
    BeepPublishesNothing(s.stealth, now - s.preAlarmStart);
    if now - s.preAlarmStart > logic.preAlarmDelay {
      var raised := RaiseAlarm(s, now);
      RaisePublishesEvents(s, now);
      EventPublishesConcat(beep, raised.tasks);
      assert PreAlarmTick(s, logic, now) == Step(raised.state, beep + raised.tasks, raised.events);
    } else {
      assert PreAlarmTick(s, logic, now) == Step(s, beep, []);
    }
  }

  /** The tick queues exactly one "event_log" publish per logged event. */
  lemma TickPublishesEvents(s: State, logic: Logic, now: int)
    requires |s.log| <= MaxLogSize
    ensures EventPublishes(Tick(s, logic, now).tasks) == Tick(s, logic, now).events
  {
    PreAlarmPublishesEvents(s, logic, now);
    ResetPublishesEvents(s, "Duration timeout");
    ResetPublishesEvents(s, "Motion timeout");
  }

  // ---------------------------------------------------------------- the transition graph

  /** The mode changes the controller makes: arm, disarm from anywhere, motion, expiry, reset. */
  predicate Edge(from: Mode, to: Mode) {
    || from == to
    || (from == Disarmed && to == Armed)
    || to == Disarmed
    || (from == Armed && to == PreAlarm)
    || (from == PreAlarm && to == Alarm)
    || (from == Alarm && to == Armed)
  }

  /** Arming, disarming, motion and badge scans move the mode along an edge of the graph. */
  lemma EventsFollowEdges(s: State, logic: Logic, now: int, source: string, authorized: seq<Config.BadgeId>, tag: int)
    requires |s.log| <= MaxLogSize
    ensures Edge(s.mode, Arm(s, source).step.state.mode)
    ensures Edge(s.mode, Disarm(s, source).step.state.mode)
    ensures Edge(s.mode, HandleMotion(s, logic, now).state.mode)
    ensures Edge(s.mode, HandleRfid(s, authorized, tag).state.mode)
  {
  }

  /** The main-loop tick and the remote commands move the mode along an edge of the graph. */
  lemma TickAndCommandsFollowEdges(s: State, logic: Logic, now: int, cmd: Dispatcher.Command)
    requires |s.log| <= MaxLogSize
    ensures Edge(s.mode, Tick(s, logic, now).state.mode)
    ensures Edge(s.mode, Dispatcher.Apply(s, cmd).step.state.mode)
  {
  }

  /**
   * The alarm is entered only by a tick in the pre-alarm once the delay has
   * passed: no entry point goes straight from disarmed or armed to alarm.
   */
  lemma AlarmOnlyAfterDelay(s: State, logic: Logic, now: int)
    requires |s.log| <= MaxLogSize && s.mode != Alarm
    ensures Tick(s, logic, now).state.mode == Alarm <==>
              s.mode == PreAlarm && now - s.preAlarmStart > logic.preAlarmDelay
    ensures HandleMotion(s, logic, now).state.mode != Alarm
  {
  }

  // ---------------------------------------------------------------- scenarios

  /**
   * An intrusion from the initial state: arming, motion, a tick after the
   * pre-alarm delay and a tick after the alarm duration pass through armed,
   * pre-alarm and alarm back to armed, with the siren started and stopped.
   */
  lemma IntrusionCycle(lockedAngle: int, unlockedAngle: int, logic: Logic, t1: int, t2: int, t3: int)
    requires t2 - t1 > logic.preAlarmDelay && t3 - t2 > logic.alarmDuration
    ensures var s0 := Init(lockedAngle, unlockedAngle);
            var s1 := Arm(s0, "Manual").step.state;
            var s2 := HandleMotion(s1, logic, t1).state;
            var s3 := Tick(s2, logic, t2).state;
            var s4 := Tick(s3, logic, t3).state;
            && s1.mode == Armed && s1.servo.current == Some(lockedAngle)
            && s2.mode == PreAlarm && s2.preAlarmStart == t1
            && s3.mode == Alarm && s3.buzzer.sirenRunning
            && s4.mode == Armed && !s4.buzzer.sirenRunning
            && |s4.log| == 4
            && s4.log[3] == Event(AlarmReset, "Duration timeout", Armed)
  {
    var s0 := Init(lockedAngle, unlockedAngle);
    var s1 := Arm(s0, "Manual").step.state;
    assert s1.mode == Armed && |s1.log| == 1;
    var s2 := HandleMotion(s1, logic, t1).state;
    assert s2.mode == PreAlarm && s2.preAlarmStart == t1 && |s2.log| == 2;
    var s3 := Tick(s2, logic, t2).state;
    assert s3 == PreAlarmTick(s2, logic, t2).state;
    assert s3.mode == Alarm && s3.alarmStart == t2 && |s3.log| == 3;
    assert Tick(s3, logic, t3) == ResetAlarm(s3, "Duration timeout");
  }

  /**
   * Two scans of an authorized badge from a disarmed state arm and then
   * disarm: the mode is disarmed again, the servo ends unlocked and both
   * steps are logged.
   */
  lemma RfidToggleRoundTrip(s: State, authorized: seq<Config.BadgeId>, tag: int)
    requires Consistent(s) && s.mode == Disarmed
    requires |authorized| > 0 && IsAuthorized(authorized, tag)
    ensures var first := HandleRfid(s, authorized, tag);
            var second := HandleRfid(first.state, authorized, tag);
            && first.state.mode == Armed
            && second.state.mode == Disarmed && second.state.pattern == SlowBlink
            && second.state.servo.current == Some(s.servo.unlockedAngle)
            && first.events[0].kind == ArmEvent && second.events[0].kind == DisarmEvent
  {
    var first := HandleRfid(s, authorized, tag);
    assert |first.state.log| <= MaxLogSize;
  }

  /** A badge not on a non-empty list changes no mode, however often it is scanned. */
  lemma UnauthorizedScansKeepMode(s: State, authorized: seq<Config.BadgeId>, tags: seq<int>)
    requires |s.log| <= MaxLogSize && |authorized| > 0
    requires forall i :: 0 <= i < |tags| ==> !IsAuthorized(authorized, tags[i])
    ensures ScanAll(s, authorized, tags).mode == s.mode
    ensures |ScanAll(s, authorized, tags).log| <= MaxLogSize
    decreases |tags|
  {
    if |tags| > 0 {
      var next := HandleRfid(s, authorized, tags[0]).state;
      UnauthorizedScansKeepMode(next, authorized, tags[1..]);
    }
  }

  /** The state after a series of badge scans. */
  function ScanAll(s: State, authorized: seq<Config.BadgeId>, tags: seq<int>): (r: State)
    requires |s.log| <= MaxLogSize
    ensures |r.log| <= MaxLogSize
    decreases |tags|
  {
    if |tags| == 0 then s else ScanAll(HandleRfid(s, authorized, tags[0]).state, authorized, tags[1..])
  }

  /**
   * With an allow-list read from AUTHORIZED_RFID_IDS (integers), a tag is
   * authorized exactly when it is one of the listed numbers.
   */
  lemma NumericAllowList(ids: seq<int>, tag: int)
    ensures IsAuthorized(Config.Numeric(ids), tag) <==> tag in ids
  {
    var list := Config.Numeric(ids);
    if tag in ids {
      var i :| 0 <= i < |ids| && ids[i] == tag;
      assert Config.Render(list[i]) == IntToString(tag);
    }
    if IsAuthorized(list, tag) {
      var i :| 0 <= i < |list| && Config.Render(list[i]) == IntToString(tag);
      IntToStringInjective(ids[i], tag);
    }
  }

  // ---------------------------------------------------------------- timing and the log

  /**
   * For non-negative elapsed time, the warning beep is due exactly in the
   * first 100 ms of every five-second period.
   */
  lemma BeepEveryFiveSeconds(elapsed: int)
    requires elapsed >= 0
    ensures BeepDue(elapsed) <==> elapsed % 5000 < 100
  {
    var secs := WholeSeconds(elapsed);
    var frac := elapsed - 1000 * secs;
    assert secs == elapsed / 1000;
    var q := secs / 5;
    var k := secs % 5;
    assert elapsed == 5000 * q + (1000 * k + frac);
    assert 0 <= 1000 * k + frac < 5000;
    assert elapsed % 5000 == 1000 * k + frac;
  }

  /**
   * `get_event_log(0)` as written returns the whole log, where the intended
   * answer is no entries; a negative limit `-k` returns all but the `k`
   * oldest entries, where none are intended; for positive limits the two agree.
   */
  lemma EventLogZeroLimit(log: seq<Event>, limit: int)
    ensures |GetEventLogAsWritten(log, 0)| == |log| && GetEventLog(log, 0) == []
    ensures limit > 0 ==> GetEventLogAsWritten(log, limit) == GetEventLog(log, limit)
    ensures limit < 0 ==> GetEventLog(log, limit) == []
    ensures limit < 0 && -limit <= |log| ==> GetEventLogAsWritten(log, limit) == Reverse(log[-limit..])
    ensures limit <= 0 && -limit < |log| ==> GetEventLogAsWritten(log, limit) != GetEventLog(log, limit)
  {
  }

  /** After logging, the newest entry read back is the one just logged. */
  lemma LoggedEventReadBack(s: State, kind: EventKind, details: string)
    requires |s.log| <= MaxLogSize
    ensures GetEventLog(LogEvent(s, kind, details).state.log, 1) == [Event(kind, details, s.mode)]
  {
    var log := LogEvent(s, kind, details).state.log;
    assert log[|log| - 1] == Event(kind, details, s.mode);
  }

  // ---------------------------------------------------------------- from the devices and to the cloud

  /**
   * A logged event, taken off the task queue, is published to the topic of
   * the "event_log" feed as its JSON record, and is delivered exactly when
   * MQTT accepts it or the REST fallback does.
   */
  lemma LoggedEventPublished(s: State, kind: EventKind, details: string, now: int, shot: Option<string>,
                             feeds: Adafruit.Feeds, username: string, t: Adafruit.Transports)
    requires |s.log| <= MaxLogSize && Adafruit.HasKey(feeds, "event_log")
    ensures var step := LogEvent(s, kind, details);
            var p := ProcessNext(step.state, step.tasks, now, shot);
            && p.Some? && p.value.effect == PublishEffect("event_log", EventJson(Event(kind, details, s.mode)))
            && var out := Adafruit.Publish(feeds, username, "event_log", p.value.effect.value, t);
            && out.topic == Adafruit.Topic(username, Adafruit.FeedKey(feeds, "event_log").value)
            && out.value == EventJson(Event(kind, details, s.mode))
            && (out.success <==> (t.connected && t.mqttAccepted) || Adafruit.RestDelivered(t.restStatus))
  {
  }

  /**
   * A badge read by the reader drives the handler: with a numeric allow-list,
   * a listed tag toggles between disarmed and armed, and an unlisted one
   * keeps the mode and is logged as unauthorized. A fault or a zero tag
   * reaches no handler at all.
   */
  lemma BadgeReadDrivesHandler(s: State, ids: seq<int>, outcome: Sensors.RfidOutcome)
    requires |s.log| <= MaxLogSize && |ids| > 0
    ensures outcome.ReadFault? || outcome.id.None? || outcome.id == Some(0) ==> Sensors.ReadRfid(outcome).None?
    ensures Sensors.ReadRfid(outcome).Some? ==>
              var tag := Sensors.ReadRfid(outcome).value;
              var r := HandleRfid(s, Config.Numeric(ids), tag);
              && (tag in ids ==> r.state.mode == if s.mode == Disarmed then Armed else Disarmed)
              && (tag !in ids ==> r.state.mode == s.mode && r.events[0].kind == RfidUnauthorized)
  {
    if Sensors.ReadRfid(outcome).Some? {
      NumericAllowList(ids, Sensors.ReadRfid(outcome).value);
    }
  }

  /**
   * One pass of the environmental loop from the driver's outcome: the two
   * publishes are queued exactly when the driver gives both values, they
   * carry exactly those values, temperature first, and they publish no event.
   */
  lemma DhtReadingPublished(initialized: bool, outcome: Sensors.DhtOutcome)
    ensures var tasks := EnvironmentTasks(Sensors.ReadDht(initialized, outcome).reading);
            && (tasks != [] <==> outcome.Readings? && outcome.temperature.Some? && outcome.humidity.Some?)
            && (tasks != [] ==>
                  tasks == [PublishTask("temperature", Reading(outcome.temperature.value)),
                            PublishTask("humidity", Reading(outcome.humidity.value))])
            && EventPublishes(tasks) == []
  {
    var tasks := EnvironmentTasks(Sensors.ReadDht(initialized, outcome).reading);
    if tasks != [] {
      EventPublishesConcat([tasks[0]], [tasks[1]]);
      assert tasks == [tasks[0]] + [tasks[1]];
    }
  }
}

=== FILE: sensors.dfy ===
/**
 * The sensor wrappers of hardware/sensors.py: the motion sensor's debounce
 * rule, and the temperature/humidity and badge reads as option-returning
 * reads. What the driver reports is an input; time is in milliseconds.
 */
module Sensors {
  import opened Common

  // ---------------------------------------------------------------- PIR

  /** The motion sensor wrapper: the time of the last accepted detection and the debounce window. */
  datatype Pir = Pir(lastDetection: int, debounce: int)

  /** A poll's answer and the wrapper after it. */
  datatype PirPoll = PirPoll(pir: Pir, detected: bool)

  /**
   * `motion_detected`: raw motion counts only once the debounce window since
   * the last accepted detection has passed, and only a counted detection
   * moves the window.
   */
  function MotionDetected(p: Pir, raw: bool, now: int): (r: PirPoll)
    ensures r.detected <==> raw && now - p.lastDetection >= p.debounce
    ensures r.detected ==> r.pir == p.(lastDetection := now)
    ensures !r.detected ==> r.pir == p
  {
    if raw && now - p.lastDetection >= p.debounce then PirPoll(p.(lastDetection := now), true)
    else PirPoll(p, false)
  }

  /** One poll of the sensor: the raw reading and the clock at that moment. */
  datatype Sample = Sample(raw: bool, now: int)

  /** The times at which a series of polls reported motion. */
  function DetectionTimes(p: Pir, samples: seq<Sample>): seq<int>
    decreases |samples|
  {
    if |samples| == 0 then []
    else
      var poll := MotionDetected(p, samples[0].raw, samples[0].now);
      var rest := DetectionTimes(poll.pir, samples[1..]);
      if poll.detected then [samples[0].now] + rest else rest
  }

  /**
   * Any two reported detections are at least the debounce window apart, and
   * the first is at least the window after the last one before the series.
   */
  lemma {:induction false} DetectionsSeparated(p: Pir, samples: seq<Sample>)
    requires p.debounce >= 0
    ensures forall i :: 0 <= i < |DetectionTimes(p, samples)| ==>
              DetectionTimes(p, samples)[i] - p.lastDetection >= p.debounce
    ensures forall i, j :: 0 <= i < j < |DetectionTimes(p, samples)| ==>
              DetectionTimes(p, samples)[j] - DetectionTimes(p, samples)[i] >= p.debounce
    decreases |samples|
  {
    if |samples| > 0 {
      var poll := MotionDetected(p, samples[0].raw, samples[0].now);
      var rest := DetectionTimes(poll.pir, samples[1..]);
      DetectionsSeparated(poll.pir, samples[1..]);
      if poll.detected {
        var times := [samples[0].now] + rest;
        assert DetectionTimes(p, samples) == times;
        forall i, j | 0 <= i < j < |times|
          ensures times[j] - times[i] >= p.debounce
        {
          assert times[j] == rest[j - 1];
          if i > 0 {
            assert times[i] == rest[i - 1];
          }
        }
      }
    }
  }

  // ---------------------------------------------------------------- DHT

  /** What the temperature/humidity driver does on one read. */
  datatype DhtOutcome =
    | Readings(temperature: Option<real>, humidity: Option<real>)
    | TransientFault   // a RuntimeError: checksum or timeout
    | CriticalFault    // any other exception

  /** A read's result (both values or neither) and whether the driver object is kept. */
  datatype DhtRead = DhtRead(initialized: bool, reading: Option<(real, real)>)

  /**
   * `DHTSensor.read`: both values, or `(None, None)` when one is missing or
   * the driver raised; a critical fault also drops the lazily created driver
   * so the next read creates it again.
   */
  function ReadDht(initialized: bool, outcome: DhtOutcome): (r: DhtRead)
    ensures r.reading.Some? <==> outcome.Readings? && outcome.temperature.Some? && outcome.humidity.Some?
    ensures r.reading.Some? ==> r.reading.value == (outcome.temperature.value, outcome.humidity.value)
    ensures r.initialized <==> !outcome.CriticalFault?
  {
    match outcome
    case Readings(t, h) =>
      if t.None? || h.None? then DhtRead(true, None) else DhtRead(true, Some((t.value, h.value)))
    case TransientFault => DhtRead(true, None)
    case CriticalFault => DhtRead(false, None)
  }

  // ---------------------------------------------------------------- RFID

  /** What the badge reader driver does on one non-blocking read. */
  datatype RfidOutcome = Tag(id: Option<int>) | ReadFault

  /** `RFIDReader.read`: the tag id, or `None` for a falsy id (absent or 0) or a fault. */
  function ReadRfid(outcome: RfidOutcome): (r: Option<int>)
    ensures r.Some? <==> outcome.Tag? && outcome.id.Some? && outcome.id.value != 0
    ensures r.Some? ==> r == outcome.id
  {
    match outcome
    case Tag(id) => if id.Some? && id.value != 0 then id else None
    case ReadFault => None
  }
}

=== FILE: storage.dfy ===
/**
 * The selection rules of services/storage_service.py: which image files are
 * listed, in which order, and which are deleted by the retention rule. The
 * directory is a sequence of entries in the order the directory scan yields
 * them; a failing scan or `stat` is an input.
 */
module Storage {
  import opened Common

  /** A directory entry with its modification time and size. */
  datatype FileEntry = FileEntry(name: string, mtime: int, size: nat)

  /** Whether a name matches the pattern `*.jpg` (case-sensitive; ".jpg" itself matches). */
  predicate IsJpg(name: string) {
    |name| >= 4 && name[|name| - 4..] == ".jpg"
  }

  /** The entries matching `*.jpg`, in scan order. */
  function Jpgs(dir: seq<FileEntry>): (r: seq<FileEntry>)
    ensures |r| <= |dir|
    ensures forall e :: e in r <==> e in dir && IsJpg(e.name)
  {
    if |dir| == 0 then []
    else if IsJpg(dir[0].name) then [dir[0]] + Jpgs(dir[1..])
    else Jpgs(dir[1..])
  }

  /** The filter works entry by entry, so the images keep their scan order. */
  lemma {:induction false} JpgsConcat(a: seq<FileEntry>, b: seq<FileEntry>)
    ensures Jpgs(a + b) == Jpgs(a) + Jpgs(b)
  {
    if |a| == 0 {
      assert a + b == b;
    } else {
      assert (a + b)[0] == a[0];
      assert (a + b)[1..] == a[1..] + b;
      JpgsConcat(a[1..], b);
    }
  }

  /** Ordered newest first: modification times never increase along the sequence. */
  predicate NewestFirst(s: seq<FileEntry>) {
    forall i, j :: 0 <= i < j < |s| ==> s[i].mtime >= s[j].mtime
  }

  /** The entries of `s` with modification time `t`, in their order in `s`. */
  function WithMtime(s: seq<FileEntry>, t: int): seq<FileEntry> {
    if |s| == 0 then []
    else (if s[0].mtime == t then [s[0]] else []) + WithMtime(s[1..], t)
  }

  /** No entry of `s` is newer than `t`. */
  predicate NoneNewer(s: seq<FileEntry>, t: int) {
    forall i :: 0 <= i < |s| ==> s[i].mtime <= t
  }

  /** Places `x` ahead of the first entry of `r` that is not newer than it. */
  function Insert(x: FileEntry, r: seq<FileEntry>): (t: seq<FileEntry>)
    ensures |t| == |r| + 1
    ensures multiset(t) == multiset(r) + multiset{x}
  {
    if |r| == 0 || r[0].mtime <= x.mtime then [x] + r
    else
      assert r == [r[0]] + r[1..];
      [r[0]] + Insert(x, r[1..])
  }

  /** Every entry of `Insert(x, r)` is `x` or an entry of `r`. */
  lemma InsertFrom(x: FileEntry, r: seq<FileEntry>, j: nat)
    requires j < |Insert(x, r)|
    ensures Insert(x, r)[j] == x || Insert(x, r)[j] in r
  {
    var t := Insert(x, r);
    assert t[j] in multiset(t);
  }

  /** Inserting into a newest-first sequence keeps it newest first. */
  lemma {:induction false} InsertNewestFirst(x: FileEntry, r: seq<FileEntry>)
    requires NewestFirst(r)
    ensures NewestFirst(Insert(x, r))
  {
    var t := Insert(x, r);
    if |r| == 0 || r[0].mtime <= x.mtime {
      forall i, j | 0 <= i < j < |t| ensures t[i].mtime >= t[j].mtime {
        assert t[j] == r[j - 1];
        if i > 0 { assert t[i] == r[i - 1]; }
        else if j > 1 { assert r[0].mtime >= r[j - 1].mtime; }
      }
    } else {
      var rest := Insert(x, r[1..]);
      InsertNewestFirst(x, r[1..]);
      assert t == [r[0]] + rest;
      forall j | 0 <= j < |rest| ensures rest[j].mtime <= r[0].mtime {
        InsertFrom(x, r[1..], j);
        if rest[j] != x {
          var k :| 0 <= k < |r| - 1 && r[1..][k] == rest[j];
          assert r[k + 1] == rest[j];
        }
      }
      forall i, j | 0 <= i < j < |t| ensures t[i].mtime >= t[j].mtime {
        assert t[j] == rest[j - 1];
        if i > 0 { assert t[i] == rest[i - 1]; }
      }
    }
  }

  /** The entries of one time in `[e] + s`: `e` if it has that time, then those of `s`. */
  lemma WithMtimeCons(e: FileEntry, s: seq<FileEntry>, m: int)
    ensures WithMtime([e] + s, m) == (if e.mtime == m then [e] else []) + WithMtime(s, m)
  {
    assert ([e] + s)[1..] == s;
  }

  /** The entries of time `m` that `x` contributes, ahead of those of `s`. */
  function Tagged(x: FileEntry, m: int, s: seq<FileEntry>): seq<FileEntry> {
    (if x.mtime == m then [x] else []) + s
  }

  /** One step of `InsertStable`: an entry newer than `x` placed ahead of both sides. */
  lemma InsertStableStep(e: FileEntry, x: FileEntry, rest: seq<FileEntry>, tail: seq<FileEntry>, m: int)
    requires e.mtime > x.mtime
    requires WithMtime(rest, m) == Tagged(x, m, WithMtime(tail, m))
    ensures WithMtime([e] + rest, m) == Tagged(x, m, WithMtime([e] + tail, m))
  {
    WithMtimeCons(e, rest, m);
    WithMtimeCons(e, tail, m);
    var a := WithMtime(tail, m);
    if e.mtime == m {
      assert Tagged(x, m, a) == a;
      assert Tagged(x, m, [e] + a) == [e] + a;
    } else {
      assert WithMtime([e] + rest, m) == WithMtime(rest, m);
      assert WithMtime([e] + tail, m) == a;
    }
  }

  /** Inserting keeps the scan order among entries of each modification time. */
  lemma {:induction false} InsertStable(x: FileEntry, r: seq<FileEntry>, m: int)
    ensures WithMtime(Insert(x, r), m) == Tagged(x, m, WithMtime(r, m))
  {
    if |r| == 0 || r[0].mtime <= x.mtime {
      WithMtimeCons(x, r, m);
    } else {
      InsertStable(x, r[1..], m);
      InsertStableStep(r[0], x, Insert(x, r[1..]), r[1..], m);
      assert Insert(x, r) == [r[0]] + Insert(x, r[1..]);
      assert r == [r[0]] + r[1..];
    }
  }

  /**
   * Python's `sorted(entries, key=mtime, reverse=True)`: newest first and a
   * permutation of the input.
   */
  function SortNewest(s: seq<FileEntry>): (r: seq<FileEntry>)
    ensures NewestFirst(r)
    ensures multiset(r) == multiset(s)
    ensures |r| == |s|
  {
    if |s| == 0 then []
    else
      assert s == [s[0]] + s[1..];
      var rest := SortNewest(s[1..]);
      InsertNewestFirst(s[0], rest);
      Insert(s[0], rest)
  }

  /** The sort is stable: entries with equal times keep their scan order. */
  lemma {:induction false} SortNewestStable(s: seq<FileEntry>, m: int)
    ensures WithMtime(SortNewest(s), m) == WithMtime(s, m)
  {
    if |s| > 0 {
      SortNewestStable(s[1..], m);
      InsertStable(s[0], SortNewest(s[1..]), m);
      WithMtimeCons(s[0], s[1..], m);
      assert s == [s[0]] + s[1..];
    }
  }

  /** A slice of a newest-first sequence is newest first, and holds only its entries. */
  lemma SliceNewestFirst(s: seq<FileEntry>, from: nat, to: nat)
    requires NewestFirst(s) && from <= to <= |s|
    ensures NewestFirst(s[from..to])
    ensures forall e :: e in s[from..to] ==> e in s
  {
    forall e | e in s[from..to] ensures e in s {
      var i :| 0 <= i < to - from && s[from..to][i] == e;
      assert s[from + i] == e;
    }
  }

  /** The sorted images are exactly the images of the directory. */
  lemma SortedMembers(dir: seq<FileEntry>)
    ensures |SortNewest(Jpgs(dir))| == |Jpgs(dir)|
    ensures forall e :: e in SortNewest(Jpgs(dir)) <==> e in dir && IsJpg(e.name)
  {
    var sorted := SortNewest(Jpgs(dir));
    assert |sorted| == |multiset(sorted)| == |multiset(Jpgs(dir))| == |Jpgs(dir)|;
    forall e ensures e in sorted <==> e in Jpgs(dir) {
      assert e in sorted <==> e in multiset(sorted);
      assert e in Jpgs(dir) <==> e in multiset(Jpgs(dir));
    }
  }

  /**
   * `list_images(limit)`: the `*.jpg` entries newest first, cut to Python's
   * `[:limit]`; a failing scan gives the empty list.
   */
  function ListImages(dir: seq<FileEntry>, limit: int, failed: bool): (r: seq<FileEntry>)
    ensures failed ==> r == []
    ensures NewestFirst(r)
    ensures forall e :: e in r ==> e in dir && IsJpg(e.name)
    ensures !failed && limit >= 0 ==> |r| == (if limit < |Jpgs(dir)| then limit else |Jpgs(dir)|)
    ensures !failed && limit < 0 ==> |r| == (if -limit < |Jpgs(dir)| then |Jpgs(dir)| + limit else 0)
    ensures !failed ==> r <= SortNewest(Jpgs(dir))
  {
    if failed then []
    else
      SortedMembers(dir);
      PyTake(SortNewest(Jpgs(dir)), limit)
  }

  /**
   * The run of the newest-first list that the unlink loop removes: it walks
   * Python's `[max_count:]` in order, and the unlink numbered `unlinkFailsAt`
   * (counting from 0) raises before removing anything.
   */
  function Unlinked(sorted: seq<FileEntry>, maxCount: int, unlinkFailsAt: Option<nat>): (r: seq<FileEntry>)
    ensures SliceIndex(maxCount, |sorted|) + |r| <= |sorted|
    ensures r == sorted[SliceIndex(maxCount, |sorted|)..SliceIndex(maxCount, |sorted|) + |r|]
    ensures unlinkFailsAt.None? ==> r == PyDrop(sorted, maxCount)
    ensures unlinkFailsAt.Some? && SliceIndex(maxCount, |sorted|) + unlinkFailsAt.value <= |sorted|
            ==> |r| == unlinkFailsAt.value
  {
    var from := SliceIndex(maxCount, |sorted|);
    if unlinkFailsAt.Some? && unlinkFailsAt.value < |sorted| - from then sorted[from..from + unlinkFailsAt.value]
    else sorted[from..]
  }

  /**
   * `delete_old_images(max_count)`: the entries deleted. When there are more
   * than `max_count` images, the ones in Python's `[max_count:]` of the
   * newest-first order are unlinked in turn; the unlink numbered
   * `unlinkFailsAt` raises and ends the run. A failing scan deletes nothing.
   */
  function DeleteOldImages(dir: seq<FileEntry>, maxCount: int, failed: bool, unlinkFailsAt: Option<nat>)
    : (r: seq<FileEntry>)
    ensures failed || |Jpgs(dir)| <= maxCount ==> r == []
    ensures forall e :: e in r ==> e in dir && IsJpg(e.name)
    ensures NewestFirst(r)
    ensures !failed && unlinkFailsAt.None? && maxCount < |Jpgs(dir)| ==> r == PyDrop(SortNewest(Jpgs(dir)), maxCount)
  {
    if failed || |Jpgs(dir)| <= maxCount then []
    else
      var sorted := SortNewest(Jpgs(dir));
      SortedMembers(dir);
      var r := Unlinked(sorted, maxCount, unlinkFailsAt);
      var from := SliceIndex(maxCount, |sorted|);
      SliceNewestFirst(sorted, from, from + |r|);
      r
  }

  /** With more than `max_count` images the deletion is exactly the unlink run. */
  lemma DeleteOldImagesUnlinks(dir: seq<FileEntry>, maxCount: int, unlinkFailsAt: Option<nat>)
    requires maxCount < |Jpgs(dir)|
    ensures DeleteOldImages(dir, maxCount, false, unlinkFailsAt) == Unlinked(SortNewest(Jpgs(dir)), maxCount, unlinkFailsAt)
  {
  }

  /** Without a failing unlink, the newest `max_count` followed by the unlink run are the whole list. */
  lemma UnlinkedAllSplits(sorted: seq<FileEntry>, maxCount: nat)
    requires maxCount < |sorted|
    ensures |Unlinked(sorted, maxCount, None)| == |sorted| - maxCount
    ensures sorted[..maxCount] + Unlinked(sorted, maxCount, None) == sorted
  {
    assert sorted[..maxCount] + sorted[maxCount..] == sorted;
  }

  /**
   * When every unlink succeeds, exactly the images after the `max_count`
   * newest are deleted.
   */
  lemma DeletesAllButNewest(dir: seq<FileEntry>, maxCount: nat)
    requires maxCount < |Jpgs(dir)|
    ensures |DeleteOldImages(dir, maxCount, false, None)| == |Jpgs(dir)| - maxCount
    ensures SortNewest(Jpgs(dir))[..maxCount] + DeleteOldImages(dir, maxCount, false, None) == SortNewest(Jpgs(dir))
  {
    DeleteOldImagesUnlinks(dir, maxCount, None);
    UnlinkedAllSplits(SortNewest(Jpgs(dir)), maxCount);
  }

  /**
   * The retention rule keeps exactly what `list_images(max_count)` shows: the
   * kept and the deleted images together are all images, newest first.
   */
  lemma ListedAndDeletedPartition(dir: seq<FileEntry>, maxCount: int)
    requires maxCount >= 0
    ensures ListImages(dir, maxCount, false) + DeleteOldImages(dir, maxCount, false, None) == SortNewest(Jpgs(dir))
  {
    SortedMembers(dir);
    var sorted := SortNewest(Jpgs(dir));
    if maxCount < |sorted| {
      DeletesAllButNewest(dir, maxCount);
    } else {
      assert ListImages(dir, maxCount, false) == sorted;
    }
  }

  /** For a count inside the list, what the unlink loop removes is a run of the list starting at that count. */
  lemma UnlinkedFrom(sorted: seq<FileEntry>, maxCount: nat, unlinkFailsAt: Option<nat>)
    requires maxCount < |sorted|
    ensures maxCount + |Unlinked(sorted, maxCount, unlinkFailsAt)| <= |sorted|
    ensures Unlinked(sorted, maxCount, unlinkFailsAt)
            == sorted[maxCount..maxCount + |Unlinked(sorted, maxCount, unlinkFailsAt)|]
  {
  }

  /** In a newest-first sequence, every entry before position `k` is at least as new as every one after it. */
  lemma PrefixNotOlder(s: seq<FileEntry>, k: nat, to: nat)
    requires NewestFirst(s) && k <= to <= |s|
    ensures forall a, b :: a in s[..k] && b in s[k..to] ==> a.mtime >= b.mtime
  {
    forall a, b | a in s[..k] && b in s[k..to]
      ensures a.mtime >= b.mtime
    {
      var i :| 0 <= i < k && s[..k][i] == a;
      var j :| 0 <= j < to - k && s[k..to][j] == b;
      assert s[i] == a && s[k + j] == b;
    }
  }

  /** Every image kept by the retention rule is at least as new as every image it deletes. */
  lemma RetentionKeepsNewest(dir: seq<FileEntry>, maxCount: int, unlinkFailsAt: Option<nat>)
    requires maxCount >= 0
    ensures forall kept, gone ::
              (kept in ListImages(dir, maxCount, false) && gone in DeleteOldImages(dir, maxCount, false, unlinkFailsAt))
              ==> kept.mtime >= gone.mtime
  {
    var sorted := SortNewest(Jpgs(dir));
    SortedMembers(dir);
    if maxCount < |sorted| {
      var gone := DeleteOldImages(dir, maxCount, false, unlinkFailsAt);
      assert ListImages(dir, maxCount, false) == sorted[..maxCount];
      DeleteOldImagesUnlinks(dir, maxCount, unlinkFailsAt);
      UnlinkedFrom(sorted, maxCount, unlinkFailsAt);
      PrefixNotOlder(sorted, maxCount, maxCount + |gone|);
    }
  }
}

=== FILE: text.dfy ===
/**
 * The Python string built-ins the controller leans on, stated exactly enough
 * for the command vocabulary and the badge allow-list: `str.strip()`,
 * `str.lower()`, `str.split(',')`, `str(int)`, `int(str)` and `float(str)`.
 */
module Text {
  import opened Common

  // ---------------------------------------------------------------- strip

  /** The characters for which Python's `str.isspace()` holds. */
  predicate IsSpace(c: char) {
    || c == ' '
    || '\t' <= c <= '\r'
    || '\U{1c}' <= c <= '\U{1f}'
    || c == '\U{85}' || c == '\U{a0}' || c == '\U{1680}'
    || '\U{2000}' <= c <= '\U{200a}'
    || c == '\U{2028}' || c == '\U{2029}' || c == '\U{202f}'
    || c == '\U{205f}' || c == '\U{3000}'
  }

  /** `s.lstrip()`: the suffix left after dropping the leading white space. */
  function StripLeft(s: string): (r: string)
    ensures |r| <= |s| && r == s[|s| - |r|..]
    ensures forall i :: 0 <= i < |s| - |r| ==> IsSpace(s[i])
    ensures |r| > 0 ==> !IsSpace(r[0])
  {
    if |s| > 0 && IsSpace(s[0]) then StripLeft(s[1..]) else s
  }

  /** `s.rstrip()`: the prefix left after dropping the trailing white space. */
  function StripRight(s: string): (r: string)
    ensures |r| <= |s| && r == s[..|r|]
    ensures forall i :: |r| <= i < |s| ==> IsSpace(s[i])
    ensures |r| > 0 ==> !IsSpace(r[|r| - 1])
  {
    if |s| > 0 && IsSpace(s[|s| - 1]) then StripRight(s[..|s| - 1]) else s
  }

  /** The number of leading white-space characters of `s`. */
  function Lead(s: string): (n: nat)
    ensures n <= |s|
  {
    |s| - |StripLeft(s)|
  }

  /**
   * `s.strip()`: the slice of `s` that starts after its leading white space and
   * ends before its trailing white space.
   */
  function Strip(s: string): (r: string)
    ensures |r| > 0 ==> !IsSpace(r[0]) && !IsSpace(r[|r| - 1])
    ensures Lead(s) + |r| <= |s| && r == s[Lead(s)..Lead(s) + |r|]
  {
    var l := StripLeft(s);
    StripRightOfSuffix(s, l);
    StripRight(l)
  }

  /** What `strip` removes is white space: everything before and after the kept slice. */
  lemma StripRemovesSpace(s: string)
    ensures forall k :: 0 <= k < Lead(s) ==> IsSpace(s[k])
    ensures forall k :: Lead(s) + |Strip(s)| <= k < |s| ==> IsSpace(s[k])
  {
    StripRightOfSuffix(s, StripLeft(s));
  }

  /** Right-stripping a suffix `l` of `s` leaves a slice of `s` with the white space around it. */
  lemma StripRightOfSuffix(s: string, l: string)
    requires |l| <= |s| && l == s[|s| - |l|..]
    requires |l| > 0 ==> !IsSpace(l[0])
    ensures var r := StripRight(l);
            var lead := |s| - |l|;
            && lead + |r| <= |s| && r == s[lead..lead + |r|]
            && (|r| > 0 ==> !IsSpace(r[0]))
            && (forall k :: lead + |r| <= k < |s| ==> IsSpace(s[k]))
  {
    var r := StripRight(l);
    var lead := |s| - |l|;
    assert r == l[..|r|];
    forall k | lead + |r| <= k < |s|
      ensures IsSpace(s[k])
    {
      assert s[k] == l[k - lead];
    }
  }

  /** A text whose ends are not white space is its own strip. */
  lemma StripKeeps(s: string)
    requires |s| > 0 ==> !IsSpace(s[0]) && !IsSpace(s[|s| - 1])
    ensures Strip(s) == s
  {
  }

  /** Stripping twice is stripping once. */
  lemma StripIdempotent(s: string)
    ensures Strip(Strip(s)) == Strip(s)
  {
    StripKeeps(Strip(s));
  }

  // ---------------------------------------------------------------- lower

  /**
   * The lower-case mapping of one character, as far as it can produce an
   * ASCII character: A-Z, and the KELVIN SIGN, whose lower case is 'k'.
   */
  function LowerChar(c: char): char {
    if 'A' <= c <= 'Z' then (c as int + 32) as char
    else if c == '\U{212a}' then 'k'
    else c
  }

  /** `s.lower()`, character by character. */
  function Lower(s: string): (r: string)
    ensures |r| == |s|
    ensures forall i :: 0 <= i < |s| ==> r[i] == LowerChar(s[i])
  {
    seq(|s|, i requires 0 <= i < |s| => LowerChar(s[i]))
  }

  /** Lower-casing never turns a character into white space or out of it. */
  lemma LowerCharSpace(c: char)
    ensures IsSpace(LowerChar(c)) <==> IsSpace(c)
  {
  }

  /** Lower-casing is idempotent. */
  lemma LowerIdempotent(s: string)
    ensures Lower(Lower(s)) == Lower(s)
  {
  }

  // ---------------------------------------------------------------- split / join

  /** `sep.join(parts)` for a one-character separator. */
  function Join(parts: seq<string>, sep: char): string {
    if |parts| == 0 then ""
    else if |parts| == 1 then parts[0]
    else parts[0] + [sep] + Join(parts[1..], sep)
  }

  /**
   * `s.split(sep)` for a one-character separator: at least one piece, no piece
   * holds the separator, and joining the pieces back gives `s`.
   */
  function Split(s: string, sep: char): (r: seq<string>)
    ensures |r| >= 1
    ensures forall i :: 0 <= i < |r| ==> sep !in r[i]
    ensures Join(r, sep) == s
  {
    if |s| == 0 then [""]
    else
      var rest := Split(s[1..], sep);
      if s[0] == sep then
        assert ([""] + rest)[1..] == rest;
        [""] + rest
      else
        var r := [[s[0]] + rest[0]] + rest[1..];
        assert r[1..] == rest[1..];
        assert s == [s[0]] + s[1..];
        r
  }

  /** A piece without separators splits to itself. */
  lemma {:induction false} SplitPiece(p: string, sep: char)
    requires sep !in p
    ensures Split(p, sep) == [p]
  {
    if |p| > 0 {
      SplitPiece(p[1..], sep);
      assert [p[0]] + p[1..] == p;
    }
  }

  /** Splitting a piece, a separator and a tail yields the piece first. */
  lemma {:induction false} SplitCons(p: string, sep: char, t: string)
    requires sep !in p
    ensures Split(p + [sep] + t, sep) == [p] + Split(t, sep)
  {
    var s := p + [sep] + t;
    if |p| == 0 {
      assert s[1..] == t;
    } else {
      assert s[1..] == p[1..] + [sep] + t;
      SplitCons(p[1..], sep, t);
      assert [p[0]] + p[1..] == p;
    }
  }

  /** Joining separator-free pieces and splitting again gives the pieces back. */
  lemma {:induction false} SplitJoin(parts: seq<string>, sep: char)
    requires |parts| >= 1
    requires forall i :: 0 <= i < |parts| ==> sep !in parts[i]
    ensures Split(Join(parts, sep), sep) == parts
  {
    if |parts| == 1 {
      SplitPiece(parts[0], sep);
    } else {
      SplitJoin(parts[1..], sep);
      SplitCons(parts[0], sep, Join(parts[1..], sep));
      assert [parts[0]] + parts[1..] == parts;
    }
  }

  // ---------------------------------------------------------------- str(int)

  predicate IsDigit(c: char) {
    '0' <= c <= '9'
  }

  function DigitChar(d: nat): (c: char)
    requires d < 10
    ensures IsDigit(c)
  {
    (48 + d) as char
  }

  function DigitValue(c: char): nat
    requires IsDigit(c)
  {
    c as int - 48
  }

  /** `str(n)` for a non-negative `n`: decimal digits, most significant first. */
  function NatToString(n: nat): (r: string)
    ensures |r| >= 1
    ensures forall i :: 0 <= i < |r| ==> IsDigit(r[i])
  {
    if n < 10 then [DigitChar(n)] else NatToString(n / 10) + [DigitChar(n % 10)]
  }

  /** `str(n)`: a leading '-' for negative numbers. */
  function IntToString(n: int): string {
    if n < 0 then "-" + NatToString(-n) else NatToString(n)
  }

  /** A non-empty run of digits is its own strip. */
  lemma DigitsStripped(t: string)
    requires |t| > 0 && forall i :: 0 <= i < |t| ==> IsDigit(t[i])
    ensures Strip(t) == t
  {
    assert !IsSpace(t[0]) && !IsSpace(t[|t| - 1]);
    StripKeeps(t);
  }

  /** Digits are their own lower case. */
  lemma DigitsLower(t: string)
    requires forall i :: 0 <= i < |t| ==> IsDigit(t[i])
    ensures Lower(t) == t
  {
    assert forall i :: 0 <= i < |t| ==> Lower(t)[i] == t[i];
  }

  // ---------------------------------------------------------------- int(str)

  /** Python's `digitpart`: digits, where a single '_' may stand between two digits. */
  predicate IsDigitPart(s: string) {
    && |s| > 0
    && IsDigit(s[0])
    && forall i :: 0 <= i < |s| ==>
         IsDigit(s[i]) || (s[i] == '_' && i + 1 < |s| && IsDigit(s[i + 1]))
  }

  /** The value of the digits of a run, skipping the underscores between them. */
  function DigitsValue(s: string): nat {
    if |s| == 0 then 0
    else
      var init := DigitsValue(s[..|s| - 1]);
      if IsDigit(s[|s| - 1]) then init * 10 + DigitValue(s[|s| - 1]) else init
  }

  /** The number of digits in a run, that is, its decimal places as a fraction. */
  function DigitCount(s: string): nat {
    if |s| == 0 then 0
    else DigitCount(s[..|s| - 1]) + (if IsDigit(s[|s| - 1]) then 1 else 0)
  }

  function Pow10(n: nat): (r: nat)
    ensures r >= 1
  {
    if n == 0 then 1 else 10 * Pow10(n - 1)
  }

  /**
   * `int(s)` in base 10: surrounding white space, an optional sign, then a
   * digit part. `None` stands for the `ValueError` Python raises otherwise.
   */
  function ParseInt(s: string): Option<int> {
    var t := Strip(s);
    if |t| > 0 && (t[0] == '+' || t[0] == '-') then
      var body := t[1..];
      if IsDigitPart(body) then
        Some(if t[0] == '-' then -(DigitsValue(body) as int) else DigitsValue(body))
      else None
    else if IsDigitPart(t) then Some(DigitsValue(t))
    else None
  }

  /** The digits of `str(n)` read back give `n`. */
  lemma {:induction false} NatToStringValue(n: nat)
    ensures IsDigitPart(NatToString(n))
    ensures DigitsValue(NatToString(n)) == n
  {
    var s := NatToString(n);
    if n >= 10 {
      NatToStringValue(n / 10);
      assert s[..|s| - 1] == NatToString(n / 10);
    }
  }

  /** `int(str(n)) == n` for every integer. */
  lemma IntToStringRoundTrip(n: int)
    ensures ParseInt(IntToString(n)) == Some(n)
  {
    var s := IntToString(n);
    NatToStringValue(if n < 0 then -n else n);
    StripKeeps(s);
    if n < 0 {
      assert s[1..] == NatToString(-n);
    }
  }

  /** Distinct integers have distinct decimal renderings. */
  lemma IntToStringInjective(a: int, b: int)
    ensures IntToString(a) == IntToString(b) <==> a == b
  {
    IntToStringRoundTrip(a);
    IntToStringRoundTrip(b);
  }

  // ---------------------------------------------------------------- float(str)

  /** What `float(s)` returns: a finite number, or one of inf / nan. */
  datatype FloatValue = Finite(value: real) | NonFinite

  /** The first index of `c` in `s`. */
  function IndexOf(s: string, c: char): (r: Option<nat>)
    ensures r.None? ==> c !in s
    ensures r.Some? ==> r.value < |s| && s[r.value] == c && c !in s[..r.value]
  {
    if |s| == 0 then None
    else if s[0] == c then Some(0)
    else
      match IndexOf(s[1..], c)
      case None => None
      case Some(i) =>
        assert s[..i + 1] == [s[0]] + s[1..][..i];
        Some(i + 1)
  }

  /** `v * 10^e` for an integer exponent of either sign. */
  function Scale(v: real, e: int): real {
    if e >= 0 then v * Pow10(e) as real else v / Pow10(-e) as real
  }

  /** Python's `int(x)` of a float: truncation toward zero. */
  function Trunc(x: real): (r: int)
    ensures 0.0 <= x ==> r as real <= x < r as real + 1.0
    ensures x < 0.0 ==> r as real - 1.0 < x <= r as real
  {
    if x >= 0.0 then x.Floor else -((-x).Floor)
  }

  /** Python's `number`: `[digitpart] "." digitpart | digitpart ["."]`. */
  function ParseMantissa(m: string): Option<real> {
    match IndexOf(m, '.')
    case None => if IsDigitPart(m) then Some(DigitsValue(m) as real) else None
    case Some(i) =>
      var whole := m[..i];
      var frac := m[i + 1..];
      if (whole == "" && IsDigitPart(frac)) || (IsDigitPart(whole) && (frac == "" || IsDigitPart(frac))) then
        Some(DigitsValue(whole) as real + DigitsValue(frac) as real / Pow10(DigitCount(frac)) as real)
      else None
  }

  /** Python's `exponent` after its 'e': `[sign] digitpart`. */
  function ParseExponent(x: string): Option<int> {
    if |x| > 0 && (x[0] == '+' || x[0] == '-') then
      if IsDigitPart(x[1..]) then
        Some(if x[0] == '-' then -(DigitsValue(x[1..]) as int) else DigitsValue(x[1..]))
      else None
    else if IsDigitPart(x) then Some(DigitsValue(x))
    else None
  }

  /** An unsigned `floatnumber`: a mantissa, then an optional exponent. */
  function ParseUnsignedFloat(s: string): Option<real> {
    var e := match IndexOf(s, 'e') case Some(i) => Some(i) case None => IndexOf(s, 'E');
    match e
    case None => ParseMantissa(s)
    case Some(i) =>
      match (ParseMantissa(s[..i]), ParseExponent(s[i + 1..]))
      case (Some(v), Some(x)) => Some(Scale(v, x))
      case _ => None
  }

  /** The words `float()` reads as infinity or NaN, once lower-cased. */
  predicate IsNonFiniteWord(w: string) {
    w == "inf" || w == "infinity" || w == "nan"
  }

  /**
   * `float(s)`: surrounding white space, an optional sign, then a decimal
   * literal or one of inf / infinity / nan in any case. `None` stands for the
   * `ValueError` Python raises otherwise.
   */
  function ParseFloat(s: string): Option<FloatValue> {
    var t := Strip(s);
    var signed := |t| > 0 && (t[0] == '+' || t[0] == '-');
    var body := if signed then t[1..] else t;
    if IsNonFiniteWord(Lower(body)) then Some(NonFinite)
    else
      match ParseUnsignedFloat(body)
      case None => None
      case Some(v) => Some(Finite(if signed && t[0] == '-' then -v else v))
  }

  /** A text of digits holds none of the characters that shape a float literal. */
  lemma DigitsHaveNoMarks(s: string)
    requires forall i :: 0 <= i < |s| ==> IsDigit(s[i])
    ensures IndexOf(s, 'e').None? && IndexOf(s, 'E').None? && IndexOf(s, '.').None?
  {
    assert 'e' !in s && 'E' !in s && '.' !in s;
  }

  /** The digits of `str(n)` read as an unsigned float literal give `n`. */
  lemma NatToStringUnsignedFloat(n: nat)
    ensures ParseUnsignedFloat(NatToString(n)) == Some(n as real)
  {
    var s := NatToString(n);
    NatToStringValue(n);
    DigitsHaveNoMarks(s);
  }

  /** `float(str(n))` is `n` for every natural number. */
  lemma NatToStringFloat(n: nat)
    ensures ParseFloat(NatToString(n)) == Some(Finite(n as real))
  {
    var s := NatToString(n);
    DigitsStripped(s);
    DigitsLower(s);
    DigitsNotNonFinite(s);
    NatToStringUnsignedFloat(n);
    ParseFloatPlain(s);
  }

  /** A run of digits is not one of the non-finite words. */
  lemma DigitsNotNonFinite(s: string)
    requires |s| > 0 && IsDigit(s[0])
    ensures !IsNonFiniteWord(s)
  {
  }

  /** An unsigned, stripped literal that is not a non-finite word reads as its unsigned value. */
  lemma ParseFloatPlain(s: string)
    requires Strip(s) == s && |s| > 0 && s[0] != '+' && s[0] != '-'
    requires !IsNonFiniteWord(Lower(s)) && ParseUnsignedFloat(s).Some?
    ensures ParseFloat(s) == Some(Finite(ParseUnsignedFloat(s).value))
  {
  }
}
